=== FILE: README.md ===
# my_shop checkout and stock bookkeeping, in Dafny

This project models the core of the my_shop web shop (a Django/DRF shop with a small bank service): how an order is created from a request body and confirmed, how order lines move stock and order costs, how prices are resolved and re-counted, the session basket, the payment pipeline between the shop, the Celery queue and the bank, the catalog query and its pagination, the category tree with its nesting rules, and the field validators and admin forms around them.

Everything is modelled as immutable data and total functions. The shop is one value `Ledger.Shop(products, orders, lines, nextOrderId)`:
- `lines` is a map from (order id, product id) to a line, so the `unique_together` constraint holds by construction;
- money is integer cents;
- every transaction returns `Ok(new state)` or an error value, and an error leaves the state as it was, which is what the `transaction.atomic` blocks give;
- the clock (`today`, the current year), the bank's random message choice and the outcome of the HTTP call to the bank are parameters.

Modules, one per source area:
- `Wrappers`: the `Option` and `Result` types.
- `Money`: cents and half-even rounding.
- `Sums`: the sum of a map of integers.
- `Text`: `str.strip`, `str.isspace`, `str.isdigit`, `int`/`str` conversions and anchored regex matches.
- `Forms`: the result of a Django `clean_*` method: a value, a `ValidationError`, or an uncaught exception.
- `Products`, `Categories`, `Ledger`, `OrderModel`, `Pricing`, `Basket`, `OrderSerializers`, `OrderService` (in `checkout.dfy`), `OrderedProductForm`, `Payment`, `PaymentTask`, `Bank`, `Catalog`, `Pagination`, `FieldValidators`, `ProductValidators`, `CategoryForms`, `ProductForms` and `OrderForms`: one each for the part of the shop they are named after.

The central invariants are three per-order and per-product balances (`OrderModel`):
- `Drift`: an order's products cost minus the price of its lines;
- `Surcharge`: its total cost minus its products cost;
- `Held`: a product's stock plus the units its order lines hold.

Line creation, update and deletion, checkout and confirmation are proved to keep or set them as stated below.

## Model

| member | source | states |
|---|---|---|
| Ledger.StatusFromName | shop/orders/constants.py:3-9 | a status found from a name carries exactly that name |
| Ledger.StatusNameRoundTrip | shop/orders/constants.py:3-9 | every status is found again from its name |
| Ledger.StatusNameInjective | shop/orders/constants.py:3-9 | distinct statuses have distinct names |
| Ledger.NewOrder | shop/orders/services/order.py:108-113 | a created order carries its user, status and cost as both products cost and total cost; every other column has its default |
| Ledger.OrderLines | shop/orders/models/order.py:30-31 | the lines of one order, keyed by product, are exactly the stored lines with that order id |
| Ledger.ProductLines | shop/products/forms/product.py:65-68 | the lines holding one product, keyed by order, are exactly the stored lines with that product id |
| Ledger.SoldAmount | shop/products/forms/product.py:65-68 | the summed ordered quantity of a product is missing when no line holds it, and otherwise is what its lines hold |
| Ledger.OrderPriceEmpty | shop/orders/models/order.py:48-56 | an order without lines has price 0 |
| Ledger.OrderPriceSet | shop/orders/models/order.py:48-56 | writing line (o, p) moves the price of order o by the change of that line and leaves every other order's price alone |
| Ledger.OrderPriceRemove | shop/orders/models/order.py:48-56 | deleting line (o, p) takes its price off order o and off no other order |
| Ledger.ReservedSet | shop/orders/models/order.py:30-31 | writing line (o, p) moves the units reserved for p by the change of that line and leaves every other product alone |
| Ledger.ReservedNonNegative | shop/orders/models/order.py:23-25 | a product's reserved units are never negative, since line quantities are not |
| Ledger.ReservedRemove | shop/orders/models/order.py:58-78 | deleting line (o, p) gives its units back from p's reserved amount and from no other product's |
| Money.RoundHalfEven | shop/orders/services/ordered_product.py:16-19 | the result is a nearest integer to n/d and, on a tie, the even one |
| Money.HalfEvenRoundingUnique | shop/orders/services/ordered_product.py:16-19 | the half-even rounding rule has exactly one solution, so the model rounds as Python does and not merely close to it |
| Money.RoundExact | shop/orders/services/ordered_product.py:16-19 | an exact quotient is not changed by rounding |
| Money.RoundAtMost | shop/orders/services/ordered_product.py:16-19 | rounding never goes above an integer upper bound of the quotient |
| Money.RoundAtLeast | shop/orders/services/ordered_product.py:16-19 | rounding never goes below an integer lower bound of the quotient |
| Products.FinalPrice | shop/products/models/product.py:71-87 | the price paid today is the base price or a non-zero sale price |
| Products.FinalPriceIsSalePrice | shop/products/models/product.py:79-85 | when the two prices differ, the sale price is charged exactly when the sale flag is set, a non-zero sale price is stored and today lies in the window |
| Products.NoSaleFlagBasePrice | shop/products/models/product.py:79-87 | without the sale flag the base price applies on every day |
| Products.ZeroSalePriceIgnored | shop/products/models/product.py:81 | a sale price of 0 counts as no sale price |
| Products.SalesWindowInclusive | shop/products/models/product.py:82-83 | the first and the last day of the window sell at the sale price; the days just outside it do not |
| Products.AvailableIds | shop/products/models/product.py:159-181 | an id is returned exactly when it was requested, is known, and its product is active with stock above 0 |
| Products.UnavailableIds | shop/products/models/product.py:145-157 | an id is returned exactly when it was requested, is known, and its product is inactive or has no stock left |
| Products.AvailabilityPartition | shop/products/models/product.py:145-181 | "available" and "unavailable" split the known requested ids between them with no overlap |
| Products.SalesListingIgnoresSalePrice | shop/products/models/product.py:127-143 | one instance: a flagged product without a sale price is in the sales listing but still sells at its base price |
| Products.ListedSalePrice | shop/products/models/product.py:127-143 | a listed product with a non-zero sale price sells at it today and is available |
| Categories.AncestorCompose | shop/products/models/category.py:29-44 | following i parent links and then j more is following i + j links |
| Categories.AncestorPrefix | shop/products/models/category.py:29-44 | every category on the way to an existing ancestor is a known category |
| Categories.AcyclicBound | shop/products/models/category.py:29-44 | on an acyclic tree no chain of known ancestors is as long as the number of categories, so the upward walks stop |
| Categories.ActiveRun | shop/products/models/category.py:36-40 | the run of active ancestors is extended until the next ancestor is missing or inactive |
| Categories.NestingLevel | shop/products/models/category.py:98-104 | the level is missing exactly for an unknown id; otherwise all ancestors up to the level are active and the next one is not |
| Categories.NestingLevelExact | shop/products/models/category.py:29-44 | on an acyclic tree the level is exactly the number of consecutive active ancestors |
| Categories.RootLevelZero | shop/products/models/category.py:36-40 | a category whose parent is missing or inactive is at level 0 |
| Categories.RootId | shop/products/models/category.py:122-131 | no root for a parentless category; a root that is found is a known, active category without a parent |
| Categories.RootIdReached | shop/products/models/category.py:12-28 | on an acyclic tree, a parentless ancestor reached through active ancestors only is the root found |
| Categories.RootIdIsAncestor | shop/products/models/category.py:12-28 | a root that is found is an ancestor reached through active ancestors only |
| Categories.Children | shop/products/models/category.py:53-56 | the active subcategories of a set of categories are known categories |
| Categories.Frontier | shop/products/models/category.py:45-60 | the rows of one depth in the subcategory query are known categories |
| Categories.FrontierMembers | shop/products/models/category.py:45-60 | a category is a row of depth d exactly when it lies d links below the start and it and every category between are active |
| Categories.FrontierEmptyStays | shop/products/models/category.py:45-60 | once a depth has no rows, no deeper depth has any |
| Categories.FrontierBounded | shop/products/models/category.py:45-60 | on an acyclic tree a depth with rows is below the number of categories, so the downward walk stops |
| Categories.Deepest | shop/products/models/category.py:45-60 | the deepest non-empty depth from a non-empty one has rows and the next depth has none |
| Categories.SubtreeLevel | shop/products/models/category.py:107-119 | the subtree level is missing exactly for an unknown id, and the query has rows at that depth |
| Categories.SubtreeLevelIsMax | shop/products/models/category.py:45-60 | on an acyclic tree no depth beyond the subtree level has rows, so it is the maximum depth |
| Categories.LeafLevelZero | shop/products/models/category.py:45-60 | a category without active subcategories has subtree level 0 |
| Categories.ChainExample | shop/products/models/category.py:12-60 | in the chain 1 to 2 to 3 the levels are 0, 1, 2, the subtree levels 2, 1, 0, and 1 is the root of 2 and 3 |
| OrderModel.LockProduct | shop/orders/models/order.py:89-92 | the locked product is found exactly when it exists, is active and has at least one unit |
| OrderModel.ShiftCosts | shop/orders/models/order.py:101-107 | both costs of the named order move by the amount; a missing order and every other order are unchanged |
| OrderModel.CustomCreate | shop/orders/models/order.py:80-108 | a line creation fails for an unlocked product, or for too little stock with no change; otherwise the stock drops by the quantity, both costs grow by the line price and the line is written |
| OrderModel.CustomUpdate | shop/orders/models/order.py:110-142 | an update needs the product available even when shrinking, fails when the stock is below the extra units (equality passes), and otherwise moves stock by the change of quantity and both costs by the change of price |
| OrderModel.CustomDelete | shop/orders/models/order.py:58-78 | a deletion gives the units back, takes the price off both costs and removes the line, with no check and no failure |
| OrderModel.BulkAdd | shop/orders/models/order.py:38-46 | adding an order's lines fails as a whole if any of them exists, and otherwise adds exactly them |
| OrderModel.BulkAddNothing | shop/orders/models/order.py:38-46 | adding no lines changes nothing |
| OrderModel.ResetDeliveryRelatedCosts | shop/orders/models/order.py:235-247 | the total becomes the products cost plus the delivery cost, the products cost stays and no other order changes |
| OrderModel.WriteLineBalanced | shop/orders/models/order.py:80-142 | writing a line while moving stock and both costs by that line's change keeps every drift, surcharge and held amount |
| OrderModel.WriteLineKeepsDrift | shop/orders/models/order.py:101-141 | moving the products cost with the line's price keeps every order's drift |
| OrderModel.ShiftKeepsSurcharge | shop/orders/models/order.py:101-141 | moving both costs together keeps every order's surcharge |
| OrderModel.CostsMoveBy | shop/orders/models/order.py:134-141 | shifting order o moves both costs of o by the amount and those of no other order |
| OrderModel.PriceMovesBy | shop/orders/models/order.py:48-56 | writing a line of order o moves the price of o by the line's change and that of no other order |
| OrderModel.WriteLineKeepsHeld | shop/orders/models/order.py:99-133 | moving stock against the line's quantity keeps every product's held amount |
| OrderModel.CreateBalanced | shop/orders/models/order.py:80-108 | a successful line creation keeps every drift, surcharge and held amount |
| OrderModel.UpdateBalanced | shop/orders/models/order.py:110-142 | a successful update whose previous values are the stored ones keeps every balance |
| OrderModel.DeleteBalanced | shop/orders/models/order.py:58-78 | deleting a line with its stored values keeps every balance |
| OrderModel.DeleteUndoesCreate | shop/orders/models/order.py:58-108 | deleting a line just created restores the shop as it was |
| OrderModel.ResetDeliveryBalanced | shop/orders/models/order.py:235-247 | resetting the delivery cost keeps every drift and every held amount, and the order's surcharge becomes the delivery cost |
| OrderModel.OperationsKeepValid | shop/orders/models/order.py:58-142 | creation, update and deletion keep every line attached to an existing order |
| Pricing.DeliveryCost | shop/orders/services/common.py:6-16 | delivery is free from the threshold on, inclusive, and costs the type's price below it; a missing threshold raises |
| Pricing.DeliveryCostAntitone | shop/orders/services/common.py:13-16 | with a non-negative delivery price a dearer order never pays more for delivery |
| Pricing.RecountTotalPrice | shop/orders/services/ordered_product.py:6-24 | an unchanged quantity keeps the total, a smaller one rounds the proportional total half to even, a larger one adds the extra units at today's price |
| Pricing.RecountExamples | shop/orders/services/ordered_product.py:16-23 | 10 units for 100.00 reduced to 4 cost 40.00; 4 units for 40.00 raised to 6 at 12.00 cost 64.00 |
| Pricing.RecountKeepsUnitPrice | shop/orders/services/ordered_product.py:16-19 | a line priced at whole cents per unit keeps that unit price when reduced |
| Pricing.RecountToZero | shop/orders/services/ordered_product.py:16-19 | reducing a line to 0 units makes it cost 0 |
| Pricing.RecountDecreaseBounded | shop/orders/services/ordered_product.py:16-19 | a reduction costs between nothing and the previous total |
| Pricing.RecountIncreaseBounded | shop/orders/services/ordered_product.py:20-23 | an increase at a non-negative price never costs less than before |
| Pricing.RecountFromNothing | shop/orders/services/ordered_product.py:16-23 | a line with no units takes the increase branch, so nothing is divided by zero |
| Pricing.PurchasedPrice | shop/orders/forms/ordered_product.py:30-40 | the shown unit price is the line total over its quantity rounded half to even; a zero quantity raises |
| Pricing.PurchasedPriceRoundTrip | shop/orders/forms/ordered_product.py:30-40 | a line priced as quantity times a unit price shows that unit price again |
| OrderedProductForm.ValidateExtraQuantity | shop/orders/forms/ordered_product.py:46-72 | the extra units pass only when the stock exceeds them strictly |
| OrderedProductForm.ValidateTotalQuantity | shop/orders/forms/ordered_product.py:74-101 | nothing is checked unless the quantity grows; then an unavailable product is a "product" error and the stock must exceed the extra units |
| OrderedProductForm.Clean | shop/orders/forms/ordered_product.py:103-140 | a new line costs its quantity at today's price, a deleted or untouched line keeps its stored price, an edited line is re-counted from its stored values |
| OrderedProductForm.FormStricterThanModel | shop/orders/forms/ordered_product.py:46-72 | taking exactly the remaining stock is refused by the form and accepted by the model's update |
| OrderedProductForm.FormAcceptedEditApplies | shop/orders/forms/ordered_product.py:103-140 | an edit the form accepts never fails the model's stock check |
| OrderedProductForm.FormAcceptedNewLineApplies | shop/orders/forms/ordered_product.py:103-120 | a new line of at least one unit the form accepts never fails for lack of stock |
| Basket.KeyRoundTrip | shop/orders/services/basket.py:105-110 | the session key of a product id reads back as that id, so distinct ids have distinct keys |
| Basket.Current | shop/orders/services/basket.py:102-103 | a missing basket counts as an empty one |
| Basket.AddItem | shop/orders/services/basket.py:98-112 | adding stores an absent item under its key, adds the count to a present one, and leaves every other line alone |
| Basket.RemoveItem | shop/orders/services/basket.py:114-131 | removing an absent item empties the whole basket; otherwise its count drops, the line goes once it is not positive, and every other line stays |
| Basket.AddQuantity | shop/orders/services/basket.py:105-110 | adding moves the basket quantity of the added product by its count and of no other |
| Basket.RemoveQuantity | shop/orders/services/basket.py:126-130 | removing from a present line lowers its quantity, never below 0, and changes no other |
| Basket.UpdatesKeepCanonical | shop/orders/services/basket.py:98-131 | adding and removing keep every line stored under its own product's key |
| Basket.RemoveUndoesAdd | shop/orders/services/basket.py:98-131 | removing what was just added to a basket without it gives back the basket |
| Basket.RemoveMissingDiscardsAll | shop/orders/services/basket.py:120-125 | one instance: removing a product not in the basket discards the other lines too |
| Basket.ValidateItem | shop/orders/serializers/basket.py:15-35 | an item passes exactly when its product exists and is active with stock at least the requested count; a missing or inactive product is a different error from a short stock |
| Basket.ValidateItemBoundary | shop/orders/serializers/basket.py:30-34 | a count equal to the stock passes and one more fails |
| Basket.ListLine | shop/orders/serializers/basket.py:48-68 | the shown count is the smaller of the requested count and the stock, and the shown price is that count times the base price |
| Basket.ListBasket | shop/orders/services/basket.py:133-154 | the listing shows exactly the active products in the basket, each with its basket count |
| Basket.ListLineCapsAtStock | shop/orders/serializers/basket.py:48-58 | a request above the stock is shown capped at the stock |
| Basket.HandleItem | shop/orders/services/basket.py:22-96 | an invalid item leaves the basket alone with 500 for a missing product and 400 otherwise; a valid one is added or removed |
| Basket.RemovalOfSoldOutRefused | shop/orders/services/basket.py:71-96 | a removal of a product with too little stock is refused with 400 and the basket stays |
| OrderSerializers.ItemErrors | shop/orders/serializers/order.py:131-149 | an ordered item fails on an id below 1, a price not positive or too long, and a count below 1 |
| OrderSerializers.ValidateOrderedProduct | shop/orders/serializers/order.py:131-158 | an item passes exactly without errors and then becomes product id, quantity and line price price times count |
| OrderSerializers.ValidatePhone | shop/orders/serializers/order.py:43-54 | no phone passes; a phone passes exactly when its stripped form is valid, and is kept stripped |
| OrderSerializers.ValidateFullNameField | shop/orders/serializers/order.py:56-67 | no name passes; a name passes exactly when its stripped form is valid, and is kept stripped |
| OrderSerializers.ValidateTypeName | shop/orders/serializers/order.py:69-115 | a type name passes exactly when it is missing, empty or allowed, and is kept as given |
| OrderSerializers.ValidateCityField | shop/orders/serializers/order.py:82-90 | a city passes exactly when its stripped form is valid, and is kept stripped |
| OrderSerializers.ValidateAddressField | shop/orders/serializers/order.py:92-100 | an address passes exactly when its stripped form is valid, and is kept stripped |
| OrderSerializers.Trimmed | shop/orders/serializers/order.py:31-41 | a given text field is trimmed and a missing one stays missing |
| OrderSerializers.ValidateConfirmation | shop/orders/serializers/order.py:31-128 | a confirmation fails with exactly its failing fields; an accepted one has every required field, valid name and phone, and the renamed keys |
| OrderSerializers.TypeNamesTrimmed | shop/orders/serializers/order.py:31-80 | a blank type name is accepted as empty and a padded allowed one is found |
| OrderSerializers.PhoneStrippedBeforeCheck | shop/orders/serializers/order.py:43-54 | one instance: a phone with surrounding spaces is accepted and stored stripped |
| OrderSerializers.StatusText | shop/orders/serializers/order.py:232-239 | the status text is missing exactly without a status; it is the name, followed by the comment in brackets when there is a non-empty one |
| OrderSerializers.StatusTextStartsWithName | shop/orders/serializers/order.py:232-239 | the status name is always a prefix of the status text |
| OrderSerializers.FirstTruthy | shop/orders/serializers/order.py:196-215 | the first non-empty of two optional texts, missing when both are empty |
| OrderSerializers.ShownReceiver | shop/orders/serializers/order.py:196-215 | each receiver field is the order's own value when it is non-empty, else the profile's when that is non-empty, else nothing |
| OrderSerializers.OwnReceiverShown | shop/orders/serializers/order.py:196-215 | an order carrying all of its own receiver data shows exactly that data, whatever the profile holds |
| OrderService.InitOrderData | shop/orders/services/order.py:199-211 | every kept item is stored under its own product id |
| OrderService.InitOrderDataErrors | shop/orders/services/order.py:205-207 | the request fails exactly when some item is invalid, with the fields of the first invalid item |
| OrderService.InitOrderDataCost | shop/orders/services/order.py:204-208 | the cost of an accepted request is price times count summed over every item, repeated or not |
| OrderService.InitOrderDataProducts | shop/orders/services/order.py:203-209 | an accepted request keeps one item per named product, the last item naming it |
| OrderService.InitOrderDataKeys | shop/orders/services/order.py:203-209 | the kept products are exactly the products the request names |
| OrderService.InitOrderDataLast | shop/orders/services/order.py:203-209 | each kept item is the validated form of the last item naming its product |
| OrderService.LinesOf | shop/orders/services/order.py:117-119 | the new lines are keyed by the kept products and carry their quantity and price |
| OrderService.ReduceStock | shop/orders/services/order.py:224-241 | each ordered product loses exactly its ordered units and every other product is unchanged |
| OrderService.CreateInitOrder | shop/orders/services/order.py:99-119 | checkout fails on an invalid item, on an unavailable product, or on a short stock; otherwise it creates a "created" order whose costs are the request's cost, takes the stock and adds the lines |
| OrderService.CheckoutFailsOnlyOnChecks | shop/orders/services/order.py:99-119 | on a consistent shop checkout fails only on the item and stock checks |
| OrderService.EmptyOrderAccepted | shop/orders/services/order.py:99-121 | an empty request is not refused: it creates an order of cost 0 with no lines and takes no stock |
| OrderService.DuplicateItemsCostedTwice | shop/orders/services/order.py:203-209 | one instance: a product named twice is paid for twice but recorded once |
| OrderService.BulkAddReserved | shop/orders/models/order.py:38-46 | adding a fresh order's lines moves each product's reserved units by its new line |
| OrderService.SameProductLines | shop/orders/models/order.py:30-31 | a product's reserved units depend only on the lines holding it |
| OrderService.BulkAddOrderLines | shop/orders/models/order.py:38-46 | the lines of a fresh order are exactly the added ones |
| OrderService.CheckoutConservesStock | shop/orders/services/order.py:108-119 | a successful checkout keeps the shop consistent and every product's stock plus reserved units |
| OrderService.LinePricesStep | shop/orders/services/order.py:208-209 | adding a line for a new product adds its price to the lines' price |
| OrderService.DistinctCostIsLinePrice | shop/orders/services/order.py:203-211 | when no product is named twice the request's cost is the price of its lines |
| OrderService.CheckoutNewOrder | shop/orders/services/order.py:108-119 | the new order holds exactly the request's lines and costs the request's cost |
| OrderService.CheckoutWithoutRepeatsHasNoDrift | shop/orders/services/order.py:108-119 | when no product is named twice, the new order has neither drift nor surcharge |
| OrderService.NewOrderHasNoDrift | shop/orders/services/order.py:108-113 | an order created with the price of its lines as its cost has neither drift nor surcharge |
| OrderService.CreateInitOrderResponse | shop/orders/services/order.py:86-126 | success drops the basket and returns the id; an invalid item answers 400 and a stock failure 500, both leaving the shop and the basket as they were |
| OrderService.DeliveryChoice | shop/orders/services/order.py:149-196 | a confirmation naming no delivery type, an empty one or "ordinary" is charged the ordinary delivery cost, any other name the express one; it fails exactly when that type has no free-delivery threshold |
| OrderService.PaymentChoice | shop/orders/services/order.py:161-190 | a confirmation naming no payment type, an empty one or "online" is paid online, any other name by someone else |
| OrderService.UpdateInitOrder | shop/orders/services/order.py:173-197 | confirming writes the receiver data and both types, sets "confirmed", and makes the total the products cost plus the delivery cost; it fails only on a missing threshold |
| OrderService.ApplyConfirmation | shop/orders/services/order.py:139-141 | confirmation fails for a missing order or an uncountable cost, and otherwise changes only that order |
| OrderService.ConfirmOrder | shop/orders/services/order.py:136-141 | the body is validated before the order is looked up |
| OrderService.ConfirmKeepsBalances | shop/orders/services/order.py:173-197 | confirming keeps the order's drift, touches no other order, line or stock, and makes the surcharge the delivery cost, as a delivery reset would |
| OrderService.ConfirmIgnoresPriorStatus | shop/orders/services/order.py:179 | a paid order is confirmed again |
| OrderService.ConfirmIdempotent | shop/orders/services/order.py:173-197 | confirming twice with the same data gives the state of confirming once |
| OrderService.UpdateInitOrderIdempotent | shop/orders/services/order.py:173-197 | writing the same confirmation data twice writes nothing new |
| OrderService.ConfirmOrderResponse | shop/orders/services/order.py:128-147 | 200 with the id on success; on failure nothing is written, with 400 for an invalid body or a missing order and 500 otherwise |
| Payment.ShortYear | shop/orders/serializers/payment.py:11 | the two-digit current year is below 2000 |
| Payment.CheckNumber | shop/orders/serializers/payment.py:31-37 | a card number passes exactly when it is all digits of the configured length |
| Payment.CheckCode | shop/orders/serializers/payment.py:68-74 | a card code passes exactly when it is all digits of the configured length |
| Payment.CheckName | shop/orders/serializers/payment.py:39-46 | a card holder name passes exactly when it is a valid full name |
| Payment.CheckMonth | shop/orders/serializers/payment.py:48-54 | a month passes exactly when it is between 1 and 12 |
| Payment.CheckYear | shop/orders/serializers/payment.py:56-66 | a year from the two-digit current year on is kept; a smaller one is retried modulo 2000 and kept only if that reaches the current year |
| Payment.YearRetryOnlyForNegatives | shop/orders/serializers/payment.py:56-66 | for a non-negative year the retry never rescues it |
| Payment.MinusOneIsLate | shop/orders/serializers/payment.py:62-64 | a year of -1 is accepted as 1999 |
| Payment.CardErrors | shop/orders/serializers/payment.py:31-74 | a card field is reported exactly when its check fails |
| Payment.ValidateCard | shop/orders/serializers/payment.py:31-74 | a card passes exactly when every field does, and is then the checked values |
| Payment.PayOrder | shop/orders/services/payment.py:20-48 | an invalid card answers 400 and changes nothing; a missing order answers 500; otherwise the order becomes "payment in progress" and a task with its total is queued |
| Payment.PayOrderOnlyMarksInProgress | shop/orders/services/payment.py:36-41 | paying changes only the status of the paid order |
| Payment.PaidOrderPayableAgain | shop/orders/services/payment.py:36-41 | an order already paid for can be paid again |
| Payment.ApplyPaymentResult | shop/orders/services/payment.py:50-66 | "payed" sets the status and clears the comment; any other result sets "payment rejected" with the message; a missing order changes nothing |
| Payment.ApplyPaymentResultIdempotent | shop/orders/services/payment.py:61-64 | applying the same result twice gives the state of applying it once |
| Payment.AppliedResultComment | shop/orders/services/payment.py:55-64 | the order is paid exactly for a "payed" result, and has a comment exactly when the payment was rejected with a message |
| PaymentTask.ConductOrderPayment | shop/orders/tasks.py:32-64 | one result per call carrying the order id, "payed" exactly when the bank answered 200, with the timeout, internal-error or bank message |
| PaymentTask.PaidDespiteUnreadableReply | shop/orders/tasks.py:47-55 | an unreadable body after a 200 still marks the order paid |
| PaymentTask.TimeoutRejects | shop/orders/tasks.py:51-52 | a bank timeout rejects the payment with the not-responding message |
| PaymentTask.PaymentRoundTrip | shop/orders/tasks.py:32-64 | a valid payment of an existing order, charged by the bank and applied, ends "payed" exactly when the bank approves the card |
| Bank.NameRuleIsFullNameRule | bank/schema.py:46-57 | the bank's holder-name rule is the shop's full-name rule |
| Bank.CodeRuleIsLoose | bank/schema.py:36-44 | a code passes exactly when it has 3 characters of any kind or consists of digits, however many |
| Bank.ChargeUser | bank/services.py:71-88 | a charge is approved exactly when the card number is even and not a multiple of 10; a refusal is one of the canned messages |
| Bank.ApprovedByLastDigit | bank/services.py:81-84 | approval depends only on the last digit being 2, 4, 6 or 8 |
| Bank.ConductUserPayment | bank/services.py:30-59 | 200 exactly for valid details and an approved charge; 400 for a refusal, invalid details or a bad token; 500 for anything else |
| Bank.ShopCardMeetsSchema | bank/schema.py:17-34 | a card the shop accepts, with the bank's number length, passes the bank's schema |
| Catalog.CategoryRule | shop/products/serializers/catalog.py:36-44 | the category is reported exactly for a non-zero id outside the active categories; no category, `None` or 0 always passes, whichever categories are active |
| Catalog.TextOr | shop/products/serializers/catalog.py:18-34 | a text key left out takes its default and a given one is trimmed |
| Catalog.ParamErrors | shop/products/serializers/catalog.py:15-63 | the reported parameters are exactly those whose check fails |
| Catalog.ParamErrorsByField | shop/products/serializers/catalog.py:15-63 | `None` is refused for every field but the category; a price must be given within 0 to 500000; a sort or sort type left out takes an allowed default, while a given one must be in its list once trimmed |
| Catalog.ValidateParams | shop/products/serializers/catalog.py:15-63 | the data passes exactly when no key but the category is `None` and every check passes; it then carries the given values, the defaults of the keys left out, and trimmed text |
| Catalog.DefaultQuery | shop/products/serializers/catalog.py:28-34 | the serializer given none of its keys validates to page 1 of 20, newest first; the catalog request never leaves a key out (see `Catalog.EmptyRequestRefused`) |
| Catalog.FilterItems | shop/products/serializers/catalog.py:82-109 | name, tags, availability and free delivery filter only when truthy; the prices filter whenever given, 0 included |
| Catalog.OrderByField | shop/products/serializers/catalog.py:122-129 | date, reviews and rating are renamed to their columns; other names are kept |
| Catalog.SortItem | shop/products/serializers/catalog.py:111-133 | no ordering without a sort; otherwise the column, behind "-" exactly when descending |
| Catalog.SortItemRoundTrip | shop/products/serializers/catalog.py:111-133 | every valid sort and sort type is recovered from its sort item |
| Catalog.ToQuery | shop/products/serializers/catalog.py:65-80 | category 0 becomes no category; filters, sort and pagination as above |
| Catalog.BlankNameZeroPrice | shop/products/serializers/catalog.py:91-104 | a blank name filters nothing, while a minimum price of 0 still filters |
| Catalog.FromUrl | shop/products/services/catalog.py:80-97 | every key is sent: a parameter missing from the URL arrives as `None`, and the tags as a list |
| Catalog.SearchDetails | shop/products/services/catalog.py:80-99 | a request is accepted exactly when it carries every parameter but the category and tags, with valid values; the page, limit, prices, category and sort are then the request's own, never a default |
| Catalog.EmptyRequestRefused | shop/products/services/catalog.py:80-99 | a request without parameters is refused, with every field but the category and the tags reported |
| Pagination.Page | shop/products/services/common.py:4-12 | a page is the Python slice from (page - 1) times limit, holds at most limit items, and fails where Django refuses a negative index |
| Pagination.FloorDiv | shop/products/services/common.py:18 | floor division as Python's // |
| Pagination.LastPage | shop/products/services/common.py:14-18 | a zero limit raises; with a positive limit the last page covers the last record and no page beyond it is needed |
| Pagination.LastPageIsCeiling | shop/products/services/common.py:14-18 | the last page is the least number of pages holding every record |
| Pagination.PagesArePrefix | shop/products/services/common.py:9-11 | pages 1 to k together list the first k times limit items, in order and without overlap |
| Pagination.LastPageListsAll | shop/products/services/common.py:9-18 | pages 1 to the last page list every item |
| FieldValidators.ValidateFullName | shop/common/validators.py:56-61 | a full-name error is always the full-name message |
| FieldValidators.ValidatePhoneNumber | shop/common/validators.py:66-71 | a phone error is always the phone message |
| FieldValidators.ValidateCityName | shop/orders/validators.py:17-24 | a city error is the message naming the input |
| FieldValidators.ValidateAddress | shop/orders/validators.py:29-34 | an address error is the message naming the input |
| FieldValidators.ValidateProfileFullName | shop/user_profile/validators.py:19-26 | the profile full-name rule agrees with the common one on every input |
| FieldValidators.ValidateProfileUniquePhone | shop/user_profile/validators.py:29-36 | the profile phone rule agrees with the common one on every input |
| FieldValidators.NotSpaceWitness | shop/common/validators.py:59-60 | a matched string is not all whitespace exactly when it has a class character other than a space |
| FieldValidators.FullNameAccepted | shop/common/validators.py:56-61 | a full name passes exactly when it has at least 2 Latin or Cyrillic letters or spaces (one trailing newline allowed) and some letter |
| FieldValidators.CityAccepted | shop/orders/validators.py:17-24 | a city passes exactly when it has at least 3 letters or spaces (one trailing newline allowed) and some letter |
| FieldValidators.AddressAccepted | shop/orders/validators.py:29-34 | an address passes exactly when it has at least 5 letters, digits, commas, dots or spaces (one trailing newline allowed) and some non-space |
| FieldValidators.SpaceOnlyRejected | shop/common/validators.py:60 | whitespace-only names, cities and addresses are refused |
| FieldValidators.PhoneAccepted | shop/common/validators.py:66-71 | a phone passes exactly when it is "+" and 11 digits, with one trailing newline allowed |
| FieldValidators.PhoneExamples | shop/common/validators.py:66-71 | "+" and 11 digits pass; no "+", 10 digits or 12 digits fail |
| FieldValidators.FullNameExamples | shop/common/validators.py:56-61 | a two-word name passes; one letter or only spaces fail |
| ProductValidators.ValidatePrice | shop/products/validators.py:37-41 | a price fails exactly when negative |
| ProductValidators.ValidateReviewRate | shop/products/validators.py:44-48 | a rate passes exactly between 0 and 5 |
| ProductValidators.ValidateSortingIndex | shop/products/validators.py:51-58 | a sorting index passes exactly between 0 and 10 |
| ProductValidators.CheckParentNestingLevel | shop/products/validators.py:61-67 | a parent at the maximum level gets the "max nesting" error, above it the "exceeded" error, below it none; a missing level raises |
| ProductValidators.ValidateParentCategoryNesting | shop/products/validators.py:70-78 | the check applied to the parent's level; it passes exactly for a parent at level 0 |
| ProductValidators.ValidateNewParentCategory | shop/products/validators.py:81-103 | a parent-level error comes first; otherwise it fails exactly when parent level + 1 + subtree level exceeds the maximum |
| ProductValidators.NewParentOnlyForLeafUnderTop | shop/products/validators.py:81-103 | a new parent is accepted exactly for a category without active subcategories under a parent at level 0 |
| ProductValidators.AcceptedMoveKeepsNesting | shop/products/validators.py:81-103 | after an accepted move the moved category is at level at most 1 |
| ProductValidators.SelfParentAccepted | shop/products/validators.py:81-103 | a top-level leaf is accepted as its own parent, since nothing looks for cycles |
| CategoryForms.ParentCheck | shop/products/forms/category.py:72-82 | a new category gets the parent check, a moved or formerly parentless one the new-parent check, an unchanged parent none |
| CategoryForms.CleanParent | shop/products/forms/category.py:66-90 | no parent is accepted; otherwise the parent is kept exactly when its check passes, and an error carries the "select another parent" prefix |
| CategoryForms.UnchangedParentAccepted | shop/products/forms/category.py:76-85 | an unchanged parent is accepted without checks |
| CategoryForms.NewAndMovedDiffer | shop/products/forms/category.py:72-82 | the same parent is accepted for a new category and refused for a moved one with subcategories |
| CategoryForms.InlineClean | shop/products/forms/category.py:103-127 | the inline form requires a parent, accepts exactly a parent at level 0, and prefixes its errors |
| CategoryForms.InlineAgreesWithNewCategory | shop/products/forms/category.py:69-127 | the inline form accepts a parent exactly when the category form accepts it for a new category |
| ProductForms.CleanPrice | shop/products/forms/product.py:29-37 | a price is kept exactly when not negative |
| ProductForms.CleanSortingIndex | shop/products/forms/product.py:39-50 | no index or 0 becomes no index; another is kept exactly between 1 and 10 |
| ProductForms.CleanRate | shop/products/forms/product.py:109-117 | a rate is kept exactly between 0 and 5 |
| ProductForms.Clean | shop/products/forms/product.py:52-75 | the stock may exceed neither the received amount nor the received amount less the sold units; a product never sold raises |
| ProductForms.AcceptedStockAccounted | shop/products/forms/product.py:52-75 | an accepted product's stock plus its ordered units stay within the received amount |
| ProductForms.UnsoldProductCrashes | shop/products/forms/product.py:65-69 | a product without order lines makes the form raise |
| OrderForms.CleanReceiverFullname | shop/orders/forms/order.py:21-33 | called on its own, no name stays none, and a name is kept stripped exactly when its stripped form is valid |
| OrderForms.CleanReceiverPhone | shop/orders/forms/order.py:35-47 | called on its own, no phone stays none, and a phone is kept stripped exactly when its stripped form is valid |
| OrderForms.CleanCity | shop/orders/forms/order.py:49-60 | called on its own, no city stays none and a city is validated and kept as given, without stripping |
| OrderForms.CleanAddress | shop/orders/forms/order.py:62-74 | called on its own, no address stays none, and an address is kept stripped exactly when its stripped form is valid |
| OrderForms.CityNotStripped | shop/orders/forms/order.py:49-60 | called on its own, `clean_city` keeps a space-padded city with its spaces and refuses a tab-led one |
| OrderForms.RequiredText | shop/orders/models/order.py:147-163 | the form field of a required text column gives the stripped text when something is left, and the required-field error otherwise |
| OrderForms.CityField | shop/orders/models/order.py:162 | the city field: text that strips to nothing is refused as required; otherwise the stripped text is validated by `clean_city` and stored |
| OrderForms.ReceiverFullnameField | shop/orders/forms/order.py:21-33 | the receiver name field: blank text is refused as required; otherwise the name is stored stripped exactly when it is a valid full name |
| OrderForms.ReceiverPhoneField | shop/orders/forms/order.py:35-47 | the receiver phone field: blank text is refused as required; otherwise the phone is stored stripped exactly when it is a valid phone number |
| OrderForms.AddressField | shop/orders/forms/order.py:62-74 | the address field: blank text is refused as required; otherwise the address is stored stripped exactly when it is a valid address |
| OrderForms.BlankRefusedAsRequired | shop/orders/models/order.py:147-163 | blank text in any of the four receiver and address fields gets the required-field error, while `clean_receiver_fullname` on its own would answer with the full-name message |
| OrderForms.CityFieldStoresStripped | shop/orders/forms/order.py:49-60 | an accepted city is stored without surrounding whitespace, and submitting it again gives the same result |
| OrderForms.CityFieldTrimsExample | shop/orders/models/order.py:162 | one instance: " Moscow " and a tab-led "Moscow" are both stored as "Moscow" |
| OrderForms.CleanPaymentComment | shop/orders/forms/order.py:76-90 | the comment is refused exactly when the status is "payment rejected" and the comment empty, and kept otherwise |
| OrderForms.CommentRequiredOnlyOnRejection | shop/orders/forms/order.py:76-90 | an empty comment is refused for a rejected payment and for no other status |
| OrderForms.CleanDeliveryPrice | shop/orders/forms/delivery_type.py:19-32 | a delivery price is kept exactly when given without a field error and not negative |
| OrderForms.CleanFreeDeliveryOrderPrice | shop/orders/forms/delivery_type.py:34-48 | a threshold is refused exactly when negative, and kept otherwise |
| OrderForms.AcceptedDeliveryTypeCosts | shop/orders/forms/delivery_type.py:19-48 | a delivery type the form accepts has a non-negative threshold and a delivery cost between 0 and its price |
| Text.Strip | shop/orders/forms/order.py:28 | the stripped text is the input with its leading and trailing whitespace removed |
| Text.StripIdempotent | shop/orders/forms/order.py:28 | stripping twice is stripping once |
| Text.StripPadded | shop/orders/serializers/order.py:43-54 | one space on each side of a trimmed text is stripped off again |
| Text.StripSpace | shop/common/validators.py:60 | a whitespace-only text strips to nothing |
| Text.IntToStringRoundTrip | shop/orders/services/basket.py:105-110 | reading the decimal text of an integer gives the integer back |
| Text.IntToStringInjective | shop/orders/services/basket.py:105-110 | distinct integers have distinct decimal texts |

## Left out

- Row locking and concurrency: `select_for_update` and concurrent checkouts are not modelled; every `transaction.atomic` block is one sequential step that either applies fully or not at all.
- Transport and encryption: Fernet encryption, the HTTP call to the bank, the Redis channel, the Celery `.delay`, the listener thread and the bank's routes are replaced by values. The bank's reply is a `BankOutcome`, the queued task a `PaymentTask`, and the published message a `PaymentResult`.
- Clock and randomness: `date.today()` and the current year are parameters, and so is the bank's random choice among its four refusal messages.
- Caching of the basket, catalog and category responses is not modelled.
- Queryset construction, prefetching, the catalog sort annotation and the views, urls, settings, admin classes and migrations are framework code. The order formset calls `DeliveryService.recount_delivery_cost`, which `shop/orders/services/common.py` does not define, so it is not modelled.
- Floats: the bank's `charge_price`, the basket's display price and the catalog's price filters are floats in the source; here they are exact cents. The float rating average is not modelled.
- Images: image validation, file deletion and the avatar signals are not modelled.
- The framework's own field handling is modelled only where it changes an outcome. This covers the required, stripping form fields of the order form's receiver name, phone, city and address, `null` in the catalog query, and the trimming a serializer `CharField` does before a validator runs. The receiver e-mail field of the order form is not modelled. Type coercion errors, `max_length` and the `EmailField` format check are not modelled: an e-mail is any text.
- Unicode: `\d` and `str.isdigit` are taken as ASCII digits. `str.isspace` is taken over the ASCII and common Unicode space characters listed in `Text.IsWhitespace`. Python's `$` matching just before one final newline is modelled.
- Categories.NestingLevel: the walks over the category tree stop after as many steps as there are categories. On a tree with a cycle the recursive SQL does not terminate and the model returns a bounded answer instead. The exactness lemmas (`NestingLevelExact`, `SubtreeLevelIsMax`, `RootIdReached`) therefore assume an acyclic tree.
- Categories.SubtreeLevel: like the nesting level, bounded by the number of categories; exact only on an acyclic tree.
- Payment.CheckNumber: the required card number and code lengths are read from constants that `shop/orders/constants.py` does not define, so they are a `CardRules` parameter.
- Pricing.RecountTotalPrice: the decrease is the exact quotient rounded half to even. Python computes `total / qty` in a 28-digit `Decimal` context before multiplying and rounding, which can differ from the exact result when that quotient does not fit in 28 digits.
- OrderService.CreateInitOrder: the insufficient-stock error does not name the product, because the order in which the source visits the products is not specified.
- OrderService.CreateInitOrder: the ten-digit money columns (`DecimalField(max_digits=10, decimal_places=2)`, at most 99,999,999.99) are not modelled. On MySQL (the settings read the database name from `MYSQL_DATABASE`), a stored amount of 100,000,000.00 or more makes the save fail (strict mode) or is clipped, depending on the server's SQL mode; the model stores any amount. An order whose products cost, or one of whose line totals, reaches that bound is answered `Ok` here, where the source answers 500 and rolls back or stores a clipped cost.
- OrderService.CheckoutFailsOnlyOnChecks: holds only because the ten-digit money columns are not modelled; on MySQL in strict mode a products cost or line total of 100,000,000.00 or more is a save error the lemma does not account for.
- OrderService.CreateInitOrderResponse: answers 200 for a checkout whose products cost or line totals exceed the ten-digit money columns, where the source answers 500 under MySQL strict mode.
- OrderService.UpdateInitOrder: the ten-digit money columns (`DecimalField(max_digits=10, decimal_places=2)`, at most 99,999,999.99) are not modelled. On MySQL (the settings read the database name from `MYSQL_DATABASE`), a stored amount of 100,000,000.00 or more makes the save fail (strict mode) or is clipped, depending on the server's SQL mode; the model stores any amount. A total cost (products cost plus delivery) of 100,000,000.00 or more is accepted here.
- OrderModel.CustomCreate: the ten-digit money columns (`DecimalField(max_digits=10, decimal_places=2)`, at most 99,999,999.99) are not modelled. On MySQL (the settings read the database name from `MYSQL_DATABASE`), a stored amount of 100,000,000.00 or more makes the save fail (strict mode) or is clipped, depending on the server's SQL mode; the model stores any amount. An order cost or line total pushed to that bound by the admin is accepted here.
- OrderModel.CustomUpdate: the ten-digit money columns (`DecimalField(max_digits=10, decimal_places=2)`, at most 99,999,999.99) are not modelled. On MySQL (the settings read the database name from `MYSQL_DATABASE`), a stored amount of 100,000,000.00 or more makes the save fail (strict mode) or is clipped, depending on the server's SQL mode; the model stores any amount. An order cost or line total pushed to that bound by the admin is accepted here.
- OrderSerializers.ValidateConfirmation: the `fullName` and `phone` fields are required by the serializer, so the `None` branches of their validators are never reached from a confirmation. The model follows the serializer and does not give the order a missing receiver name or phone.
- Catalog.ParamErrors: the failing fields are reported, not DRF's messages. The source's message for an unknown category formats the builtin `id` rather than the value.
- Catalog.SearchDetails: URL values arrive as text, and the serializer fields convert them; a value that does not convert (a page that is not a number, say) is not modelled, since `UrlQuery` carries converted values.
- Bank.ConductUserPayment: the request body is one of three `Body` cases. A decrypted JSON object that fails the `PaymentDetails` schema, by a value out of range or a missing or mistyped field, is a `Details` whose `DetailsValid` is false, and it gets 400 "Invalid payments details". Only a body that is not JSON, or not a JSON object, is `Unreadable` and gets 500.
- Payment.PayOrder: the text of the 400 reply is not modelled. The source answers `str(exc)` of the serializer's error dictionary, built from the failing card fields; the model answers a fixed text, and the failing fields themselves are given by `Payment.CardErrors`.
- Serializer getters that only copy a value (`get_products`, `createdAt`, the delivery and payment type names) are not modelled.

=== FILE: bank.dfy ===
/** The mock bank (bank/schema.py and bank/services.py): the schema the
    decrypted payment details must satisfy, the charge rule on the card
    number, and the reply it sends back. Encryption is abstracted: a request
    body either fails to decrypt, fails to parse, or yields the details, and
    the reply carries the message in the clear. The random choice of a
    rejection message is a parameter. */
module Bank {
  import opened Wrappers
  import opened Money
  import opened Text
  import opened FieldValidators
  import opened Payment

  const CardNumberLength := 16
  const CvvCodeLength := 3

  const ServerError := "Internal Server Error!"
  const PaymentDataError := "Invalid payments details"
  const SecurityError := "Payment denied due to security reason!"
  const SuccessMessage := "Successfully payment transaction."
  const PaymentErrors: seq<string> := [
    "Not enough money on the card!",
    "Invalid card details!",
    "Card is expired!",
    "Card is blocked!"
  ]

  /** `validate_number`: digits only, exactly sixteen of them. */
  predicate NumberValid(number: string)
  {
    IsDigits(number) && |number| == CardNumberLength
  }

  /** `validate_cvv_code`: three characters of any kind, or digits of any
      number. */
  predicate CodeValid(code: string)
  {
    |code| == CvvCodeLength || IsDigits(code)
  }

  /** `validate_card_holder_name`: two or more Latin or Cyrillic letters and
      spaces, not all of them whitespace. */
  predicate NameValid(name: string)
  {
    FullMatch(name, IsNameChar, 2) && !IsSpace(name)
  }

  /** `PaymentDetails`: every field constraint together. */
  predicate DetailsValid(d: PaymentDetails, currentYear: nat)
  {
    && NumberValid(d.number) && CodeValid(d.code) && NameValid(d.name)
    && 1 <= d.month <= 12 && d.year >= ShortYear(currentYear) && d.chargePrice >= 0
  }

  /** The cardholder rule is the shop's full-name rule. */
  lemma NameRuleIsFullNameRule(name: string)
    ensures NameValid(name) <==> ValidateFullName(name).None?
  {
  }

  /** Any code of three characters passes, digits or not, and so does any
      code of digits, however long; every other code is refused. */
  lemma CodeRuleIsLoose(code: string)
    ensures |code| == 3 ==> CodeValid(code)
    ensures IsDigits(code) ==> CodeValid(code)
    ensures |code| != 3 && !IsDigits(code) ==> !CodeValid(code)
  {
  }

  /** `_charge_user`: the card number read as an integer must be even and not
      a multiple of ten; otherwise one of the four messages is chosen. */
  function ChargeUser(number: string, choice: nat): (r: Option<string>)
    requires AllDigits(number)
    requires choice < |PaymentErrors|
    ensures r.None? <==> ParseNat(number) % 10 != 0 && ParseNat(number) % 2 == 0
    ensures r.Some? ==> r.value in PaymentErrors
  {
    var cardNumber := ParseNat(number);
    if cardNumber % 10 != 0 && cardNumber % 2 == 0 then None else Some(PaymentErrors[choice])
  }

  /** The charge is approved exactly for numbers ending in 2, 4, 6 or 8. */
  lemma ApprovedByLastDigit(number: string, choice: nat)
    requires IsDigits(number)
    requires choice < |PaymentErrors|
    ensures ChargeUser(number, choice).None? <==> number[|number| - 1] in "2468"
  {
    LastDigit(number);
    var n := ParseNat(number);
    var d := DigitValue(number[|number| - 1]);
    assert n == 10 * ParseNat(number[..|number| - 1]) + d;
    assert n % 2 == d % 2;
  }

  /** The request body once the transport is taken away. */
  datatype Body =
    | Undecryptable              // `InvalidToken`
    | Unreadable                 // a body that decrypts but is not JSON, or not a JSON object
    | Details(details: PaymentDetails)

  /** `conduct_user_payment`: the message and status the bank answers with. */
  function ConductUserPayment(body: Body, currentYear: nat, choice: nat): (r: Reply)
    requires choice < |PaymentErrors|
    ensures r.status == 200 <==> && body.Details? && DetailsValid(body.details, currentYear)
                                 && ChargeUser(body.details.number, choice).None?
    ensures r.status == 200 ==> r.message == SuccessMessage
    ensures r == Reply(400, SecurityError) <==> body.Undecryptable?
    ensures r == Reply(500, ServerError) <==> body.Unreadable?
    ensures r == Reply(400, PaymentDataError) <==> body.Details? && !DetailsValid(body.details, currentYear)
    ensures r.status == 400 && r.message in PaymentErrors <==>
              && body.Details? && DetailsValid(body.details, currentYear)
              && ChargeUser(body.details.number, choice).Some?
  {
    match body
    case Undecryptable => Reply(400, SecurityError)
    case Unreadable => Reply(500, ServerError)
    case Details(d) =>
      if !DetailsValid(d, currentYear) then Reply(400, PaymentDataError)
      else
        match ChargeUser(d.number, choice)
        case None => Reply(200, SuccessMessage)
        case Some(message) => Reply(400, message)
  }

  /** Details the shop's card check let through, for a card number length of
      sixteen and a non-negative order total, always meet the bank's schema
      for the same calendar year. */
  lemma ShopCardMeetsSchema(req: CardRequest, rules: CardRules, currentYear: nat, total: Cents)
    requires rules.numberLength == CardNumberLength
    requires ValidateCard(req, rules, currentYear).Ok?
    requires total >= 0
    ensures var card := ValidateCard(req, rules, currentYear).value;
            DetailsValid(PaymentDetails(card.number, card.month, card.year, card.code, card.name, total), currentYear)
  {
    var card := ValidateCard(req, rules, currentYear).value;
    NameRuleIsFullNameRule(card.name);
  }
}

=== FILE: basket.dfy ===
/** The session basket (shop/orders/services/basket.py and
    shop/orders/serializers/basket.py): a map from the decimal text of a
    product id to the requested item, the request check that guards adding
    and removing, and the basket listing. The session's `"basket"` entry is
    `None` when it was never set. */
module Basket {
  import opened Wrappers
  import opened Money
  import opened Text
  import opened Products

  /** A validated request body `{"id": …, "count": …}`; neither has a lower bound. */
  datatype BasketItem = BasketItem(id: int, count: int)

  type Basket = map<string, BasketItem>

  /** `str(id)`: the session key of a product. */
  function Key(id: int): string
  {
    IntToString(id)
  }

  /** Different products have different keys, and the listing reads each key
      back as the id it was made from (`int(product_id)`). */
  lemma KeyRoundTrip(id: int, id': int)
    ensures IsIntLiteral(Key(id)) && ParseInt(Key(id)) == id
    ensures Key(id) == Key(id') ==> id == id'
  {
    IntToStringRoundTrip(id);
    IntToStringRoundTrip(id');
  }

  /** `request.session.get("basket")` read for truthiness: a missing and an
      empty basket are the same. */
  function Current(session: Option<Basket>): (b: Basket)
    ensures session.Some? ==> b == session.value
    ensures session.None? ==> b == map[]
  {
    session.GetOr(map[])
  }

  /** Every item is stored under its own id's key. */
  predicate Canonical(b: Basket)
  {
    forall k | k in b :: k == Key(b[k].id)
  }

  /** The number of units of a product in the basket. */
  function Quantity(b: Basket, id: int): int
  {
    if Key(id) in b then b[Key(id)].count else 0
  }

  /** `_add_product_to_user`: a new id is stored as requested; a present id
      gets the requested count added to what it holds. */
  function AddItem(session: Option<Basket>, item: BasketItem): (r: Basket)
    ensures r.Keys == Current(session).Keys + {Key(item.id)}
    ensures forall k | k in Current(session) && k != Key(item.id) :: r[k] == Current(session)[k]
    ensures Key(item.id) !in Current(session) ==> r[Key(item.id)] == item
    ensures Key(item.id) in Current(session) ==>
              r[Key(item.id)] == Current(session)[Key(item.id)].(count := Current(session)[Key(item.id)].count + item.count)
  {
    var b := Current(session);
    var key := Key(item.id);
    if key !in b then b[key := item]
    else b[key := b[key].(count := b[key].count + item.count)]
  }

  /** `_remove_product_from_user`: the held count drops by the requested one
      and the item goes once nothing is left; removing an id the basket does
      not hold empties the whole basket. */
  function RemoveItem(session: Option<Basket>, item: BasketItem): (r: Basket)
    ensures Key(item.id) !in Current(session) ==> r == map[]
    ensures Key(item.id) in Current(session) ==>
              && r.Keys <= Current(session).Keys
              && (forall k | k in Current(session) && k != Key(item.id) :: k in r && r[k] == Current(session)[k])
              && (Key(item.id) in r <==> Current(session)[Key(item.id)].count - item.count > 0)
              && (Key(item.id) in r ==>
                    r[Key(item.id)] == Current(session)[Key(item.id)].(count := Current(session)[Key(item.id)].count - item.count))
  {
    var b := Current(session);
    var key := Key(item.id);
    if key !in b then map[]
    else
      var left := b[key].count - item.count;
      if left <= 0 then b - {key} else b[key := b[key].(count := left)]
  }

  /** Adding raises the product's quantity by the requested count. */
  lemma AddQuantity(session: Option<Basket>, item: BasketItem, id: int)
    ensures Quantity(AddItem(session, item), id) ==
              if id == item.id then Quantity(Current(session), id) + item.count else Quantity(Current(session), id)
  {
    KeyRoundTrip(id, item.id);
  }

  /** Removing a held product lowers its quantity by the requested count,
      down to nothing when the count held is positive, and leaves every other
      product's quantity alone. */
  lemma RemoveQuantity(session: Option<Basket>, item: BasketItem, id: int)
    requires Key(item.id) in Current(session)
    requires Current(session)[Key(item.id)].count > 0
    ensures Quantity(RemoveItem(session, item), id) ==
              if id == item.id then Max(0, Quantity(Current(session), id) - item.count) else Quantity(Current(session), id)
  {
    KeyRoundTrip(id, item.id);
  }

  function Max(a: int, b: int): int
  {
    if a < b then b else a
  }

  /** Both updates store items under their own keys. */
  lemma UpdatesKeepCanonical(session: Option<Basket>, item: BasketItem)
    requires Canonical(Current(session))
    ensures Canonical(AddItem(session, item))
    ensures Canonical(RemoveItem(session, item))
  {
  }

  /** Removing what was just added restores a basket whose counts are all positive. */
  lemma RemoveUndoesAdd(session: Option<Basket>, item: BasketItem)
    requires forall k | k in Current(session) :: Current(session)[k].count > 0
    ensures RemoveItem(Some(AddItem(session, item)), item) == Current(session)
  {
    var b := Current(session);
    var key := Key(item.id);
    var r := RemoveItem(Some(AddItem(session, item)), item);
    if key in b {
      assert r[key] == b[key];
    }
    assert r.Keys == b.Keys;
  }

  /** Removing an id the basket does not hold discards the other items too. */
  lemma RemoveMissingDiscardsAll()
    ensures var session := Some(map[Key(1) := BasketItem(1, 2)]);
            && Quantity(Current(session), 1) == 2
            && Quantity(RemoveItem(session, BasketItem(2, 1)), 1) == 0
  {
    KeyRoundTrip(1, 2);
  }

  // ------------------------------------------------------ BasketAddItemSerializer

  datatype ItemError =
    | ProductDoesNotExist      // `Product.DoesNotExist` from `get(id=…, is_active=True)`
    | ValidationError(message: string)

  /** `BasketAddItemSerializer.validate`: the product must exist and be
      active, have stock, and have at least the requested count. Only the
      request is compared with the stock, not what the basket holds. */
  function ValidateItem(products: Catalog, item: BasketItem): (r: Result<BasketItem, ItemError>)
    ensures r.Ok? <==> && item.id >= 0 && item.id in products && products[item.id].isActive
                       && products[item.id].count != 0 && products[item.id].count >= item.count
    ensures r.Ok? ==> r.value == item
    ensures r == Err(ProductDoesNotExist) <==> !(item.id >= 0 && item.id in products && products[item.id].isActive)
  {
    if !(item.id >= 0 && item.id in products && products[item.id].isActive) then Err(ProductDoesNotExist)
    else
      var product := products[item.id];
      if product.count == 0 then
        Err(ValidationError("Product with id: " + IntToString(item.id) + " is not available!\nRemains products = 0"))
      else if product.count < item.count then
        Err(ValidationError("There are only " + NatToString(product.count) + " " + product.title
                            + " available!Reduce purchased quantity or select another product!"))
      else Ok(item)
  }

  /** A request for exactly the stock is accepted; one more is refused. */
  lemma ValidateItemBoundary(products: Catalog, id: ProductId)
    requires id in products && products[id].isActive && products[id].count > 0
    ensures ValidateItem(products, BasketItem(id, products[id].count)).Ok?
    ensures ValidateItem(products, BasketItem(id, products[id].count + 1)).Err?
  {
  }

  // ------------------------------------------------------- BucketProductSerializer

  /** One listed product: the count shown and the price for that count. */
  datatype BasketLine = BasketLine(count: int, price: Cents)

  /** `get_count` and `get_price`: the requested amount capped by the stock,
      priced at the base price; the sale price plays no part. */
  function ListLine(p: Product, requiredAmount: int): (r: BasketLine)
    ensures r.count <= requiredAmount && r.count <= p.count
    ensures r.count == requiredAmount || r.count == p.count
    ensures r.price == r.count * p.price
  {
    var count := if requiredAmount <= p.count then requiredAmount else p.count;
    BasketLine(count, count * p.price)
  }

  /** `_get_user_basket`: the active products the basket holds, each with
      its listed count and price. A missing or empty basket lists nothing and
      is set to an empty one. */
  function ListBasket(products: Catalog, session: Option<Basket>): (r: (Option<Basket>, map<ProductId, BasketLine>))
    ensures r.0 == Some(Current(session))
    ensures forall p :: p in r.1 <==> p in products && products[p].isActive && Key(p) in Current(session)
    ensures forall p | p in r.1 :: r.1[p] == ListLine(products[p], Current(session)[Key(p)].count)
  {
    var b := Current(session);
    (Some(b), map p | p in products && products[p].isActive && Key(p) in b :: ListLine(products[p], b[Key(p)].count))
  }

  /** A product with less stock than requested is listed at its stock, and
      priced at the base price even while on sale. */
  lemma ListLineCapsAtStock(p: Product, requiredAmount: int)
    requires requiredAmount > p.count
    ensures ListLine(p, requiredAmount) == BasketLine(p.count, p.count * p.price)
  {
  }

  // --------------------------------------------------------------- handlers

  datatype Response = Response(status: nat, listing: map<ProductId, BasketLine>, error: Option<string>)

  /** `add_product` / `remove_product`: a refused request answers 400 and a
      missing product 500, both with the session as it was; otherwise the
      basket is updated and listed. */
  function HandleItem(products: Catalog, session: Option<Basket>, item: BasketItem, remove: bool)
    : (r: (Option<Basket>, Response))
    ensures ValidateItem(products, item).Err? ==> r.0 == session && r.1.listing == map[]
    ensures ValidateItem(products, item) == Err(ProductDoesNotExist) ==> r.1.status == 500
    ensures ValidateItem(products, item).Err? && ValidateItem(products, item) != Err(ProductDoesNotExist) ==> r.1.status == 400
    ensures ValidateItem(products, item).Ok? ==>
              && r.1.status == 200
              && r.0 == Some(if remove then RemoveItem(session, item) else AddItem(session, item))
              && r.1.listing == ListBasket(products, r.0).1
  {
    match ValidateItem(products, item)
    case Err(ProductDoesNotExist) => (session, Response(500, map[], Some("Internal Server Error")))
    case Err(ValidationError(message)) => (session, Response(400, map[], Some(message)))
    case Ok(_) =>
      var updated := Some(if remove then RemoveItem(session, item) else AddItem(session, item));
      var (session', listing) := ListBasket(products, updated);
      (session', Response(200, listing, None))
  }

  /** A removal goes through the same check as an addition, so a product
      that ran out of stock cannot be taken out of the basket. */
  lemma RemovalOfSoldOutRefused(products: Catalog, session: Option<Basket>, id: ProductId, count: int)
    requires id in products && products[id].isActive && products[id].count == 0
    ensures HandleItem(products, session, BasketItem(id, count), true).0 == session
    ensures HandleItem(products, session, BasketItem(id, count), true).1.status == 400
  {
  }
}

=== FILE: catalog.dfy ===
/** The catalog query (shop/products/serializers/catalog.py and the request
    step of shop/products/services/catalog.py): the checks on the query
    parameters and the filter, sort and pagination values they are turned
    into. Prices are cents; the serializer reads them as floats between 0
    and 500000. */
module Catalog {
  import opened Wrappers
  import opened Money
  import opened Text

  const SortItems: seq<string> := ["rating", "price", "reviews", "date"]
  const SortTypes: seq<string> := ["dec", "inc"]
  const MaxPrice: Cents := 500000 * 100

  /** One key of the data handed to the serializer: left out, present as
      `None`, or present with a value. */
  datatype Param<T> = Absent | Null | Given(value: T)

  /** The value a key carries, or `None` when it is left out or `None`. */
  function GivenOr<T>(p: Param<T>): (r: Option<T>)
    ensures r.Some? <==> p.Given?
    ensures p.Given? ==> r.value == p.value
  {
    if p.Given? then Some(p.value) else None
  }

  /** The data `CatalogQueryParamsSerializer` validates, one key per field. */
  datatype QueryParams = QueryParams(
    name: Param<string>,
    minPrice: Param<Cents>,
    maxPrice: Param<Cents>,
    freeDelivery: Param<bool>,
    available: Param<bool>,
    category: Param<int>,
    currentPage: Param<int>,
    limit: Param<int>,
    tags: Param<seq<int>>,
    sort: Param<string>,
    sortType: Param<string>)

  datatype QueryField =
    | NameField | MinPriceField | MaxPriceField | FreeDeliveryField | AvailableField | CategoryField
    | CurrentPageField | LimitField | TagsField | SortField | SortTypeField

  /** The filters passed to the query set; `None` is a key left out. */
  datatype Filters = Filters(
    titleContains: Option<string>,     // title__icontains
    tagsIn: Option<seq<int>>,          // tags__id__in
    countAtLeast: Option<nat>,         // count__gte
    freeDelivery: Option<bool>,        // free_delivery
    priceAtLeast: Option<Cents>,       // price__gte
    priceAtMost: Option<Cents>)        // price__lte

  datatype CatalogQuery = CatalogQuery(
    categoryId: Option<int>, filters: Filters, sort: Option<string>, currentPage: int, limit: int)

  /** The parameters once validated, defaults filled in. */
  datatype ValidParams = ValidParams(
    name: Option<string>, minPrice: Option<Cents>, maxPrice: Option<Cents>,
    freeDelivery: Option<bool>, available: Option<bool>, category: Option<int>,
    currentPage: int, limit: int, tags: Option<seq<int>>, sort: string, sortType: string)

  /** A price key left out passes; `None` does not (the field is not
      nullable); a price must lie between 0 and the maximum. */
  predicate PriceOk(price: Param<Cents>)
  {
    price.Absent? || (price.Given? && 0 <= price.value <= MaxPrice)
  }

  /** `validate_category`: the field is nullable, and a falsy id passes; any
      other id must be an active category. */
  predicate CategoryOk(category: Param<int>, activeCategories: set<int>)
  {
    !category.Given? || category.value == 0 || category.value in activeCategories
  }

  /** A text field with a default and a list of allowed values: a key left
      out takes the default, which is allowed; `None` is refused; a given text
      is trimmed and must be in the list. */
  predicate ChoiceOk(value: Param<string>, allowed: seq<string>)
  {
    value.Absent? || (value.Given? && Strip(value.value) in allowed)
  }

  /** The value a text parameter takes: the default when missing, trimmed
      otherwise. */
  function TextOr(value: Param<string>, default: string): (r: string)
    ensures !value.Given? ==> r == default
    ensures value.Given? ==> r == Strip(value.value)
  {
    match value
    case Given(v) => Strip(v)
    case _ => default
  }

  /** Whether the check of one parameter fails. */
  predicate ParamFails(f: QueryField, q: QueryParams, activeCategories: set<int>)
  {
    match f
    case NameField => q.name.Null?
    case MinPriceField => !PriceOk(q.minPrice)
    case MaxPriceField => !PriceOk(q.maxPrice)
    case FreeDeliveryField => q.freeDelivery.Null?
    case AvailableField => q.available.Null?
    case CategoryField => !CategoryOk(q.category, activeCategories)
    case CurrentPageField => q.currentPage.Null?
    case LimitField => q.limit.Null?
    case TagsField => q.tags.Null?
    case SortField => !ChoiceOk(q.sort, SortItems)
    case SortTypeField => !ChoiceOk(q.sortType, SortTypes)
  }

  /** The parameters `CatalogQueryParamsSerializer.is_valid` reports: `None`
      for any field but the category, the prices out of range, an unknown
      category, and a sort or sort type not in its list. */
  function ParamErrors(q: QueryParams, activeCategories: set<int>): (r: set<QueryField>)
    ensures forall f :: f in r <==> ParamFails(f, q, activeCategories)
  {
    Flag(NameField, q, activeCategories) + Flag(MinPriceField, q, activeCategories)
    + Flag(MaxPriceField, q, activeCategories) + Flag(FreeDeliveryField, q, activeCategories)
    + Flag(AvailableField, q, activeCategories) + Flag(CategoryField, q, activeCategories)
    + Flag(CurrentPageField, q, activeCategories) + Flag(LimitField, q, activeCategories)
    + Flag(TagsField, q, activeCategories) + Flag(SortField, q, activeCategories)
    + Flag(SortTypeField, q, activeCategories)
  }

  /** The one-field error set of a single check. */
  function Flag(f: QueryField, q: QueryParams, activeCategories: set<int>): (r: set<QueryField>)
    ensures forall g :: g in r <==> g == f && ParamFails(f, q, activeCategories)
  {
    if ParamFails(f, q, activeCategories) then {f} else {}
  }

  /** Each parameter's rule: `None` is refused for every field but the
      category, a price must be given within range, and a sort or sort type
      left out takes an allowed default while a given one must be allowed
      once trimmed. */
  lemma ParamErrorsByField(q: QueryParams, activeCategories: set<int>)
    ensures var r := ParamErrors(q, activeCategories);
            && (NameField in r <==> q.name.Null?)
            && (MinPriceField in r <==> q.minPrice.Null? || (q.minPrice.Given? && !(0 <= q.minPrice.value <= MaxPrice)))
            && (MaxPriceField in r <==> q.maxPrice.Null? || (q.maxPrice.Given? && !(0 <= q.maxPrice.value <= MaxPrice)))
            && (FreeDeliveryField in r <==> q.freeDelivery.Null?)
            && (AvailableField in r <==> q.available.Null?)
            && (CurrentPageField in r <==> q.currentPage.Null?)
            && (LimitField in r <==> q.limit.Null?)
            && (TagsField in r <==> q.tags.Null?)
            && (SortField in r <==> q.sort.Null? || (q.sort.Given? && Strip(q.sort.value) !in SortItems))
            && (SortTypeField in r <==> q.sortType.Null? || (q.sortType.Given? && Strip(q.sortType.value) !in SortTypes))
  {
  }

  /** The category rule on its own: only a non-zero id outside the active
      categories is reported, so no category, `None` or 0 always passes,
      whichever categories are active. */
  lemma CategoryRule(q: QueryParams, activeCategories: set<int>)
    ensures CategoryField in ParamErrors(q, activeCategories) <==>
              q.category.Given? && q.category.value != 0 && q.category.value !in activeCategories
    ensures q.category.Given? && q.category.value in activeCategories ==> CategoryField !in ParamErrors(q, activeCategories)
    ensures !q.category.Given? || q.category.value == 0 ==> CategoryField !in ParamErrors(q, {})
  {
  }

  /** `is_valid` followed by the validated data: the parameters with their
      defaults filled in and text trimmed, or every failing parameter. */
  function ValidateParams(q: QueryParams, activeCategories: set<int>): (r: Result<ValidParams, set<QueryField>>)
    ensures r.Ok? <==> && !q.name.Null? && !q.freeDelivery.Null? && !q.available.Null?
                       && !q.currentPage.Null? && !q.limit.Null? && !q.tags.Null?
                       && PriceOk(q.minPrice) && PriceOk(q.maxPrice) && CategoryOk(q.category, activeCategories)
                       && ChoiceOk(q.sort, SortItems) && ChoiceOk(q.sortType, SortTypes)
    ensures r.Err? ==> r.error == ParamErrors(q, activeCategories) && r.error != {}
    ensures r.Ok? ==> && r.value.currentPage == (if q.currentPage.Given? then q.currentPage.value else 1)
                      && r.value.limit == (if q.limit.Given? then q.limit.value else 20)
                      && r.value.sort in SortItems && r.value.sortType in SortTypes
                      && r.value.sort == TextOr(q.sort, "date") && r.value.sortType == TextOr(q.sortType, "dec")
                      && r.value.name == (if q.name.Given? then Some(Strip(q.name.value)) else None)
                      && r.value.minPrice == GivenOr(q.minPrice) && r.value.maxPrice == GivenOr(q.maxPrice)
                      && r.value.category == GivenOr(q.category) && r.value.tags == GivenOr(q.tags)
                      && r.value.freeDelivery == GivenOr(q.freeDelivery) && r.value.available == GivenOr(q.available)
  {
    var errors := ParamErrors(q, activeCategories);
    if errors != {} then Err(errors)
    else
      assert NameField !in errors && FreeDeliveryField !in errors && AvailableField !in errors;
      assert CurrentPageField !in errors && LimitField !in errors && TagsField !in errors;
      assert MinPriceField !in errors && MaxPriceField !in errors && CategoryField !in errors;
      assert SortField !in errors && SortTypeField !in errors;
      var name := if q.name.Given? then Some(Strip(q.name.value)) else None;
      Ok(ValidParams(name, GivenOr(q.minPrice), GivenOr(q.maxPrice), GivenOr(q.freeDelivery),
                     GivenOr(q.available), GivenOr(q.category),
                     if q.currentPage.Given? then q.currentPage.value else 1,
                     if q.limit.Given? then q.limit.value else 20,
                     GivenOr(q.tags), TextOr(q.sort, "date"), TextOr(q.sortType, "dec")))
  }

  /** The serializer given none of its keys is valid and takes the
      defaults: page 1 of 20, newest first. */
  lemma DefaultQuery(activeCategories: set<int>)
    ensures var r := ValidateParams(QueryParams(Absent, Absent, Absent, Absent, Absent, Absent, Absent, Absent,
                                                Absent, Absent, Absent), activeCategories);
            && r.Ok? && r.value.currentPage == 1 && r.value.limit == 20
            && r.value.sort == "date" && r.value.sortType == "dec"
            && ToQuery(r.value).sort == Some("-created_date")
  {
    assert "-" + "created_date" == "-created_date";
  }

  // ---------------------------------------------------------- the catalog request

  /** The URL parameters of a catalog request; `None` is a parameter the URL
      does not carry, and `tags` lists every `tags[]` value. */
  datatype UrlQuery = UrlQuery(
    name: Option<string>, minPrice: Option<Cents>, maxPrice: Option<Cents>,
    freeDelivery: Option<bool>, available: Option<bool>, category: Option<int>,
    currentPage: Option<int>, limit: Option<int>, tags: seq<int>,
    sort: Option<string>, sortType: Option<string>)

  /** A URL parameter as the serializer sees it: present as `None` when the
      URL does not carry it. */
  function Present<T>(o: Option<T>): (r: Param<T>)
    ensures !r.Absent?
    ensures r.Null? <==> o.None?
    ensures o.Some? ==> r == Given(o.value)
  {
    if o.Some? then Given(o.value) else Null
  }

  /** The serializer data `_get_validated_search_details` builds: every key
      is present, a missing parameter as `None` and the tags as a list. */
  function FromUrl(u: UrlQuery): (r: QueryParams)
    ensures !r.name.Absent? && !r.minPrice.Absent? && !r.maxPrice.Absent? && !r.freeDelivery.Absent?
    ensures !r.available.Absent? && !r.category.Absent? && !r.currentPage.Absent? && !r.limit.Absent?
    ensures !r.sort.Absent? && !r.sortType.Absent?
    ensures r.tags == Given(u.tags)
  {
    QueryParams(Present(u.name), Present(u.minPrice), Present(u.maxPrice), Present(u.freeDelivery),
                Present(u.available), Present(u.category), Present(u.currentPage), Present(u.limit),
                Given(u.tags), Present(u.sort), Present(u.sortType))
  }

  /** `_get_validated_search_details`: the catalog query a request asks for,
      or the failing parameters (a 400 reply). Since every key is sent, no
      default ever applies: the request must carry every parameter except
      the category and the tags. */
  function SearchDetails(u: UrlQuery, activeCategories: set<int>): (r: Result<CatalogQuery, set<QueryField>>)
    ensures r.Ok? <==> && u.name.Some? && u.freeDelivery.Some? && u.available.Some?
                       && u.currentPage.Some? && u.limit.Some?
                       && u.minPrice.Some? && 0 <= u.minPrice.value <= MaxPrice
                       && u.maxPrice.Some? && 0 <= u.maxPrice.value <= MaxPrice
                       && (u.category.None? || u.category.value == 0 || u.category.value in activeCategories)
                       && u.sort.Some? && Strip(u.sort.value) in SortItems
                       && u.sortType.Some? && Strip(u.sortType.value) in SortTypes
    ensures r.Err? ==> TagsField !in r.error
    ensures r.Ok? ==> && r.value.currentPage == u.currentPage.value && r.value.limit == u.limit.value
                      && r.value.sort == SortItem(Strip(u.sort.value), Strip(u.sortType.value))
                      && r.value.filters.priceAtLeast == u.minPrice && r.value.filters.priceAtMost == u.maxPrice
                      && r.value.categoryId == (if u.category == Some(0) then None else u.category)
  {
    var q := FromUrl(u);
    UrlParamsValid(u, activeCategories);
    match ValidateParams(q, activeCategories)
    case Err(errors) => Err(errors)
    case Ok(p) => Ok(ToQuery(p))
  }

  /** What validation makes of the data built from a URL, field by field. */
  lemma UrlParamsValid(u: UrlQuery, activeCategories: set<int>)
    ensures var q := FromUrl(u);
            && (PriceOk(q.minPrice) <==> u.minPrice.Some? && 0 <= u.minPrice.value <= MaxPrice)
            && (PriceOk(q.maxPrice) <==> u.maxPrice.Some? && 0 <= u.maxPrice.value <= MaxPrice)
            && (CategoryOk(q.category, activeCategories) <==>
                  u.category.None? || u.category.value == 0 || u.category.value in activeCategories)
            && (ChoiceOk(q.sort, SortItems) <==> u.sort.Some? && Strip(u.sort.value) in SortItems)
            && (ChoiceOk(q.sortType, SortTypes) <==> u.sortType.Some? && Strip(u.sortType.value) in SortTypes)
            && (q.name.Null? <==> u.name.None?) && (q.freeDelivery.Null? <==> u.freeDelivery.None?)
            && (q.available.Null? <==> u.available.None?) && (q.currentPage.Null? <==> u.currentPage.None?)
            && (q.limit.Null? <==> u.limit.None?) && !q.tags.Null?
            && (u.currentPage.Some? ==> q.currentPage == Given(u.currentPage.value))
            && (u.limit.Some? ==> q.limit == Given(u.limit.value))
            && (u.sort.Some? ==> q.sort == Given(u.sort.value))
            && (u.sortType.Some? ==> q.sortType == Given(u.sortType.value))
            && GivenOr(q.minPrice) == u.minPrice && GivenOr(q.maxPrice) == u.maxPrice
            && GivenOr(q.category) == u.category
  {
  }

  /** A catalog request without any parameter is refused: every field but
      the category and the tags is reported as `None`. */
  lemma EmptyRequestRefused(activeCategories: set<int>)
    ensures var r := SearchDetails(UrlQuery(None, None, None, None, None, None, None, None, [], None, None),
                                   activeCategories);
            && r.Err?
            && r.error == {NameField, MinPriceField, MaxPriceField, FreeDeliveryField, AvailableField,
                           CurrentPageField, LimitField, SortField, SortTypeField}
  {
  }

  /** `_get_filter_items`: name, tags, availability and free delivery add a
      filter only when truthy; the prices add one whenever they are given,
      0 included. */
  function FilterItems(p: ValidParams): (r: Filters)
    ensures r.titleContains.Some? <==> p.name.Some? && p.name.value != ""
    ensures r.titleContains.Some? ==> r.titleContains == p.name
    ensures r.tagsIn.Some? <==> p.tags.Some? && |p.tags.value| > 0
    ensures r.tagsIn.Some? ==> r.tagsIn == p.tags
    ensures r.countAtLeast == (if p.available == Some(true) then Some(1) else None)
    ensures r.freeDelivery == (if p.freeDelivery == Some(true) then Some(true) else None)
    ensures r.priceAtLeast == p.minPrice && r.priceAtMost == p.maxPrice
  {
    Filters(
      if p.name.Some? && p.name.value != "" then p.name else None,
      if p.tags.Some? && |p.tags.value| > 0 then p.tags else None,
      if p.available == Some(true) then Some(1) else None,
      if p.freeDelivery == Some(true) then Some(true) else None,
      p.minPrice,
      p.maxPrice)
  }

  /** The field a sort name orders by. */
  function OrderByField(sort: string): (r: string)
    ensures sort == "date" ==> r == "created_date"
    ensures sort == "reviews" ==> r == "total_reviews"
    ensures sort == "rating" ==> r == "total_sailed"
    ensures sort !in {"date", "reviews", "rating"} ==> r == sort
  {
    if sort == "date" then "created_date"
    else if sort == "reviews" then "total_reviews"
    else if sort == "rating" then "total_sailed"
    else sort
  }

  /** `_get_sort_item`: no ordering for an empty sort (which validation
      never lets through); otherwise the field, behind a "-" exactly when the
      order is descending. */
  function SortItem(sort: string, sortType: string): (r: Option<string>)
    ensures r.None? <==> sort == ""
    ensures r.Some? && sortType == "dec" ==> r.value == "-" + OrderByField(sort)
    ensures r.Some? && sortType != "dec" ==> r.value == OrderByField(sort)
  {
    if sort == "" then None
    else Some((if sortType == "dec" then "-" else "") + OrderByField(sort))
  }

  /** Reads a sort item back as the sort name and sort type it came from. */
  function ParseSortItem(item: string): (r: (string, string))
  {
    var (field, sortType) := if |item| > 0 && item[0] == '-' then (item[1..], "dec") else (item, "inc");
    var sort := if field == "created_date" then "date"
                else if field == "total_reviews" then "reviews"
                else if field == "total_sailed" then "rating"
                else field;
    (sort, sortType)
  }

  /** Every valid sort name and sort type is recovered from its sort item,
      so different choices order the products differently. */
  lemma SortItemRoundTrip(sort: string, sortType: string)
    requires sort in SortItems && sortType in SortTypes
    ensures SortItem(sort, sortType).Some?
    ensures ParseSortItem(SortItem(sort, sortType).value) == (sort, sortType)
  {
    var item := SortItem(sort, sortType).value;
    var field := OrderByField(sort);
    assert field[0] != '-';
    if sortType == "dec" {
      assert item[1..] == field;
    }
  }

  /** `to_representation`: category 0 becomes no category; filters, sort
      and pagination as above. */
  function ToQuery(p: ValidParams): (r: CatalogQuery)
    ensures r.categoryId == (if p.category == Some(0) then None else p.category)
    ensures r.filters == FilterItems(p)
    ensures r.sort == SortItem(p.sort, p.sortType)
    ensures r.currentPage == p.currentPage && r.limit == p.limit
  {
    CatalogQuery(if p.category == Some(0) then None else p.category,
                 FilterItems(p), SortItem(p.sort, p.sortType), p.currentPage, p.limit)
  }

  /** A blank name filters nothing, while a minimum price of 0 is still a filter. */
  lemma BlankNameZeroPrice(p: ValidParams)
    requires p.name == Some("") && p.minPrice == Some(0)
    ensures FilterItems(p).titleContains.None? && FilterItems(p).priceAtLeast == Some(0)
  {
  }
}

=== FILE: categories.dfy ===
/** The category tree and its three recursive queries
    (shop/products/models/category.py:12-60, 98-131), restated as walks over
    a map from category id to parent pointer and active flag. Each walk is
    bounded by the number of categories; on an acyclic map the bound is never
    reached (`AcyclicBound`), so the walks compute exactly what the recursive
    SQL computes. */
module Categories {
  import opened Wrappers

  type CategoryId = nat

  datatype Category = Category(parent: Option<CategoryId>, isActive: bool)

  type Tree = map<CategoryId, Category>

  /** The category reached from `k` by following `n` parent links, if every
      link exists. */
  function Ancestor(t: Tree, k: CategoryId, n: nat): Option<CategoryId>
    decreases n
  {
    if n == 0 then Some(k)
    else if k in t && t[k].parent.Some? then Ancestor(t, t[k].parent.value, n - 1)
    else None
  }

  /** The `n`-th ancestor of `k` is a known, active category. */
  predicate ActiveAncestor(t: Tree, k: CategoryId, n: nat)
  {
    var a := Ancestor(t, k, n);
    a.Some? && a.value in t && t[a.value].isActive
  }

  /** No category is its own ancestor. */
  ghost predicate Acyclic(t: Tree)
  {
    forall k, n | k in t && 1 <= n :: Ancestor(t, k, n) != Some(k)
  }

  /** Following `i` links and then `j` more is following `i + j`. */
  lemma {:induction false} AncestorCompose(t: Tree, k: CategoryId, i: nat, j: nat)
    ensures Ancestor(t, k, i + j) ==
              (if Ancestor(t, k, i).Some? then Ancestor(t, Ancestor(t, k, i).value, j) else None)
    decreases i
  {
    if i > 0 && k in t && t[k].parent.Some? {
      AncestorCompose(t, t[k].parent.value, i - 1, j);
    }
  }

  /** The links on the way to an existing ancestor all exist, and every
      category passed through is known. */
  lemma {:induction false} AncestorPrefix(t: Tree, k: CategoryId, n: nat, i: nat)
    requires Ancestor(t, k, n).Some?
    requires i < n
    ensures Ancestor(t, k, i).Some? && Ancestor(t, k, i).value in t
    decreases n
  {
    if i > 0 {
      AncestorPrefix(t, t[k].parent.value, n - 1, i - 1);
    }
  }

  /** A sequence longer than the set its elements come from repeats an element. */
  lemma {:induction false} Pigeonhole(xs: seq<CategoryId>, s: set<CategoryId>)
    requires forall i | 0 <= i < |xs| :: xs[i] in s
    requires |xs| > |s|
    ensures exists i, j | 0 <= i < j < |xs| :: xs[i] == xs[j]
  {
    var last := xs[|xs| - 1];
    var front := xs[..|xs| - 1];
    if last in front {
      var i :| 0 <= i < |front| && front[i] == last;
      assert xs[i] == xs[|xs| - 1];
    } else {
      forall i | 0 <= i < |front|
        ensures front[i] in s - {last}
      {
        assert front[i] == xs[i];
      }
      Pigeonhole(front, s - {last});
      var i, j :| 0 <= i < j < |front| && front[i] == front[j];
      assert xs[i] == xs[j];
    }
  }

  /** In an acyclic tree a chain of links that ends at a known category visits
      distinct categories, so it is shorter than the number of categories. */
  lemma AcyclicBound(t: Tree, k: CategoryId, n: nat)
    requires Acyclic(t)
    requires Ancestor(t, k, n).Some? && Ancestor(t, k, n).value in t
    ensures n < |t|
  {
    forall i | 0 <= i <= n
      ensures Ancestor(t, k, i).Some? && Ancestor(t, k, i).value in t
    {
      if i < n {
        AncestorPrefix(t, k, n, i);
      }
    }
    var xs := seq(n + 1, i requires 0 <= i <= n => Ancestor(t, k, i).value);
    if n + 1 > |t.Keys| {
      Pigeonhole(xs, t.Keys);
      var i, j :| 0 <= i < j < |xs| && xs[i] == xs[j];
      AncestorCompose(t, k, i, j - i);
      assert false;
    }
  }

  // ------------------------------------------------------------ nesting level

  /** Extends a run of `n` active ancestors as far as it goes, but no further
      than the number of categories. */
  function ActiveRun(t: Tree, k: CategoryId, n: nat): (r: nat)
    requires n <= |t|
    requires forall i | 1 <= i <= n :: ActiveAncestor(t, k, i)
    ensures n <= r <= |t|
    ensures forall i | 1 <= i <= r :: ActiveAncestor(t, k, i)
    ensures r == |t| || !ActiveAncestor(t, k, r + 1)
    decreases |t| - n
  {
    if n < |t| && ActiveAncestor(t, k, n + 1) then ActiveRun(t, k, n + 1) else n
  }

  /** `get_nesting_level`: the number of consecutive active ancestors of `id`
      (the category's own flag is not looked at); `None` for an unknown id,
      where the MAX over no rows is NULL. */
  function NestingLevel(t: Tree, id: CategoryId): (r: Option<nat>)
    ensures r.None? <==> id !in t
    ensures r.Some? ==> forall i | 1 <= i <= r.value :: ActiveAncestor(t, id, i)
    ensures r.Some? && r.value < |t| ==> !ActiveAncestor(t, id, r.value + 1)
  {
    if id !in t then None else Some(ActiveRun(t, id, 0))
  }

  /** On an acyclic tree the level is exactly the length of the run of active
      ancestors: the run stops right after it. */
  lemma NestingLevelExact(t: Tree, id: CategoryId)
    requires Acyclic(t) && id in t
    ensures var r := NestingLevel(t, id).value;
            (forall i | 1 <= i <= r :: ActiveAncestor(t, id, i)) && !ActiveAncestor(t, id, r + 1)
  {
    var r := NestingLevel(t, id).value;
    if ActiveAncestor(t, id, r + 1) {
      AcyclicBound(t, id, r + 1);
    }
  }

  /** A category without a parent, or whose parent is inactive, is at level 0. */
  lemma RootLevelZero(t: Tree, id: CategoryId)
    requires id in t
    requires t[id].parent.None? || t[id].parent.value !in t || !t[t[id].parent.value].isActive
    ensures NestingLevel(t, id) == Some(0)
  {
    assert !ActiveAncestor(t, id, 1);
  }

  // --------------------------------------------------------------- root id

  /** `get_root_category_id`: `None` for a category without a parent;
      otherwise the last category of the active ancestor run, provided that it
      has no parent, and `None` when the run is broken by an inactive one. */
  function RootId(t: Tree, id: CategoryId): (r: Option<CategoryId>)
    requires id in t
    ensures t[id].parent.None? ==> r.None?
    ensures r.Some? ==> r.value in t && t[r.value].parent.None? && t[r.value].isActive
  {
    if t[id].parent.None? then None
    else
      var n := ActiveRun(t, id, 0);
      if n == 0 then None
      else
        assert ActiveAncestor(t, id, n);
        var top := Ancestor(t, id, n).value;
        if t[top].parent.None? then Some(top) else None
  }

  /** On an acyclic tree the root is found exactly when some ancestor without
      a parent is reached through active ancestors only, and it is that ancestor. */
  lemma RootIdReached(t: Tree, id: CategoryId, m: nat)
    requires Acyclic(t) && id in t
    requires 1 <= m
    requires forall i | 1 <= i <= m :: ActiveAncestor(t, id, i)
    requires ActiveAncestor(t, id, m) && t[Ancestor(t, id, m).value].parent.None?
    ensures RootId(t, id) == Ancestor(t, id, m)
  {
    var n := ActiveRun(t, id, 0);
    AcyclicBound(t, id, m);
    AncestorCompose(t, id, m, 1);
    assert !ActiveAncestor(t, id, m + 1);
    if n < m {
      assert false;
    } else if n > m {
      assert false;
    }
    assert t[id].parent.Some? by {
      assert Ancestor(t, id, m).Some?;
    }
  }

  /** Conversely, a root id that is found is an ancestor reached through
      active ancestors. */
  lemma RootIdIsAncestor(t: Tree, id: CategoryId)
    requires id in t && RootId(t, id).Some?
    ensures exists m | 1 <= m :: && RootId(t, id) == Ancestor(t, id, m)
                                 && forall i | 1 <= i <= m :: ActiveAncestor(t, id, i)
  {
    var n := ActiveRun(t, id, 0);
    assert n > 0;
    assert ActiveAncestor(t, id, n);
    assert RootId(t, id) == Ancestor(t, id, n);
  }

  // ------------------------------------------------------------ subtree depth

  /** The active categories whose parent is in `s`. */
  function Children(t: Tree, s: set<CategoryId>): (r: set<CategoryId>)
    ensures r <= t.Keys
  {
    set k | k in t && t[k].isActive && t[k].parent.Some? && t[k].parent.value in s
  }

  /** The rows of depth `d` in the subcategory query started at `id`. */
  function Frontier(t: Tree, id: CategoryId, d: nat): (r: set<CategoryId>)
    ensures r <= t.Keys
  {
    if d == 0 then (if id in t then {id} else {}) else Children(t, Frontier(t, id, d - 1))
  }

  /** The rows of depth `d` are exactly the categories `d` links below `id`
      that, together with everything between them and `id`, are active. */
  lemma {:induction false} FrontierMembers(t: Tree, id: CategoryId, d: nat, k: CategoryId)
    ensures k in Frontier(t, id, d) <==>
              && k in t && id in t && Ancestor(t, k, d) == Some(id)
              && forall i | 0 <= i < d :: ActiveAncestor(t, k, i)
    decreases d
  {
    if d > 0 && k in t && t[k].parent.Some? {
      var p := t[k].parent.value;
      FrontierMembers(t, id, d - 1, p);
      forall i | 0 <= i < d - 1
        ensures ActiveAncestor(t, p, i) == ActiveAncestor(t, k, i + 1)
      {
        assert Ancestor(t, k, i + 1) == Ancestor(t, p, i);
      }
      if k in Frontier(t, id, d) {
        assert p in Frontier(t, id, d - 1);
        forall i | 0 <= i < d
          ensures ActiveAncestor(t, k, i)
        {
          if i > 0 {
            assert ActiveAncestor(t, p, i - 1);
          }
        }
      }
      if id in t && Ancestor(t, k, d) == Some(id) && forall i | 0 <= i < d :: ActiveAncestor(t, k, i) {
        assert ActiveAncestor(t, k, 0);
        if d > 1 {
          assert ActiveAncestor(t, k, 1);
        }
        assert p in t;
        forall i | 0 <= i < d - 1
          ensures ActiveAncestor(t, p, i)
        {
          assert ActiveAncestor(t, k, i + 1);
        }
        assert p in Frontier(t, id, d - 1);
      }
    }
  }

  /** Once a depth has no rows, no deeper one has any. */
  lemma {:induction false} FrontierEmptyStays(t: Tree, id: CategoryId, d: nat, e: nat)
    requires Frontier(t, id, d) == {}
    requires d <= e
    ensures Frontier(t, id, e) == {}
    decreases e - d
  {
    if d < e {
      assert Frontier(t, id, d + 1) == Children(t, {});
      assert Children(t, {}) == {};
      FrontierEmptyStays(t, id, d + 1, e);
    }
  }

  /** In an acyclic tree no row lies as deep as the number of categories. */
  lemma FrontierBounded(t: Tree, id: CategoryId, d: nat)
    requires Acyclic(t)
    requires Frontier(t, id, d) != {}
    ensures d < |t|
  {
    var k :| k in Frontier(t, id, d);
    FrontierMembers(t, id, d, k);
    AcyclicBound(t, k, d);
  }

  /** The deepest non-empty depth at or below `d`, up to the number of categories. */
  function Deepest(t: Tree, id: CategoryId, d: nat): (r: nat)
    requires d <= |t|
    requires Frontier(t, id, d) != {}
    ensures d <= r <= |t|
    ensures Frontier(t, id, r) != {}
    ensures r == |t| || Frontier(t, id, r + 1) == {}
    decreases |t| - d
  {
    if d < |t| && Frontier(t, id, d + 1) != {} then Deepest(t, id, d + 1) else d
  }

  /** `get_subcategories_rel_nesting_level`: the greatest depth reached below
      `id` through active subcategories (0 for a leaf); `None` for an unknown id. */
  function SubtreeLevel(t: Tree, id: CategoryId): (r: Option<nat>)
    ensures r.None? <==> id !in t
    ensures r.Some? ==> Frontier(t, id, r.value) != {}
  {
    if id !in t then None else Some(Deepest(t, id, 0))
  }

  /** On an acyclic tree the level is the maximum: it is reached, and nothing
      lies deeper. */
  lemma SubtreeLevelIsMax(t: Tree, id: CategoryId, e: nat)
    requires Acyclic(t) && id in t
    requires SubtreeLevel(t, id).value < e
    ensures Frontier(t, id, e) == {}
  {
    var r := SubtreeLevel(t, id).value;
    if r == |t| {
      FrontierBounded(t, id, r);
    }
    FrontierEmptyStays(t, id, r + 1, e);
  }

  /** A category without active subcategories is a leaf of level 0. */
  lemma LeafLevelZero(t: Tree, id: CategoryId)
    requires id in t
    requires forall k | k in t && t[k].parent == Some(id) :: !t[k].isActive
    ensures SubtreeLevel(t, id) == Some(0)
  {
    assert Frontier(t, id, 1) == {};
  }

  /** A two-level example: an active child of an active child is depth 2, and
      the grandchild sits at nesting level 2. */
  lemma ChainExample()
    ensures var t := map[1 := Category(None, true), 2 := Category(Some(1), true), 3 := Category(Some(2), true)];
            && SubtreeLevel(t, 1) == Some(2)
            && NestingLevel(t, 3) == Some(2)
            && RootId(t, 3) == Some(1)
  {
    var t := map[1 := Category(None, true), 2 := Category(Some(1), true), 3 := Category(Some(2), true)];
    assert Frontier(t, 1, 1) == {2};
    assert Frontier(t, 1, 2) == {3};
    assert Frontier(t, 1, 3) == {};
    assert Ancestor(t, 3, 3) == None;
    assert !ActiveAncestor(t, 3, 3);
  }
}

=== FILE: category_forms.dfy ===
/** The admin forms of categories (shop/products/forms/category.py): the
    nesting checks applied to the chosen parent of a category, and to the
    parent of a subcategory added inline. Category objects are truthy, so
    "no parent" means exactly that no parent was chosen. */
module CategoryForms {
  import opened Wrappers
  import opened Forms
  import opened Categories
  import opened ProductValidators

  const SelectOtherParent := "Select another parent category! "
  const CanNotAddSubcategories := "Can not add subcategory for this category! "
  const ParentFieldInternalError := "Parent field is not set! Internal error!"

  /** The category the form edits: one being created, or a stored one with
      its current parent. */
  datatype Instance = NewCategory | StoredCategory(id: CategoryId, parent: Option<CategoryId>)

  /** Which check `clean_parent` runs for a chosen parent: a new category
      gets the parent's level checked; a stored category that gets its first
      parent or a different one gets the full move check; a stored category
      keeping its parent gets none. */
  function ParentCheck(t: Tree, instance: Instance, parent: CategoryId): (r: Check)
    ensures instance.NewCategory? ==> r == ValidateParentCategoryNesting(t, parent)
    ensures instance.StoredCategory? && instance.parent != Some(parent) ==>
              r == ValidateNewParentCategory(t, instance.id, parent)
    ensures instance.StoredCategory? && instance.parent == Some(parent) ==> r == Passed
  {
    match instance
    case NewCategory => ValidateParentCategoryNesting(t, parent)
    case StoredCategory(id, current) =>
      if current.None? || parent != current.value then ValidateNewParentCategory(t, id, parent)
      else Passed
  }

  /** `CategoryForm.clean_parent`: no parent makes a top-level category; a
      chosen parent is kept when its check passes, and otherwise the check's
      message is raised behind a prompt to choose again. */
  function CleanParent(t: Tree, instance: Instance, parent: Option<CategoryId>): (r: Cleaned<Option<CategoryId>>)
    ensures parent.None? ==> r == Value(None)
    ensures parent.Some? ==> (r == Value(parent) <==> ParentCheck(t, instance, parent.value) == Passed)
    ensures parent.Some? ==> (r == Crash <==> ParentCheck(t, instance, parent.value) == TypeError)
    ensures r.Invalid? <==> parent.Some? && ParentCheck(t, instance, parent.value).Failed?
    ensures r.Invalid? ==> r.message == SelectOtherParent + ParentCheck(t, instance, parent.value).message
  {
    match parent
    case None => Value(None)
    case Some(p) =>
      match ParentCheck(t, instance, p)
      case Passed => Value(parent)
      case TypeError => Crash
      case Failed(message) => Invalid(SelectOtherParent + message)
  }

  /** A stored category is never refused for keeping the parent it has, even
      when that parent has since become too deep. */
  lemma UnchangedParentAccepted(t: Tree, id: CategoryId, parent: CategoryId)
    ensures CleanParent(t, StoredCategory(id, Some(parent)), Some(parent)) == Value(Some(parent))
  {
  }

  /** A new category under a top-level parent is accepted whatever the
      subtree, while moving a stored category with active subcategories
      under the same parent is refused. */
  lemma NewAndMovedDiffer(t: Tree, id: CategoryId, parent: CategoryId)
    requires NestingLevel(t, parent) == Some(0)
    requires id in t && SubtreeLevel(t, id).value > 0
    ensures CleanParent(t, NewCategory, Some(parent)) == Value(Some(parent))
    ensures CleanParent(t, StoredCategory(id, None), Some(parent))
              == Invalid(SelectOtherParent + SubcategoriesNestingError)
  {
  }

  /** `CategoryInlineForm.clean`: the subcategory must have a parent, and the
      parent must be able to take a child. */
  function InlineClean(t: Tree, parent: Option<CategoryId>): (r: Cleaned<Option<CategoryId>>)
    ensures parent.None? ==> r == Invalid(ParentFieldInternalError)
    ensures r.Value? <==> parent.Some? && NestingLevel(t, parent.value) == Some(0)
    ensures r.Value? ==> r.value == parent
    ensures r == Crash <==> parent.Some? && parent.value !in t
    ensures parent.Some? && r.Invalid? ==>
              r.message == CanNotAddSubcategories + ValidateParentCategoryNesting(t, parent.value).message
  {
    match parent
    case None => Invalid(ParentFieldInternalError)
    case Some(p) =>
      match ValidateParentCategoryNesting(t, p)
      case Passed => Value(parent)
      case TypeError => Crash
      case Failed(message) => Invalid(CanNotAddSubcategories + message)
  }

  /** The inline form and `clean_parent` of a new category accept the same
      parents. */
  lemma InlineAgreesWithNewCategory(t: Tree, parent: CategoryId)
    ensures InlineClean(t, Some(parent)).Value? <==> CleanParent(t, NewCategory, Some(parent)).Value?
  {
  }
}

=== FILE: checkout.dfy ===
/** Checkout (shop/orders/services/order.py): creating the initial order from
    the items of a request, reserving their stock in one transaction, and
    confirming an order with the receiver, payment and delivery data. */
module OrderService {
  import opened Wrappers
  import opened Money
  import opened Sums
  import opened Products
  import opened Ledger
  import opened Pricing
  import opened OrderModel
  import opened OrderSerializers
  import Basket

  // ---------------------------------------------------------- _get_init_order_data

  /** The validated items of a request: by product id, the last item naming
      it wins, while the cost counts every item. */
  datatype InitData = InitData(products: map<ProductId, OrderedItem>, cost: Cents)

  /** The sum of `price * count` over the items of a request. */
  function ItemsCost(items: seq<ItemRequest>): int
  {
    if |items| == 0 then 0
    else ItemsCost(items[..|items| - 1]) + items[|items| - 1].price * items[|items| - 1].count
  }

  /** Item `i` is the last item of the request that names product `p`. */
  predicate LastNaming(items: seq<ItemRequest>, p: int, i: int)
  {
    0 <= i < |items| && items[i].id == p && forall k | i < k < |items| :: items[k].id != p
  }

  /** `_get_init_order_data`: the items are validated in order, the first
      invalid one ending the request; the cost adds up every item, and the
      last item naming a product is the one kept for it. */
  function InitOrderData(items: seq<ItemRequest>): (r: Result<InitData, set<ItemField>>)
    ensures r.Ok? ==> forall p | p in r.value.products :: r.value.products[p].productId == p
    decreases |items|
  {
    if |items| == 0 then Ok(InitData(map[], 0))
    else
      var prefix :- InitOrderData(items[..|items| - 1]);
      var item :- ValidateOrderedProduct(items[|items| - 1]);
      Ok(InitData(prefix.products[item.productId := item], prefix.cost + item.totalPrice))
  }

  /** The request fails exactly when an item is invalid, with the fields of
      the first invalid item. */
  lemma {:induction false} InitOrderDataErrors(items: seq<ItemRequest>)
    ensures InitOrderData(items).Err? <==> exists i | 0 <= i < |items| :: ItemErrors(items[i]) != {}
    ensures InitOrderData(items).Err? ==> exists i | 0 <= i < |items| ::
              && ItemErrors(items[i]) != {} && InitOrderData(items).error == ItemErrors(items[i])
              && forall k | 0 <= k < i :: ItemErrors(items[k]) == {}
    decreases |items|
  {
    if |items| > 0 {
      var init := items[..|items| - 1];
      assert forall i | 0 <= i < |init| :: init[i] == items[i];
      InitOrderDataErrors(init);
      if InitOrderData(init).Ok? && ItemErrors(items[|items| - 1]) != {} {
        assert forall k | 0 <= k < |items| - 1 :: ItemErrors(items[k]) == {};
      }
    }
  }

  /** The cost of an accepted request counts every item, repeated or not. */
  lemma {:induction false} InitOrderDataCost(items: seq<ItemRequest>)
    requires InitOrderData(items).Ok?
    ensures InitOrderData(items).value.cost == ItemsCost(items)
    decreases |items|
  {
    if |items| > 0 {
      InitOrderDataCost(items[..|items| - 1]);
    }
  }

  /** `products` holds one entry per product the request names, and it is
      the last item naming that product. */
  ghost predicate KeepsLast(items: seq<ItemRequest>, products: map<ProductId, OrderedItem>)
  {
    && (forall p :: p in products <==> exists i | 0 <= i < |items| :: items[i].id == p)
    && (forall p | p in products :: exists i | LastNaming(items, p, i) :: ValidateOrderedProduct(items[i]) == Ok(products[p]))
  }

  /** An accepted request keeps one item per named product: the last one. */
  lemma InitOrderDataProducts(items: seq<ItemRequest>)
    requires InitOrderData(items).Ok?
    ensures KeepsLast(items, InitOrderData(items).value.products)
  {
    InitOrderDataKeys(items);
    InitOrderDataLast(items);
  }

  lemma {:induction false} InitOrderDataKeys(items: seq<ItemRequest>)
    requires InitOrderData(items).Ok?
    ensures forall p :: p in InitOrderData(items).value.products <==> exists i | 0 <= i < |items| :: items[i].id == p
    decreases |items|
  {
    if |items| > 0 {
      var init := items[..|items| - 1];
      InitOrderDataKeys(init);
      var prefix := InitOrderData(init).value;
      var item := ValidateOrderedProduct(items[|items| - 1]).value;
      var last := |items| - 1;
      var products := InitOrderData(items).value.products;
      assert products == prefix.products[item.productId := item];
      forall p
        ensures p in products <==> exists i | 0 <= i < |items| :: items[i].id == p
      {
        if p in prefix.products {
          var i :| 0 <= i < |init| && init[i].id == p;
          assert items[i].id == p;
        }
        if exists i | 0 <= i < |items| :: items[i].id == p {
          var i :| 0 <= i < |items| && items[i].id == p;
          if i < last {
            assert init[i].id == p;
          }
        }
      }
    }
  }

  lemma {:induction false} InitOrderDataLast(items: seq<ItemRequest>)
    requires InitOrderData(items).Ok?
    ensures forall p | p in InitOrderData(items).value.products ::
              exists i | LastNaming(items, p, i) :: ValidateOrderedProduct(items[i]) == Ok(InitOrderData(items).value.products[p])
    decreases |items|
  {
    if |items| > 0 {
      var init := items[..|items| - 1];
      InitOrderDataLast(init);
      var prefix := InitOrderData(init).value;
      var item := ValidateOrderedProduct(items[|items| - 1]).value;
      var last := |items| - 1;
      var products := InitOrderData(items).value.products;
      assert products == prefix.products[item.productId := item];
      assert LastNaming(items, items[last].id, last);
      forall p | p in products
        ensures exists i | LastNaming(items, p, i) :: ValidateOrderedProduct(items[i]) == Ok(products[p])
      {
        if p != item.productId {
          var i :| LastNaming(init, p, i) && ValidateOrderedProduct(init[i]) == Ok(prefix.products[p]);
          assert items[i] == init[i];
          assert LastNaming(items, p, i);
        }
      }
    }
  }

  // ------------------------------------------------------------ create_init_order

  datatype CheckoutError =
    | InvalidItem(fields: set<ItemField>)             // `ValidationError` of an item
    | UnavailableProducts(ids: set<ProductId>)     // `OrderException`: inactive or out of stock
    | InsufficientStock                            // `OrderException` from `_reduce_stock_products`
    | SaveError                               // a row cannot be saved

  /** The order lines the validated items become. */
  function LinesOf(ordered: map<ProductId, OrderedItem>): (r: map<ProductId, Line>)
    ensures r.Keys == ordered.Keys
    ensures forall p | p in r :: r[p] == Line(ordered[p].totalQuantity, ordered[p].totalPrice)
  {
    map p | p in ordered :: Line(ordered[p].totalQuantity, ordered[p].totalPrice)
  }

  /** `_reduce_stock_products`: each ordered product loses its ordered units. */
  function ReduceStock(products: Catalog, ordered: map<ProductId, OrderedItem>): (r: Catalog)
    requires forall p | p in ordered :: p in products && products[p].count >= ordered[p].totalQuantity
    ensures r.Keys == products.Keys
    ensures forall p | p in r :: r[p] == if p in ordered then products[p].(count := products[p].count - ordered[p].totalQuantity)
                                          else products[p]
  {
    map p | p in products :: if p in ordered then products[p].(count := products[p].count - ordered[p].totalQuantity)
                             else products[p]
  }

  /** Every ordered product exists and is available. */
  predicate AllAvailable(products: Catalog, ordered: map<ProductId, OrderedItem>)
  {
    forall p | p in ordered :: p in products && IsAvailable(products[p])
  }

  /** Some ordered product has fewer units than ordered. */
  predicate SomeShort(products: Catalog, ordered: map<ProductId, OrderedItem>)
    requires AllAvailable(products, ordered)
  {
    exists p | p in ordered :: products[p].count < ordered[p].totalQuantity
  }

  /** A subset as large as its superset is the superset. */
  lemma {:induction false} SubsetOfSameSize<T>(a: set<T>, b: set<T>)
    requires a <= b && |a| == |b|
    ensures a == b
    decreases |b|
  {
    if b != {} {
      var x :| x in b;
      if x in a {
        assert |a - {x}| == |a| - 1 && |b - {x}| == |b| - 1;
        SubsetOfSameSize(a - {x}, b - {x});
        assert a == (a - {x}) + {x};
      } else {
        assert a <= b - {x};
        assert |b - {x}| == |b| - 1;
        SubsetSize(a, b - {x});
      }
    }
  }

  lemma {:induction false} SubsetSize<T>(a: set<T>, b: set<T>)
    requires a <= b
    ensures |a| <= |b|
    decreases |b|
  {
    if a != {} {
      var x :| x in a;
      assert |a - {x}| == |a| - 1 && |b - {x}| == |b| - 1;
      SubsetSize(a - {x}, b - {x});
    }
  }

  /** `create_init_order` inside its transaction: validate the items, require
      every named product to be available, create the order with status
      "created" under the next id, take the stock and add the lines. */
  function CreateInitOrder(s: Shop, items: seq<ItemRequest>, user: UserId): (r: Result<(Shop, OrderId), CheckoutError>)
    ensures r.Ok? ==> InitOrderData(items).Ok?
    ensures r.Err? && r.error.InvalidItem? <==> InitOrderData(items).Err?
    ensures InitOrderData(items).Ok? ==>
              var ordered := InitOrderData(items).value.products;
              && (r.Err? && r.error.UnavailableProducts? <==> !AllAvailable(s.products, ordered))
              && (r.Err? && r.error.InsufficientStock? <==> AllAvailable(s.products, ordered) && SomeShort(s.products, ordered))
    ensures r.Ok? ==>
              var data := InitOrderData(items).value;
              var o := s.nextOrderId;
              && r.value.1 == o
              && o !in s.orders
              && r.value.0.orders == s.orders[o := NewOrder(user, data.cost, Created)]
              && r.value.0.nextOrderId == o + 1
              && (forall p | p in data.products :: p in s.products && s.products[p].count >= data.products[p].totalQuantity)
              && r.value.0.products == ReduceStock(s.products, data.products)
              && BulkAdd(s.lines, o, LinesOf(data.products)) == Ok(r.value.0.lines)
  {
    match InitOrderData(items)
    case Err(fields) => Err(InvalidItem(fields))
    case Ok(data) =>
      var ids := data.products.Keys;
      var available := AvailableIds(s.products, ids);
      assert AllAvailable(s.products, data.products) ==> available == ids;
      if |available| != |ids| then
        Err(UnavailableProducts(UnavailableIds(s.products, ids)))
      else
        SubsetOfSameSize(available, ids);
        if SomeShort(s.products, data.products) then Err(InsufficientStock)
        else
          var o := s.nextOrderId;
          if o in s.orders then Err(SaveError)
          else
            match BulkAdd(s.lines, o, LinesOf(data.products))
            case Err(_) => Err(SaveError)
            case Ok(lines) =>
              Ok((Shop(ReduceStock(s.products, data.products),
                       s.orders[o := NewOrder(user, data.cost, Created)],
                       lines,
                       o + 1),
                  o))
  }

  /** On a valid state the only failures are the item and stock checks. */
  lemma CheckoutFailsOnlyOnChecks(s: Shop, items: seq<ItemRequest>, user: UserId)
    requires Valid(s)
    ensures CreateInitOrder(s, items, user) != Err(SaveError)
  {
    var o := s.nextOrderId;
    assert o !in s.orders;
    assert forall p :: (o, p) !in s.lines;
  }

  /** An empty request is not refused: it makes an order of cost 0 with no
      lines and takes no stock. */
  lemma EmptyOrderAccepted(s: Shop, user: UserId)
    requires Valid(s)
    ensures var r := CreateInitOrder(s, [], user);
            && r.Ok?
            && r.value.0.orders[r.value.1] == NewOrder(user, 0, Created)
            && r.value.0.products == s.products
            && r.value.0.lines == s.lines
  {
    var data := InitData(map[], 0);
    assert InitOrderData([]) == Ok(data);
    assert AllAvailable(s.products, data.products);
    assert !SomeShort(s.products, data.products);
    CheckoutFailsOnlyOnChecks(s, [], user);
    assert LinesOf(data.products) == map[];
    BulkAddNothing(s.lines, s.nextOrderId);
    assert ReduceStock(s.products, map[]) == s.products;
  }

  /** A request naming a product twice pays for both items but records
      only the last one. */
  lemma DuplicateItemsCostedTwice()
    ensures var data := InitOrderData([ItemRequest(1, 500, 1), ItemRequest(1, 500, 1)]);
            && data == Ok(InitData(map[1 := OrderedItem(1, 500, 1)], 1000))
            && Total(Prices(LinesOf(data.value.products))) == 500
  {
    var item := ItemRequest(1, 500, 1);
    var items := [item, item];
    assert ItemErrors(item) == {};
    assert ValidateOrderedProduct(item) == Ok(OrderedItem(1, 500, 1));
    assert items[..1] == [item];
    assert items[..1][..0] == [];
    assert InitOrderData(items[..1]) == Ok(InitData(map[1 := OrderedItem(1, 500, 1)], 500));
    assert items[..|items| - 1] == items[..1];
    assert items[|items| - 1] == item;
    var prefix := InitOrderData(items[..1]).value;
    assert InitOrderData(items) == Ok(InitData(prefix.products[1 := OrderedItem(1, 500, 1)], prefix.cost + 500));
    assert prefix.products[1 := OrderedItem(1, 500, 1)] == map[1 := OrderedItem(1, 500, 1)];
    assert InitOrderData(items) == Ok(InitData(map[1 := OrderedItem(1, 500, 1)], 1000));
    var m := Prices(LinesOf(map[1 := OrderedItem(1, 500, 1)]));
    assert m == map[1 := 500];
    LinePricesStep(map[], OrderedItem(1, 500, 1));
  }

  // -------------------------------------------------------- checkout invariants

  /** Adding the lines of a fresh order moves each product's reserved
      quantity by the units of its new line. */
  lemma BulkAddReserved(lines: Lines, o: OrderId, added: map<ProductId, Line>, p: ProductId)
    requires forall q :: (o, q) !in lines
    ensures BulkAdd(lines, o, added).Ok?
    ensures Reserved(BulkAdd(lines, o, added).value, p) ==
              Reserved(lines, p) + if p in added then added[p].totalQuantity else 0
  {
    var lines' := BulkAdd(lines, o, added).value;
    if p in added {
      SameProductLines(lines', lines[(o, p) := added[p]], p);
      ReservedSet(lines, o, p, added[p], p);
    } else {
      SameProductLines(lines', lines, p);
    }
  }

  /** Reserved units of `p` depend only on the lines holding `p`. */
  lemma SameProductLines(a: Lines, b: Lines, p: ProductId)
    requires forall o | (o, p) in a :: (o, p) in b && a[(o, p)] == b[(o, p)]
    requires forall o | (o, p) in b :: (o, p) in a
    ensures Reserved(a, p) == Reserved(b, p)
  {
    assert ProductLines(a, p) == ProductLines(b, p);
  }

  /** The lines of a fresh order are exactly the added ones. */
  lemma BulkAddOrderLines(lines: Lines, o: OrderId, added: map<ProductId, Line>)
    requires forall q :: (o, q) !in lines
    ensures BulkAdd(lines, o, added).Ok?
    ensures OrderLines(BulkAdd(lines, o, added).value, o) == added
  {
  }

  /** A successful checkout keeps referential integrity and moves stock into
      the new lines: no product's stock plus reserved units changes. */
  lemma CheckoutConservesStock(s: Shop, items: seq<ItemRequest>, user: UserId)
    requires Valid(s)
    requires CreateInitOrder(s, items, user).Ok?
    ensures var s' := CreateInitOrder(s, items, user).value.0;
            && Valid(s')
            && s'.products.Keys == s.products.Keys
            && forall p | p in s.products :: Held(s', p) == Held(s, p)
  {
    var (s', o) := CreateInitOrder(s, items, user).value;
    var data := InitOrderData(items).value;
    assert forall q :: (o, q) !in s.lines;
    forall p | p in s.products
      ensures Held(s', p) == Held(s, p)
    {
      BulkAddReserved(s.lines, o, LinesOf(data.products), p);
    }
  }

  /** Adding a line for a product the order does not have yet adds its price. */
  lemma LinePricesStep(m: map<ProductId, OrderedItem>, item: OrderedItem)
    requires item.productId !in m
    ensures Total(Prices(LinesOf(m[item.productId := item]))) == Total(Prices(LinesOf(m))) + item.totalPrice
  {
    var before := Prices(LinesOf(m));
    assert Prices(LinesOf(m[item.productId := item])) == before[item.productId := item.totalPrice];
    TotalUpdate(before, item.productId, item.totalPrice);
    assert before - {item.productId} == before;
  }

  lemma {:induction false} DistinctCostIsLinePrice(items: seq<ItemRequest>)
    requires InitOrderData(items).Ok?
    requires forall i, j | 0 <= i < j < |items| :: items[i].id != items[j].id
    ensures Total(Prices(LinesOf(InitOrderData(items).value.products))) == InitOrderData(items).value.cost
    decreases |items|
  {
    if |items| > 0 {
      var init := items[..|items| - 1];
      assert forall i | 0 <= i < |init| :: init[i] == items[i];
      DistinctCostIsLinePrice(init);
      var prefix := InitOrderData(init).value;
      var item := ValidateOrderedProduct(items[|items| - 1]).value;
      assert InitOrderData(items).value == InitData(prefix.products[item.productId := item], prefix.cost + item.totalPrice);
      InitOrderDataKeys(init);
      assert item.productId !in prefix.products;
      LinePricesStep(prefix.products, item);
    }
  }

  /** The new order of a checkout holds exactly the lines of the request,
      and its costs are the request's cost. */
  lemma CheckoutNewOrder(s: Shop, items: seq<ItemRequest>, user: UserId)
    requires Valid(s)
    requires CreateInitOrder(s, items, user).Ok?
    ensures var (s', o) := CreateInitOrder(s, items, user).value;
            && o in s'.orders
            && s'.orders[o] == NewOrder(user, InitOrderData(items).value.cost, Created)
            && OrderLines(s'.lines, o) == LinesOf(InitOrderData(items).value.products)
  {
    var (s', o) := CreateInitOrder(s, items, user).value;
    var data := InitOrderData(items).value;
    assert forall q :: (o, q) !in s.lines;
    BulkAddOrderLines(s.lines, o, LinesOf(data.products));
  }

  /** When no product is named twice, a new order's products cost is the
      price of its lines and its total has no surcharge. */
  lemma CheckoutWithoutRepeatsHasNoDrift(s: Shop, items: seq<ItemRequest>, user: UserId)
    requires Valid(s)
    requires CreateInitOrder(s, items, user).Ok?
    requires forall i, j | 0 <= i < j < |items| :: items[i].id != items[j].id
    ensures var (s', o) := CreateInitOrder(s, items, user).value;
            o in s'.orders && Drift(s', o) == 0 && Surcharge(s', o) == 0
  {
    var r := CreateInitOrder(s, items, user).value;
    var data := InitOrderData(items).value;
    CheckoutNewOrder(s, items, user);
    DistinctCostIsLinePrice(items);
    NewOrderHasNoDrift(r.0, r.1, user, data.cost, LinesOf(data.products));
  }

  /** An order created with the price of its lines as its cost has neither
      drift nor surcharge. */
  lemma NewOrderHasNoDrift(s: Shop, o: OrderId, user: UserId, cost: Cents, lines: map<ProductId, Line>)
    requires o in s.orders && s.orders[o] == NewOrder(user, cost, Created)
    requires OrderLines(s.lines, o) == lines && Total(Prices(lines)) == cost
    ensures Drift(s, o) == 0 && Surcharge(s, o) == 0
  {
  }

  // ------------------------------------------------------------ the endpoint

  datatype Response = Response(status: nat, orderId: Option<OrderId>)

  /** The endpoint around the transaction: on success the session basket is
      dropped and the new id returned; an invalid item answers 400 and a
      stock failure 500, both leaving the shop and the basket as they were.
      The lines come from the request, never from the basket. */
  function CreateInitOrderResponse(s: Shop, basket: Option<Basket.Basket>, items: seq<ItemRequest>, user: UserId)
    : (r: (Shop, Option<Basket.Basket>, Response))
    ensures CreateInitOrder(s, items, user).Ok? ==>
              && r.0 == CreateInitOrder(s, items, user).value.0 && r.1.None?
              && r.2 == Response(200, Some(CreateInitOrder(s, items, user).value.1))
    ensures CreateInitOrder(s, items, user).Err? ==> r.0 == s && r.1 == basket && r.2.orderId.None?
    ensures CreateInitOrder(s, items, user).Err? ==>
              (r.2.status == 400 <==> CreateInitOrder(s, items, user).error.InvalidItem?)
    ensures r.2.status in {200, 400, 500}
  {
    match CreateInitOrder(s, items, user)
    case Ok((s', o)) => (s', None, Response(200, Some(o)))
    case Err(InvalidItem(_)) => (s, basket, Response(400, None))
    case Err(_) => (s, basket, Response(500, None))
  }

  // ----------------------------------------------------------------- confirm_order

  /** The delivery and payment type rows the handler loads once. */
  datatype ShopConfig = ShopConfig(
    ordinary: DeliveryType, express: DeliveryType,
    online: PaymentType, someone: PaymentType,
    allowedPayment: set<string>, allowedDelivery: set<string>)

  /** `_get_delivery_type`: ordinary when the name is missing, empty or
      "ordinary", express for any other name. */
  function DeliveryTypeFor(cfg: ShopConfig, name: Option<string>): DeliveryType
  {
    if !Truthy(name) || name.value == "ordinary" then cfg.ordinary else cfg.express
  }

  /** `_get_payment_type`: online when the name is missing, empty or
      "online", someone for any other name. */
  function PaymentTypeFor(cfg: ShopConfig, name: Option<string>): PaymentType
  {
    if !Truthy(name) || name.value == "online" then cfg.online else cfg.someone
  }

  /** `_update_init_order`: the receiver data and both types are written, the
      status becomes "confirmed" whatever it was, and the delivery cost is
      recomputed from the products cost. */
  function UpdateInitOrder(order: Order, data: ConfirmationData, cfg: ShopConfig): (r: Result<Order, PricingError>)
    ensures r.Err? <==> DeliveryTypeFor(cfg, data.deliveryType).freeDeliveryOrderPrice.None?
    ensures r.Ok? ==>
              var dt := DeliveryTypeFor(cfg, data.deliveryType);
              && r.value.status == Some(Confirmed)
              && r.value.deliveryType == Some(dt)
              && r.value.paymentType == Some(PaymentTypeFor(cfg, data.paymentType))
              && r.value.deliveryCost == Some(DeliveryCost(order.productsCost, dt).value)
              && r.value.totalCost == order.productsCost + DeliveryCost(order.productsCost, dt).value
              && r.value.productsCost == order.productsCost
              && r.value.receiverFullname == Some(data.fullname) && r.value.receiverPhone == Some(data.phone)
              && r.value.receiverEmail == Some(data.email)
              && r.value.city == Some(data.city) && r.value.address == Some(data.address)
              && r.value.createdBy == order.createdBy && r.value.isActive == order.isActive
              && r.value.paymentComment == order.paymentComment
  {
    var dt := DeliveryTypeFor(cfg, data.deliveryType);
    var deliveryCost :- DeliveryCost(order.productsCost, dt);
    Ok(order.(status := Some(Confirmed),
              receiverFullname := Some(data.fullname),
              receiverPhone := Some(data.phone),
              receiverEmail := Some(data.email),
              address := Some(data.address),
              city := Some(data.city),
              paymentType := Some(PaymentTypeFor(cfg, data.paymentType)),
              deliveryType := Some(dt),
              deliveryCost := Some(deliveryCost),
              totalCost := deliveryCost + order.productsCost))
  }

  /** A confirmation that names no delivery type, an empty one or
      "ordinary" is charged the ordinary delivery cost; any other name is
      charged the express one. Either way the confirmation fails exactly when
      the chosen type has no free-delivery threshold. */
  lemma DeliveryChoice(order: Order, data: ConfirmationData, cfg: ShopConfig)
    ensures var r := UpdateInitOrder(order, data, cfg);
            data.deliveryType in {None, Some(""), Some("ordinary")} ==>
              && (r.Ok? <==> cfg.ordinary.freeDeliveryOrderPrice.Some?)
              && (r.Ok? ==> r.value.deliveryType == Some(cfg.ordinary)
                            && r.value.totalCost == order.productsCost + DeliveryCost(order.productsCost, cfg.ordinary).value)
    ensures var r := UpdateInitOrder(order, data, cfg);
            data.deliveryType !in {None, Some(""), Some("ordinary")} ==>
              && (r.Ok? <==> cfg.express.freeDeliveryOrderPrice.Some?)
              && (r.Ok? ==> r.value.deliveryType == Some(cfg.express)
                            && r.value.totalCost == order.productsCost + DeliveryCost(order.productsCost, cfg.express).value)
  {
  }

  /** A confirmation that names no payment type, an empty one or "online"
      is paid online; any other name is paid by someone else. */
  lemma PaymentChoice(order: Order, data: ConfirmationData, cfg: ShopConfig)
    ensures var r := UpdateInitOrder(order, data, cfg);
            r.Ok? && data.paymentType in {None, Some(""), Some("online")} ==> r.value.paymentType == Some(cfg.online)
    ensures var r := UpdateInitOrder(order, data, cfg);
            r.Ok? && data.paymentType !in {None, Some(""), Some("online")} ==> r.value.paymentType == Some(cfg.someone)
  {
  }

  datatype ConfirmError =
    | InvalidConfirmation(fields: set<ConfirmationField>)   // `ValidationError`
    | OrderDoesNotExist                                     // `Order.DoesNotExist`
    | CostError(error: PricingError)                        // the delivery cost cannot be computed

  /** The transaction of `confirm_order` on validated data: only order `o` changes. */
  function ApplyConfirmation(s: Shop, o: OrderId, data: ConfirmationData, cfg: ShopConfig): (r: Result<Shop, ConfirmError>)
    ensures r.Err? ==> r.error == OrderDoesNotExist || r.error.CostError?
    ensures r.Err? && r.error == OrderDoesNotExist <==> o !in s.orders
    ensures r.Err? && r.error.CostError? <==> o in s.orders && UpdateInitOrder(s.orders[o], data, cfg).Err?
    ensures r.Ok? ==> && o in s.orders && o in r.value.orders
                      && r.value == s.(orders := s.orders[o := r.value.orders[o]])
                      && UpdateInitOrder(s.orders[o], data, cfg) == Ok(r.value.orders[o])
  {
    if o !in s.orders then Err(OrderDoesNotExist)
    else
      match UpdateInitOrder(s.orders[o], data, cfg)
      case Err(e) => Err(CostError(e))
      case Ok(order) => Ok(s.(orders := s.orders[o := order]))
  }

  /** `confirm_order`: the body is validated before the order is looked up. */
  function ConfirmOrder(s: Shop, o: OrderId, req: ConfirmationRequest, cfg: ShopConfig): (r: Result<Shop, ConfirmError>)
    ensures r.Err? && r.error.InvalidConfirmation? <==> ValidateConfirmation(req, cfg.allowedPayment, cfg.allowedDelivery).Err?
    ensures ValidateConfirmation(req, cfg.allowedPayment, cfg.allowedDelivery).Ok? ==>
              r == ApplyConfirmation(s, o, ValidateConfirmation(req, cfg.allowedPayment, cfg.allowedDelivery).value, cfg)
  {
    match ValidateConfirmation(req, cfg.allowedPayment, cfg.allowedDelivery)
    case Err(fields) => Err(InvalidConfirmation(fields))
    case Ok(data) => ApplyConfirmation(s, o, data, cfg)
  }

  /** Confirming keeps the products cost in line with the lines, sets the
      surcharge to the delivery cost as `reset_delivery_related_costs` would,
      and touches no other order, no line and no stock. */
  lemma ConfirmKeepsBalances(s: Shop, o: OrderId, data: ConfirmationData, cfg: ShopConfig)
    requires ApplyConfirmation(s, o, data, cfg).Ok?
    ensures var s' := ApplyConfirmation(s, o, data, cfg).value;
            var order' := s'.orders[o];
            && s'.products == s.products && s'.lines == s.lines && s'.nextOrderId == s.nextOrderId
            && s'.orders.Keys == s.orders.Keys
            && (forall o' | o' in s.orders && o' != o :: s'.orders[o'] == s.orders[o'])
            && Drift(s', o) == Drift(s, o)
            && order'.deliveryCost.Some?
            && Surcharge(s', o) == order'.deliveryCost.value
            && ResetDeliveryRelatedCosts(s.orders, o, order'.deliveryCost.value)[o].totalCost == order'.totalCost
  {
  }

  /** Confirming an order that is already paid for makes it "confirmed" again. */
  lemma ConfirmIgnoresPriorStatus(s: Shop, o: OrderId, data: ConfirmationData, cfg: ShopConfig)
    requires o in s.orders && s.orders[o].status == Some(Payed)
    requires s.orders[o].deliveryType.None? && cfg.ordinary.freeDeliveryOrderPrice.Some? && cfg.express.freeDeliveryOrderPrice.Some?
    ensures ApplyConfirmation(s, o, data, cfg).Ok?
    ensures ApplyConfirmation(s, o, data, cfg).value.orders[o].status == Some(Confirmed)
  {
  }

  /** Confirming twice with the same data gives the same state as once. */
  lemma ConfirmIdempotent(s: Shop, o: OrderId, data: ConfirmationData, cfg: ShopConfig)
    requires ApplyConfirmation(s, o, data, cfg).Ok?
    ensures ApplyConfirmation(ApplyConfirmation(s, o, data, cfg).value, o, data, cfg) == ApplyConfirmation(s, o, data, cfg)
  {
    var s' := ApplyConfirmation(s, o, data, cfg).value;
    UpdateInitOrderIdempotent(s.orders[o], data, cfg);
    assert s'.(orders := s'.orders[o := s'.orders[o]]) == s';
  }

  /** Writing the same confirmation data twice writes nothing new. */
  lemma UpdateInitOrderIdempotent(order: Order, data: ConfirmationData, cfg: ShopConfig)
    requires UpdateInitOrder(order, data, cfg).Ok?
    ensures UpdateInitOrder(UpdateInitOrder(order, data, cfg).value, data, cfg) == UpdateInitOrder(order, data, cfg)
  {
  }

  /** The endpoint: 200 with the id, 400 for an invalid body or a missing
      order, 500 for a cost that cannot be computed; a failure writes nothing. */
  function ConfirmOrderResponse(s: Shop, o: OrderId, req: ConfirmationRequest, cfg: ShopConfig): (r: (Shop, Response))
    ensures ConfirmOrder(s, o, req, cfg).Ok? ==> r == (ConfirmOrder(s, o, req, cfg).value, Response(200, Some(o)))
    ensures ConfirmOrder(s, o, req, cfg).Err? ==> r.0 == s && r.1.orderId.None?
    ensures ConfirmOrder(s, o, req, cfg).Err? ==>
              (r.1.status == 400 <==> !ConfirmOrder(s, o, req, cfg).error.CostError?)
    ensures r.1.status in {200, 400, 500}
  {
    match ConfirmOrder(s, o, req, cfg)
    case Ok(s') => (s', Response(200, Some(o)))
    case Err(CostError(_)) => (s, Response(500, None))
    case Err(_) => (s, Response(400, None))
  }
}

=== FILE: field_validators.dfy ===
/** Field validators for people and places: full names and phone numbers
    (shop/common/validators.py, repeated for profiles in
    shop/user_profile/validators.py), city names and addresses
    (shop/orders/validators.py). Each returns `None` on success and an error
    message otherwise, as the source does. */
module FieldValidators {
  import opened Wrappers
  import opened Text

  const FullNameError := "Full name should contain only letters and space! Min word len is 2 letters!"
  const PhoneError := "Invalid phone number format! ex. +79876543210"

  /** `[a-zA-ZА-Яа-я ]` */
  predicate IsNameChar(c: char)
  {
    IsLatinLetter(c) || IsCyrillicLetter(c) || c == ' '
  }

  /** `[a-zA-ZА-Яа-я0-9,. ]` */
  predicate IsAddressChar(c: char)
  {
    IsNameChar(c) || IsAsciiDigit(c) || c == ',' || c == '.'
  }

  predicate IsLetter(c: char)
  {
    IsLatinLetter(c) || IsCyrillicLetter(c)
  }

  /** `^\+\d{11}$`, again with the optional final newline that `$` allows. */
  predicate IsPhonePattern(s: string)
  {
    && (|s| == 12 || (|s| == 13 && s[12] == '\n'))
    && s[0] == '+'
    && AllDigits(s[1..12])
  }

  // ------------------------------------------------------- shop/common/validators.py

  function ValidateFullName(fullName: string): (r: Option<string>)
    ensures r.Some? ==> r.value == FullNameError
  {
    if !FullMatch(fullName, IsNameChar, 2) || IsSpace(fullName) then Some(FullNameError) else None
  }

  function ValidatePhoneNumber(phone: string): (r: Option<string>)
    ensures r.Some? ==> r.value == PhoneError
  {
    if !IsPhonePattern(phone) then Some(PhoneError) else None
  }

  // ------------------------------------------------------- shop/orders/validators.py

  function CityNameError(name: string): string
  {
    "City name " + name + " has unsupported format! "
    + "It should contain only letters and space! Min word len is 3 letters!"
  }

  function AddressError(address: string): string
  {
    "Address " + address + " has unsupported format! It should contain only letters, "
    + "digits, comma, digits and space! Min address length is 5 symbols!"
  }

  function ValidateCityName(city: string): (r: Option<string>)
    ensures r.Some? ==> r.value == CityNameError(city)
  {
    if !FullMatch(city, IsNameChar, 3) || IsSpace(city) then Some(CityNameError(city)) else None
  }

  function ValidateAddress(address: string): (r: Option<string>)
    ensures r.Some? ==> r.value == AddressError(address)
  {
    if !FullMatch(address, IsAddressChar, 5) || IsSpace(address) then Some(AddressError(address)) else None
  }

  // -------------------------------------------------- shop/user_profile/validators.py

  function ValidateProfileFullName(fullName: string): (r: Option<string>)
    ensures r == ValidateFullName(fullName)
  {
    if !FullMatch(fullName, IsNameChar, 2) || IsSpace(fullName) then Some(FullNameError) else None
  }

  function ValidateProfileUniquePhone(phone: string): (r: Option<string>)
    ensures r == ValidatePhoneNumber(phone)
  {
    if !IsPhonePattern(phone) then Some(PhoneError) else None
  }

  // ----------------------------------------------------------------- what they accept

  /** For a string made of class characters in which the only whitespace is
      the space (plus the newline `$` tolerates at the end), `str.isspace`
      fails exactly when some other character is present. */
  lemma {:induction false} NotSpaceWitness(s: string, cls: char -> bool, minLen: nat)
    requires minLen >= 1
    requires forall c :: cls(c) && IsWhitespace(c) ==> c == ' '
    requires FullMatch(s, cls, minLen)
    ensures !IsSpace(s) <==> exists i | 0 <= i < |s| :: cls(s[i]) && s[i] != ' '
  {
    if !IsSpace(s) {
      var i :| 0 <= i < |s| && !IsWhitespace(s[i]);
      assert s[i] != '\n';
      if AllIn(s, cls) {
        assert cls(s[i]);
      } else {
        assert i < |s| - 1;
        assert s[..|s| - 1][i] == s[i];
      }
    }
  }

  /** A full name is accepted exactly when it is a run of at least two letters
      and spaces (optionally closed by one newline) holding at least one letter. */
  lemma FullNameAccepted(s: string)
    ensures ValidateFullName(s) == None <==>
              FullMatch(s, IsNameChar, 2) && exists i | 0 <= i < |s| :: IsLetter(s[i])
  {
    if FullMatch(s, IsNameChar, 2) {
      NotSpaceWitness(s, IsNameChar, 2);
    }
  }

  /** A city is accepted exactly when it is a run of at least three letters
      and spaces holding at least one letter. */
  lemma CityAccepted(s: string)
    ensures ValidateCityName(s) == None <==>
              FullMatch(s, IsNameChar, 3) && exists i | 0 <= i < |s| :: IsLetter(s[i])
  {
    if FullMatch(s, IsNameChar, 3) {
      NotSpaceWitness(s, IsNameChar, 3);
    }
  }

  /** An address is accepted exactly when it is a run of at least five
      letters, digits, commas, dots and spaces holding something besides spaces. */
  lemma AddressAccepted(s: string)
    ensures ValidateAddress(s) == None <==>
              FullMatch(s, IsAddressChar, 5) && exists i | 0 <= i < |s| :: IsAddressChar(s[i]) && s[i] != ' '
  {
    if FullMatch(s, IsAddressChar, 5) {
      NotSpaceWitness(s, IsAddressChar, 5);
    }
  }

  /** Whitespace-only input is refused however long it is. */
  lemma SpaceOnlyRejected(s: string)
    requires IsSpace(s)
    ensures ValidateFullName(s).Some? && ValidateCityName(s).Some? && ValidateAddress(s).Some?
  {
  }

  /** A phone number is accepted exactly when it is "+" and eleven digits
      (before an optional final newline). */
  lemma PhoneAccepted(s: string)
    ensures ValidatePhoneNumber(s) == None <==>
              (|s| == 12 || (|s| == 13 && s[12] == '\n')) && s[0] == '+' && IsDigits(s[1..12])
  {
  }

  lemma PhoneExamples()
    ensures ValidatePhoneNumber("+79876543210") == None
    ensures ValidatePhoneNumber("79876543210").Some?
    ensures ValidatePhoneNumber("+7987654321").Some?
    ensures ValidatePhoneNumber("+798765432101").Some?
  {
    assert AllDigits("+79876543210"[1..12]);
  }

  lemma FullNameExamples()
    ensures ValidateFullName("Ivan Petrov") == None
    ensures ValidateFullName("I").Some?
    ensures ValidateFullName("   ").Some?
  {
    assert AllIn("Ivan Petrov", IsNameChar);
    assert !IsWhitespace("Ivan Petrov"[0]);
  }
}

=== FILE: forms.dfy ===
/** What a Django form's `clean_<field>` or `clean` method does with the
    value the form field hands it. */
module Forms {

  /** Return the cleaned value, raise a `ValidationError` with a message, or
      fail with a `TypeError` from an operation on `None`. */
  datatype Cleaned<T> = Value(value: T) | Invalid(message: string) | Crash
}

=== FILE: ledger.dfy ===
/** The shop's persistent state as the order code sees it: products, orders
    and order lines (shop/orders/models/order.py), with the two aggregates the
    code reads from it: the price of an order's lines (`count_order_price`)
    and the quantity of a product held by order lines. */
module Ledger {
  import opened Wrappers
  import opened Money
  import opened Sums
  import opened Products

  type OrderId = nat
  type UserId = nat

  /** The order statuses (shop/orders/constants.py:3-9). */
  datatype Status = Created | Confirmed | PaymentInProgress | PaymentRejected | Payed

  function StatusName(s: Status): string
  {
    match s
    case Created => "created"
    case Confirmed => "confirmed"
    case PaymentInProgress => "payment in progress"
    case PaymentRejected => "payment rejected"
    case Payed => "payed"
  }

  /** The status row with a given name, if there is one. */
  function StatusFromName(name: string): (r: Option<Status>)
    ensures r.Some? ==> StatusName(r.value) == name
  {
    if name == "created" then Some(Created)
    else if name == "confirmed" then Some(Confirmed)
    else if name == "payment in progress" then Some(PaymentInProgress)
    else if name == "payment rejected" then Some(PaymentRejected)
    else if name == "payed" then Some(Payed)
    else None
  }

  /** Every status is found again from its name, so the names are distinct. */
  lemma StatusNameRoundTrip(s: Status)
    ensures StatusFromName(StatusName(s)) == Some(s)
  {
  }

  lemma StatusNameInjective(s: Status, u: Status)
    requires StatusName(s) == StatusName(u)
    ensures s == u
  {
    StatusNameRoundTrip(s);
    StatusNameRoundTrip(u);
  }

  /** A delivery type (shop/orders/models/delivery_type.py): its price and the
      order price from which delivery is free, which may be missing. */
  datatype DeliveryType = DeliveryType(name: string, price: Cents, freeDeliveryOrderPrice: Option<Cents>)

  datatype PaymentType = PaymentType(name: string)

  /** An order row. The delivery and payment types are the rows the order
      points to; `None` is a null foreign key. */
  datatype Order = Order(
    createdBy: UserId,
    receiverFullname: Option<string>,
    receiverEmail: Option<string>,
    receiverPhone: Option<string>,
    productsCost: Cents,
    deliveryCost: Option<Cents>,
    totalCost: Cents,
    city: Option<string>,
    address: Option<string>,
    isActive: bool,
    deliveryType: Option<DeliveryType>,
    paymentType: Option<PaymentType>,
    paymentComment: Option<string>,
    status: Option<Status>)

  /** `Order.objects.create(created_by=…, products_cost=…, total_cost=…, status=…)`:
      every other column takes its default. */
  function NewOrder(user: UserId, cost: Cents, status: Status): (o: Order)
    ensures o.productsCost == cost && o.totalCost == cost && o.status == Some(status)
    ensures o.isActive && o.deliveryCost.None? && o.paymentComment.None?
  {
    Order(user, None, None, None, cost, None, cost, None, None, true, None, None, None, Some(status))
  }

  /** An `OrderAndProduct` row without its key. */
  datatype Line = Line(totalQuantity: nat, totalPrice: Cents)

  /** Lines are keyed by (order, product): `unique_together` allows one line
      per pair, which a map states by construction. */
  type Lines = map<(OrderId, ProductId), Line>

  datatype Shop = Shop(
    products: Catalog,
    orders: map<OrderId, Order>,
    lines: Lines,
    nextOrderId: OrderId)

  /** Referential integrity: every line belongs to an existing order, and
      every order id was issued before the next one. */
  predicate Valid(s: Shop)
  {
    && (forall k | k in s.lines :: k.0 in s.orders)
    && (forall o | o in s.orders :: o < s.nextOrderId)
  }

  // ------------------------------------------------------------- line views

  /** The lines of order `o`, by product. */
  function OrderLines(lines: Lines, o: OrderId): (m: map<ProductId, Line>)
    ensures forall p :: p in m <==> (o, p) in lines
    ensures forall p | p in m :: m[p] == lines[(o, p)]
  {
    map k | k in lines && k.0 == o :: k.1 := lines[k]
  }

  /** The lines holding product `p`, by order. */
  function ProductLines(lines: Lines, p: ProductId): (m: map<OrderId, Line>)
    ensures forall o :: o in m <==> (o, p) in lines
    ensures forall o | o in m :: m[o] == lines[(o, p)]
  {
    map k | k in lines && k.1 == p :: k.0 := lines[k]
  }

  lemma OrderLinesSet(lines: Lines, o: OrderId, p: ProductId, l: Line, o': OrderId)
    ensures OrderLines(lines[(o, p) := l], o') ==
              if o' == o then OrderLines(lines, o)[p := l] else OrderLines(lines, o')
  {
    if o' == o {
      assert OrderLines(lines[(o, p) := l], o').Keys == OrderLines(lines, o)[p := l].Keys;
    } else {
      assert OrderLines(lines[(o, p) := l], o').Keys == OrderLines(lines, o').Keys;
    }
  }

  lemma OrderLinesRemove(lines: Lines, o: OrderId, p: ProductId, o': OrderId)
    ensures OrderLines(lines - {(o, p)}, o') ==
              if o' == o then OrderLines(lines, o) - {p} else OrderLines(lines, o')
  {
    if o' == o {
      assert OrderLines(lines - {(o, p)}, o').Keys == (OrderLines(lines, o) - {p}).Keys;
    } else {
      assert OrderLines(lines - {(o, p)}, o').Keys == OrderLines(lines, o').Keys;
    }
  }

  lemma ProductLinesSet(lines: Lines, o: OrderId, p: ProductId, l: Line, p': ProductId)
    ensures ProductLines(lines[(o, p) := l], p') ==
              if p' == p then ProductLines(lines, p)[o := l] else ProductLines(lines, p')
  {
    if p' == p {
      assert ProductLines(lines[(o, p) := l], p').Keys == ProductLines(lines, p)[o := l].Keys;
    } else {
      assert ProductLines(lines[(o, p) := l], p').Keys == ProductLines(lines, p').Keys;
    }
  }

  lemma ProductLinesRemove(lines: Lines, o: OrderId, p: ProductId, p': ProductId)
    ensures ProductLines(lines - {(o, p)}, p') ==
              if p' == p then ProductLines(lines, p) - {o} else ProductLines(lines, p')
  {
    if p' == p {
      assert ProductLines(lines - {(o, p)}, p').Keys == (ProductLines(lines, p) - {o}).Keys;
    } else {
      assert ProductLines(lines - {(o, p)}, p').Keys == ProductLines(lines, p').Keys;
    }
  }

  // ------------------------------------------------------------- aggregates

  function Prices(m: map<nat, Line>): (r: map<nat, int>)
    ensures r.Keys == m.Keys
    ensures forall k | k in r :: r[k] == m[k].totalPrice
  {
    map k | k in m :: m[k].totalPrice
  }

  function Quantities(m: map<nat, Line>): (r: map<nat, int>)
    ensures r.Keys == m.Keys
    ensures forall k | k in r :: r[k] == m[k].totalQuantity
  {
    map k | k in m :: m[k].totalQuantity as int
  }

  lemma PricesUpdate(m: map<nat, Line>, k: nat, l: Line)
    ensures Prices(m[k := l]) == Prices(m)[k := l.totalPrice]
    ensures Prices(m - {k}) == Prices(m) - {k}
  {
  }

  lemma QuantitiesUpdate(m: map<nat, Line>, k: nat, l: Line)
    ensures Quantities(m[k := l]) == Quantities(m)[k := l.totalQuantity as int]
    ensures Quantities(m - {k}) == Quantities(m) - {k}
  {
  }

  /** `count_order_price`: the sum of the order's line prices; a `SUM` over no
      rows is `NULL`, which `or 0` turns into 0. */
  function OrderPrice(lines: Lines, o: OrderId): Cents
  {
    Total(Prices(OrderLines(lines, o)))
  }

  /** The quantity of product `p` held by order lines. */
  function Reserved(lines: Lines, p: ProductId): int
  {
    Total(Quantities(ProductLines(lines, p)))
  }

  /** `Sum("total_quantity")` over the product's lines: `None` when it has none. */
  function SoldAmount(lines: Lines, p: ProductId): (r: Option<int>)
    ensures r.None? <==> forall o :: (o, p) !in lines
    ensures r.Some? ==> r.value == Reserved(lines, p)
  {
    if ProductLines(lines, p) == map[] then None else Some(Reserved(lines, p))
  }

  lemma OrderPriceEmpty(lines: Lines, o: OrderId)
    requires forall p :: (o, p) !in lines
    ensures OrderPrice(lines, o) == 0
  {
    assert OrderLines(lines, o) == map[];
    assert Prices(OrderLines(lines, o)) == map[];
  }

  /** Writing line (o, p) moves the order's price by the change of that line. */
  lemma OrderPriceSet(lines: Lines, o: OrderId, p: ProductId, l: Line, o': OrderId)
    ensures OrderPrice(lines[(o, p) := l], o') ==
              if o' != o then OrderPrice(lines, o')
              else if (o, p) in lines then OrderPrice(lines, o) - lines[(o, p)].totalPrice + l.totalPrice
              else OrderPrice(lines, o) + l.totalPrice
  {
    OrderLinesSet(lines, o, p, l, o');
    if o' == o {
      TotalPricesSet(OrderLines(lines, o), p, l);
    }
  }

  /** Setting one line of a map moves the total price by the change of that line. */
  lemma TotalPricesSet(m: map<nat, Line>, k: nat, l: Line)
    ensures Total(Prices(m[k := l])) == Total(Prices(m)) - (if k in m then m[k].totalPrice else 0) + l.totalPrice
  {
    PricesUpdate(m, k, l);
    TotalUpdate(Prices(m), k, l.totalPrice);
    if k !in m {
      assert Prices(m) - {k} == Prices(m);
    }
  }

  /** Deleting line (o, p) takes its price off the order's price. */
  lemma OrderPriceRemove(lines: Lines, o: OrderId, p: ProductId, o': OrderId)
    requires (o, p) in lines
    ensures OrderPrice(lines - {(o, p)}, o') ==
              if o' != o then OrderPrice(lines, o') else OrderPrice(lines, o) - lines[(o, p)].totalPrice
  {
    OrderLinesRemove(lines, o, p, o');
    if o' == o {
      var m := OrderLines(lines, o);
      PricesUpdate(m, p, Line(0, 0));
      TotalRemove(Prices(m), p);
    }
  }

  /** Writing line (o, p) moves the product's reserved quantity by the change of that line. */
  lemma ReservedSet(lines: Lines, o: OrderId, p: ProductId, l: Line, p': ProductId)
    ensures Reserved(lines[(o, p) := l], p') ==
              if p' != p then Reserved(lines, p')
              else if (o, p) in lines then Reserved(lines, p) - lines[(o, p)].totalQuantity + l.totalQuantity
              else Reserved(lines, p) + l.totalQuantity
  {
    ProductLinesSet(lines, o, p, l, p');
    if p' == p {
      TotalQuantitiesSet(ProductLines(lines, p), o, l);
    }
  }

  /** Setting one line of a map moves the total quantity by the change of that line. */
  lemma TotalQuantitiesSet(m: map<nat, Line>, k: nat, l: Line)
    ensures Total(Quantities(m[k := l])) == Total(Quantities(m)) - (if k in m then m[k].totalQuantity else 0) + l.totalQuantity
  {
    QuantitiesUpdate(m, k, l);
    TotalUpdate(Quantities(m), k, l.totalQuantity);
    if k !in m {
      assert Quantities(m) - {k} == Quantities(m);
    }
  }

  /** Deleting line (o, p) gives its quantity back to the product's account. */
  lemma ReservedRemove(lines: Lines, o: OrderId, p: ProductId, p': ProductId)
    requires (o, p) in lines
    ensures Reserved(lines - {(o, p)}, p') ==
              if p' != p then Reserved(lines, p') else Reserved(lines, p) - lines[(o, p)].totalQuantity
  {
    ProductLinesRemove(lines, o, p, p');
    if p' == p {
      var m := ProductLines(lines, p);
      QuantitiesUpdate(m, o, Line(0, 0));
      TotalRemove(Quantities(m), o);
    }
  }

  /** Line quantities are never negative, so neither is what they hold. */
  lemma ReservedNonNegative(lines: Lines, p: ProductId)
    ensures Reserved(lines, p) >= 0
  {
    TotalNonNegative(Quantities(ProductLines(lines, p)));
  }
}

=== FILE: money.dfy ===
/** Money. The source stores prices as `Decimal` with two decimal places; the
    model counts cents exactly, so every amount is an integer. */
module Money {

  /** An amount of money in cents. The source's columns are
      `Decimal(max_digits=10, decimal_places=2)` and hold at most
      99,999,999.99; an amount is unbounded here, so that width is not
      modelled. */
  type Cents = int

  /** The rounding rule of Python's `round(d, 2)` on a `Decimal`, stated
      independently of how it is computed: `r` is a nearest integer to `n / d`,
      and on a tie it is the even one. */
  ghost predicate IsHalfEvenRounding(n: int, d: int, r: int)
    requires d > 0
  {
    && -d <= 2 * (n - r * d) <= d
    && (2 * (n - r * d) == d || 2 * (n - r * d) == -d ==> r % 2 == 0)
  }

  lemma EuclideanDivision(n: int, d: int)
    requires d > 0
    ensures n == (n / d) * d + n % d
    ensures 0 <= n % d < d
  {
  }

  /** `n / d` rounded half-to-even; with `n` in cents times a quantity and `d` a
      quantity this is `round(total / qty * new_qty, 2)`. */
  function RoundHalfEven(n: int, d: int): (r: int)
    requires d > 0
    ensures IsHalfEvenRounding(n, d, r)
  {
    EuclideanDivision(n, d);
    var q := n / d;
    var rem := n % d;
    if 2 * rem < d then q
    else if 2 * rem > d then q + 1
    else if q % 2 == 0 then q
    else q + 1
  }

  /** The rounding rule has exactly one solution, so `RoundHalfEven` is the
      rounding Python performs and not merely one close to it. */
  lemma HalfEvenRoundingUnique(n: int, d: int, r1: int, r2: int)
    requires d > 0
    requires IsHalfEvenRounding(n, d, r1)
    requires IsHalfEvenRounding(n, d, r2)
    ensures r1 == r2
  {
    if r1 < r2 {
      MulStep(r1, r2, d);
      if r1 + 1 < r2 {
        MulStep(r1 + 1, r2, d);
        assert false;
      }
      assert false;
    } else if r2 < r1 {
      MulStep(r2, r1, d);
      if r2 + 1 < r1 {
        MulStep(r2 + 1, r1, d);
        assert false;
      }
      assert false;
    }
  }

  /** A larger factor gives a product at least one `d` larger. */
  lemma MulStep(a: int, b: int, d: int)
    requires a < b
    requires d >= 0
    ensures a * d + d <= b * d
  {
    var k := b - a - 1;
    assert k * d >= 0;
    assert b * d == (a + 1 + k) * d;
    assert (a + 1 + k) * d == a * d + d + k * d;
  }

  /** Exact quotients are not rounded. */
  lemma RoundExact(q: int, d: int)
    requires d > 0
    ensures RoundHalfEven(q * d, d) == q
  {
    assert IsHalfEvenRounding(q * d, d, q);
    HalfEvenRoundingUnique(q * d, d, q, RoundHalfEven(q * d, d));
  }

  /** Rounding never goes past an integer bound on the quotient. */
  lemma RoundAtMost(n: int, d: int, m: int)
    requires d > 0
    requires n <= m * d
    ensures RoundHalfEven(n, d) <= m
  {
    var r := RoundHalfEven(n, d);
    if r > m {
      MulStep(m, r, d);
      assert false;
    }
  }

  lemma RoundAtLeast(n: int, d: int, m: int)
    requires d > 0
    requires m * d <= n
    ensures m <= RoundHalfEven(n, d)
  {
    var r := RoundHalfEven(n, d);
    if r < m {
      MulStep(r, m, d);
      assert false;
    }
  }
}

=== FILE: order_forms.dfy ===
/** The admin forms of orders and delivery types (shop/orders/forms/order.py,
    shop/orders/forms/delivery_type.py). Each `clean_<field>` method is
    modelled on its own, on any value; the receiver and address fields are
    also modelled behind the required, stripping form field the order model
    gives them, which is what the admin form runs. */
module OrderForms {
  import opened Wrappers
  import opened Forms
  import opened Money
  import opened Text
  import opened FieldValidators
  import opened Ledger
  import opened OrderSerializers
  import Pricing

  // ------------------------------------------------------------------ OrderForm

  /** `clean_receiver_fullname` called on its own: `None` stays `None`;
      otherwise the name is stripped and must be a valid full name. */
  function CleanReceiverFullname(name: Option<string>): (r: Cleaned<Option<string>>)
    ensures r != Crash
    ensures name.None? ==> r == Value(None)
    ensures name.Some? ==> (r.Value? <==> ValidateFullName(Strip(name.value)).None?)
    ensures r.Value? && name.Some? ==> r.value == Some(Strip(name.value))
  {
    match name
    case None => Value(None)
    case Some(n) =>
      var error := ValidateFullName(Strip(n));
      if error.None? then Value(Some(Strip(n))) else Invalid(error.value)
  }

  /** `clean_receiver_phone` called on its own: as the full name, with the
      phone rule. */
  function CleanReceiverPhone(phone: Option<string>): (r: Cleaned<Option<string>>)
    ensures r != Crash
    ensures phone.None? ==> r == Value(None)
    ensures phone.Some? ==> (r.Value? <==> ValidatePhoneNumber(Strip(phone.value)).None?)
    ensures r.Value? && phone.Some? ==> r.value == Some(Strip(phone.value))
  {
    match phone
    case None => Value(None)
    case Some(p) =>
      var error := ValidatePhoneNumber(Strip(p));
      if error.None? then Value(Some(Strip(p))) else Invalid(error.value)
  }

  /** `clean_city`: the city is checked and kept as given, without stripping. */
  function CleanCity(city: Option<string>): (r: Cleaned<Option<string>>)
    ensures r != Crash
    ensures city.None? ==> r == Value(None)
    ensures city.Some? ==> (r.Value? <==> ValidateCityName(city.value).None?)
    ensures r.Value? ==> r.value == city
  {
    match city
    case None => Value(None)
    case Some(c) =>
      var error := ValidateCityName(c);
      if error.None? then Value(city) else Invalid(error.value)
  }

  /** `clean_address` called on its own: the address is stripped and then
      checked. */
  function CleanAddress(address: Option<string>): (r: Cleaned<Option<string>>)
    ensures r != Crash
    ensures address.None? ==> r == Value(None)
    ensures address.Some? ==> (r.Value? <==> ValidateAddress(Strip(address.value)).None?)
    ensures r.Value? && address.Some? ==> r.value == Some(Strip(address.value))
  {
    match address
    case None => Value(None)
    case Some(a) =>
      var error := ValidateAddress(Strip(a));
      if error.None? then Value(Some(Strip(a))) else Invalid(error.value)
  }

  /** Called on its own, `clean_city` keeps surrounding spaces and refuses a
      leading tab. In the form it never sees such text: `CityField` strips it
      first. */
  lemma CityNotStripped()
    ensures CleanCity(Some(" Moscow ")) == Value(Some(" Moscow "))
    ensures CleanCity(Some("\tMoscow")).Invalid?
  {
    var padded := " Moscow ";
    assert AllIn(padded, IsNameChar);
    assert IsLetter(padded[1]);
    CityAccepted(padded);
    var tabbed := "\tMoscow";
    assert !IsNameChar(tabbed[0]);
  }

  const RequiredMessage := "This field is required."

  /** The form field the `ModelForm` builds for a `CharField(null=True,
      blank=False)` column (shop/orders/models/order.py:147-163): a required
      `forms.CharField` that strips the submitted text and refuses it, before
      any `clean_<field>` runs, when nothing is left. */
  function RequiredText(submitted: Option<string>): (r: Result<string, string>)
    ensures r.Ok? <==> submitted.Some? && Strip(submitted.value) != ""
    ensures r.Ok? ==> r.value == Strip(submitted.value) && r.value != ""
    ensures r.Err? ==> r.error == RequiredMessage
  {
    var text := if submitted.Some? then Strip(submitted.value) else "";
    if text == "" then Err(RequiredMessage) else Ok(text)
  }

  /** The city field, followed by `clean_city` on the stripped text: text
      that strips to nothing is refused as required, otherwise the stripped
      text is validated and stored. */
  function CityField(submitted: Option<string>): (r: Cleaned<Option<string>>)
    ensures r != Crash
    ensures r.Value? <==> && submitted.Some? && Strip(submitted.value) != ""
                          && ValidateCityName(Strip(submitted.value)).None?
    ensures r.Value? ==> r.value == Some(Strip(submitted.value))
    ensures submitted.None? || Strip(submitted.value) == "" ==> r == Invalid(RequiredMessage)
  {
    match RequiredText(submitted)
    case Err(message) => Invalid(message)
    case Ok(city) => CleanCity(Some(city))
  }

  /** The receiver name field, followed by `clean_receiver_fullname`. */
  function ReceiverFullnameField(submitted: Option<string>): (r: Cleaned<Option<string>>)
    ensures r != Crash
    ensures r.Value? <==> && submitted.Some? && Strip(submitted.value) != ""
                          && ValidateFullName(Strip(submitted.value)).None?
    ensures r.Value? ==> r.value == Some(Strip(submitted.value))
    ensures submitted.None? || Strip(submitted.value) == "" ==> r == Invalid(RequiredMessage)
  {
    match RequiredText(submitted)
    case Err(message) => Invalid(message)
    case Ok(name) =>
      StripIdempotent(submitted.value);
      CleanReceiverFullname(Some(name))
  }

  /** The receiver phone field, followed by `clean_receiver_phone`. */
  function ReceiverPhoneField(submitted: Option<string>): (r: Cleaned<Option<string>>)
    ensures r != Crash
    ensures r.Value? <==> && submitted.Some? && Strip(submitted.value) != ""
                          && ValidatePhoneNumber(Strip(submitted.value)).None?
    ensures r.Value? ==> r.value == Some(Strip(submitted.value))
    ensures submitted.None? || Strip(submitted.value) == "" ==> r == Invalid(RequiredMessage)
  {
    match RequiredText(submitted)
    case Err(message) => Invalid(message)
    case Ok(phone) =>
      StripIdempotent(submitted.value);
      CleanReceiverPhone(Some(phone))
  }

  /** The address field, followed by `clean_address`. */
  function AddressField(submitted: Option<string>): (r: Cleaned<Option<string>>)
    ensures r != Crash
    ensures r.Value? <==> && submitted.Some? && Strip(submitted.value) != ""
                          && ValidateAddress(Strip(submitted.value)).None?
    ensures r.Value? ==> r.value == Some(Strip(submitted.value))
    ensures submitted.None? || Strip(submitted.value) == "" ==> r == Invalid(RequiredMessage)
  {
    match RequiredText(submitted)
    case Err(message) => Invalid(message)
    case Ok(address) =>
      StripIdempotent(submitted.value);
      CleanAddress(Some(address))
  }

  /** In the form, `None` never reaches a `clean_<field>` method and blank
      text is refused as required before it: a blank receiver name gets the
      required-field message, where `clean_receiver_fullname` called on its
      own would answer with the full-name message. */
  lemma BlankRefusedAsRequired(blank: string)
    requires Strip(blank) == ""
    ensures ReceiverFullnameField(Some(blank)) == Invalid(RequiredMessage)
    ensures ReceiverPhoneField(Some(blank)) == Invalid(RequiredMessage)
    ensures AddressField(Some(blank)) == Invalid(RequiredMessage)
    ensures CityField(Some(blank)) == Invalid(RequiredMessage)
    ensures CleanReceiverFullname(Some(blank)) == Invalid(FullNameError)
  {
    assert ValidateFullName("").Some? by {
      assert !FullMatch("", IsNameChar, 2);
    }
  }

  /** A city the form accepts is stored without surrounding whitespace, and
      submitting the stored city again gives the same result. */
  lemma CityFieldStoresStripped(submitted: Option<string>)
    requires CityField(submitted).Value?
    ensures var c := CityField(submitted).value.value;
            && Strip(c) == c
            && CityField(Some(c)) == CityField(submitted)
  {
    StripIdempotent(submitted.value);
  }

  /** The spaces or tab around a city are trimmed by the field, so a padded
      city and a tab-led one are both stored as the bare name. */
  lemma CityFieldTrimsExample()
    ensures CityField(Some(" Moscow ")) == Value(Some("Moscow"))
    ensures CityField(Some("\tMoscow")) == Value(Some("Moscow"))
  {
    MoscowIsCity();
    var name := "Moscow";
    assert !IsWhitespace(name[0]) && !IsWhitespace(name[|name| - 1]);
    StripPadded(name);
    assert " " + name + " " == " Moscow ";
    TabStripped();
  }

  lemma MoscowIsCity()
    ensures ValidateCityName("Moscow").None?
  {
    var name := "Moscow";
    assert AllIn(name, IsNameChar);
    assert IsLetter(name[0]);
    CityAccepted(name);
  }

  lemma TabStripped()
    ensures Strip("\tMoscow") == "Moscow"
  {
    var tabbed := "\tMoscow";
    assert StripStart(tabbed, 1) == 1;
    assert StripStart(tabbed, 0) == 1;
    assert StripEnd(tabbed, 1, |tabbed|) == |tabbed|;
    assert tabbed[1..] == "Moscow";
  }

  /** `clean_payment_comment`: a rejected payment needs a non-empty comment;
      otherwise the comment is kept as given. */
  function CleanPaymentComment(status: Option<Status>, comment: Option<string>): (r: Cleaned<Option<string>>)
    ensures r != Crash
    ensures r.Invalid? <==> status.Some? && StatusName(status.value) == "payment rejected" && !Truthy(comment)
    ensures r.Value? ==> r.value == comment
  {
    if status.Some? && StatusName(status.value) == "payment rejected" && !Truthy(comment) then
      Invalid("Describe reason of rejected payment!")
    else Value(comment)
  }

  /** Of the statuses, only "payment rejected" demands a comment. */
  lemma CommentRequiredOnlyOnRejection(status: Status, comment: Option<string>)
    requires !Truthy(comment)
    ensures CleanPaymentComment(Some(status), comment).Invalid? <==> status == PaymentRejected
  {
    if StatusName(status) == "payment rejected" {
      StatusNameInjective(status, PaymentRejected);
    }
  }

  // ------------------------------------------------------------ DeliveryTypeForm

  /** `clean_price`: a field that already has an error, or a negative price,
      is refused; an empty price is compared with 0 and fails. */
  function CleanDeliveryPrice(price: Option<Cents>, fieldError: bool): (r: Cleaned<Option<Cents>>)
    ensures r.Value? <==> !fieldError && price.Some? && price.value >= 0
    ensures r.Value? ==> r.value == price
    ensures r == Crash <==> !fieldError && price.None?
  {
    if fieldError then Invalid("Delivery price should be greater than or equal to zero.")
    else if price.None? then Crash
    else if price.value >= 0 then Value(price)
    else Invalid("Delivery price should be greater than or equal to zero.")
  }

  /** `clean_free_delivery_order_price`: only a set, non-zero threshold of a
      field without errors is checked, and only its sign; the value is
      returned unchanged. */
  function CleanFreeDeliveryOrderPrice(orderPrice: Option<Cents>, fieldError: bool): (r: Cleaned<Option<Cents>>)
    ensures r != Crash
    ensures r.Invalid? <==> !fieldError && orderPrice.Some? && orderPrice.value < 0
    ensures r.Value? ==> r.value == orderPrice
  {
    if !fieldError && orderPrice.Some? && orderPrice.value != 0 && orderPrice.value < 0 then
      Invalid("Order products price for free delivery should be greater than or equal to zero.")
    else Value(orderPrice)
  }

  /** A delivery type whose two prices the form accepted has a non-negative
      price, and a threshold that is missing or non-negative; with a threshold
      its delivery cost never exceeds its price. */
  lemma AcceptedDeliveryTypeCosts(dt: DeliveryType, orderPrice: Cents)
    requires CleanDeliveryPrice(Some(dt.price), false).Value?
    requires CleanFreeDeliveryOrderPrice(dt.freeDeliveryOrderPrice, false).Value?
    requires dt.freeDeliveryOrderPrice.Some?
    ensures 0 <= dt.freeDeliveryOrderPrice.value
    ensures 0 <= Pricing.DeliveryCost(orderPrice, dt).value <= dt.price
  {
  }
}

=== FILE: order_model.dfy ===
/** The bookkeeping methods of the order models (shop/orders/models/order.py):
    creating, updating and deleting one order line together with the product
    stock and the two cost columns of its order, adding many lines at once,
    and resetting an order's delivery cost. Each `transaction.atomic` block is
    one step: `Err` means the block raised and nothing was written. */
module OrderModel {
  import opened Wrappers
  import opened Money
  import opened Text
  import opened Products
  import opened Ledger

  datatype LineError =
    | ProductDoesNotExist          // `Product.DoesNotExist` from the locked `get`
    | NotEnoughProducts(message: string)   // `OrderException`
    | IntegrityError               // the line row cannot be saved

  function ShortageMessage(o: OrderId, p: Product): string
  {
    "Correct your order # " + NatToString(o) + "! Only " + NatToString(p.count)
    + " '" + p.title + "' are available to purchase!"
  }

  /** `Product.objects.select_for_update().get(id=p, is_active=True, count__gte=1)`. */
  function LockProduct(s: Shop, p: ProductId): (r: Result<Product, LineError>)
    ensures r.Ok? <==> p in s.products && IsAvailable(s.products[p])
    ensures r.Ok? ==> r.value == s.products[p]
    ensures r.Err? ==> r.error == ProductDoesNotExist
  {
    if p in s.products && s.products[p].isActive && s.products[p].count >= 1 then Ok(s.products[p])
    else Err(ProductDoesNotExist)
  }

  /** `Order.objects.filter(id=o).update(products_cost=F(…) + d, total_cost=F(…) + d)`:
      a filtered update of a missing row changes nothing. */
  function ShiftCosts(orders: map<OrderId, Order>, o: OrderId, d: Cents): (r: map<OrderId, Order>)
    ensures r.Keys == orders.Keys
    ensures forall o' | o' in r && o' != o :: r[o'] == orders[o']
    ensures o in orders ==> r[o] == orders[o].(productsCost := orders[o].productsCost + d,
                                                totalCost := orders[o].totalCost + d)
  {
    if o in orders then
      orders[o := orders[o].(productsCost := orders[o].productsCost + d, totalCost := orders[o].totalCost + d)]
    else orders
  }

  /** `OrderAndProduct.custom_create` for a line of `qty` units costing `price`. */
  function CustomCreate(s: Shop, o: OrderId, p: ProductId, qty: nat, price: Cents): (r: Result<Shop, LineError>)
    ensures r == Err(ProductDoesNotExist) <==> !(p in s.products && IsAvailable(s.products[p]))
    ensures r.Err? && r.error.NotEnoughProducts? <==>
              p in s.products && IsAvailable(s.products[p]) && s.products[p].count < qty
    ensures r.Ok? <==> && p in s.products && IsAvailable(s.products[p]) && qty <= s.products[p].count
                       && o in s.orders && (o, p) !in s.lines
    ensures r.Ok? ==> && r.value.products == s.products[p := s.products[p].(count := s.products[p].count - qty)]
                      && r.value.orders == ShiftCosts(s.orders, o, price)
                      && r.value.lines == s.lines[(o, p) := Line(qty, price)]
                      && r.value.nextOrderId == s.nextOrderId
  {
    var product :- LockProduct(s, p);
    if product.count < qty then Err(NotEnoughProducts(ShortageMessage(o, product)))
    else if o !in s.orders || (o, p) in s.lines then Err(IntegrityError)
    else
      Ok(s.(products := s.products[p := product.(count := product.count - qty)],
            orders := ShiftCosts(s.orders, o, price),
            lines := s.lines[(o, p) := Line(qty, price)]))
  }

  /** `OrderAndProduct.custom_update(previous_total_price, previous_total_qnty)`:
      the line now holds `qty` units costing `price`. Stock moves by the change
      of quantity (it grows back when the quantity shrinks) and both costs by
      the change of price. The product must still be available even when the
      quantity shrinks, and taking the whole remaining stock is allowed. */
  function CustomUpdate(s: Shop, o: OrderId, p: ProductId, qty: nat, price: Cents,
                        previousPrice: Cents, previousQty: nat): (r: Result<Shop, LineError>)
    ensures r == Err(ProductDoesNotExist) <==> !(p in s.products && IsAvailable(s.products[p]))
    ensures r.Err? && r.error.NotEnoughProducts? <==>
              p in s.products && IsAvailable(s.products[p]) && s.products[p].count < qty - previousQty
    ensures r.Ok? <==> && p in s.products && IsAvailable(s.products[p])
                       && qty - previousQty <= s.products[p].count && o in s.orders
    ensures r.Ok? ==> && r.value.products == s.products[p := s.products[p].(count := s.products[p].count - (qty - previousQty))]
                      && r.value.orders == ShiftCosts(s.orders, o, price - previousPrice)
                      && r.value.lines == s.lines[(o, p) := Line(qty, price)]
                      && r.value.nextOrderId == s.nextOrderId
  {
    var product :- LockProduct(s, p);
    var extra := qty - previousQty;
    if product.count < extra then Err(NotEnoughProducts(ShortageMessage(o, product)))
    else if o !in s.orders then Err(IntegrityError)
    else
      Ok(s.(products := s.products[p := product.(count := product.count - extra)],
            orders := ShiftCosts(s.orders, o, price - previousPrice),
            lines := s.lines[(o, p) := Line(qty, price)]))
  }

  /** `OrderAndProduct.custom_delete` for the line instance holding `qty` units
      costing `price`: no availability check and no failure; filtered updates
      of missing rows change nothing. */
  function CustomDelete(s: Shop, o: OrderId, p: ProductId, qty: nat, price: Cents): (r: Shop)
    ensures r.products.Keys == s.products.Keys && r.orders == ShiftCosts(s.orders, o, -price)
    ensures p in s.products ==> r.products[p].count == s.products[p].count + qty
    ensures forall p' | p' in s.products && p' != p :: r.products[p'] == s.products[p']
    ensures r.lines == s.lines - {(o, p)} && r.nextOrderId == s.nextOrderId
  {
    var products := if p in s.products then s.products[p := s.products[p].(count := s.products[p].count + qty)]
                    else s.products;
    s.(products := products, orders := ShiftCosts(s.orders, o, -price), lines := s.lines - {(o, p)})
  }

  /** `OrderAndProduct.bulk_add`: one `bulk_create` of the lines of order `o`;
      it fails as a whole if any of them exists already. */
  function BulkAdd(lines: Lines, o: OrderId, added: map<ProductId, Line>): (r: Result<Lines, LineError>)
    ensures r.Ok? <==> forall p | p in added :: (o, p) !in lines
    ensures r.Ok? ==> forall o', p :: (o', p) in r.value <==> (o', p) in lines || (o' == o && p in added)
    ensures r.Ok? ==> forall o', p | (o', p) in r.value ::
                        r.value[(o', p)] == if o' == o && p in added then added[p] else lines[(o', p)]
  {
    if exists p | p in added :: (o, p) in lines then Err(IntegrityError)
    else Ok(lines + map p | p in added :: (o, p) := added[p])
  }

  /** Adding no lines changes nothing. */
  lemma BulkAddNothing(lines: Lines, o: OrderId)
    ensures BulkAdd(lines, o, map[]) == Ok(lines)
  {
    var r := BulkAdd(lines, o, map[]).value;
    forall k | k in r
      ensures k in lines && r[k] == lines[k]
    {
      var (o', p) := k;
    }
    forall k | k in lines
      ensures k in r
    {
      var (o', p) := k;
    }
    assert r == lines;
  }

  /** `Order.reset_delivery_related_costs`: the total becomes the products
      cost plus the new delivery cost; the products cost stays. */
  function ResetDeliveryRelatedCosts(orders: map<OrderId, Order>, o: OrderId, deliveryCost: Cents): (r: map<OrderId, Order>)
    ensures r.Keys == orders.Keys
    ensures forall o' | o' in r && o' != o :: r[o'] == orders[o']
    ensures o in r ==> && r[o].productsCost == orders[o].productsCost
                       && r[o].deliveryCost == Some(deliveryCost)
                       && r[o].totalCost - r[o].productsCost == deliveryCost
                       && r[o] == orders[o].(deliveryCost := r[o].deliveryCost, totalCost := r[o].totalCost)
  {
    if o in orders then
      orders[o := orders[o].(totalCost := orders[o].productsCost + deliveryCost, deliveryCost := Some(deliveryCost))]
    else orders
  }

  // -------------------------------------------------------------- balances

  /** How far an order's products cost is from the price of its lines. */
  function Drift(s: Shop, o: OrderId): Cents
    requires o in s.orders
  {
    s.orders[o].productsCost - OrderPrice(s.lines, o)
  }

  /** The part of an order's total that is not products (its delivery). */
  function Surcharge(s: Shop, o: OrderId): Cents
    requires o in s.orders
  {
    s.orders[o].totalCost - s.orders[o].productsCost
  }

  /** A product's stock together with what order lines hold of it. */
  function Held(s: Shop, p: ProductId): int
    requires p in s.products
  {
    s.products[p].count + Reserved(s.lines, p)
  }

  /** Every balance of `s` is the same in `s'`. */
  predicate SameBalances(s: Shop, s': Shop)
  {
    && s'.orders.Keys == s.orders.Keys
    && s'.products.Keys == s.products.Keys
    && (forall o | o in s.orders :: Drift(s', o) == Drift(s, o) && Surcharge(s', o) == Surcharge(s, o))
    && (forall p | p in s.products :: Held(s', p) == Held(s, p))
  }

  /** Writing line (o, p) while moving the stock and both costs of its order
      by the change of that line keeps every balance. */
  lemma WriteLineBalanced(s: Shop, s': Shop, o: OrderId, p: ProductId, l: Line)
    requires p in s.products
    requires s'.lines == s.lines[(o, p) := l]
    requires var before := if (o, p) in s.lines then s.lines[(o, p)] else Line(0, 0);
             && s'.orders == ShiftCosts(s.orders, o, l.totalPrice - before.totalPrice)
             && s.products[p].count - (l.totalQuantity - before.totalQuantity) >= 0
             && s'.products == s.products[p := s.products[p].(count := s.products[p].count - (l.totalQuantity - before.totalQuantity))]
    ensures SameBalances(s, s')
  {
    var before := if (o, p) in s.lines then s.lines[(o, p)] else Line(0, 0);
    var d, q := l.totalPrice - before.totalPrice, l.totalQuantity - before.totalQuantity;
    forall o' | o' in s.orders
      ensures Drift(s', o') == Drift(s, o') && Surcharge(s', o') == Surcharge(s, o')
    {
      WriteLineKeepsDrift(s, s', o, p, l, d, o');
      ShiftKeepsSurcharge(s, s', o, d, o');
    }
    forall p' | p' in s.products
      ensures Held(s', p') == Held(s, p')
    {
      WriteLineKeepsHeld(s, s', o, p, l, q, p');
    }
  }

  /** The order side of `WriteLineBalanced`: the products cost moves with
      the line's price, so the order's drift stays. */
  lemma WriteLineKeepsDrift(s: Shop, s': Shop, o: OrderId, p: ProductId, l: Line, d: Cents, o': OrderId)
    requires o' in s.orders
    requires s'.lines == s.lines[(o, p) := l]
    requires d == l.totalPrice - (if (o, p) in s.lines then s.lines[(o, p)].totalPrice else 0)
    requires s'.orders == ShiftCosts(s.orders, o, d)
    ensures o' in s'.orders && Drift(s', o') == Drift(s, o')
  {
    PriceMovesBy(s.lines, o, p, l, d, o');
    CostsMoveBy(s.orders, o, d, o');
  }

  /** Both costs move together, so every order's surcharge stays. */
  lemma ShiftKeepsSurcharge(s: Shop, s': Shop, o: OrderId, d: Cents, o': OrderId)
    requires o' in s.orders
    requires s'.orders == ShiftCosts(s.orders, o, d)
    ensures o' in s'.orders && Surcharge(s', o') == Surcharge(s, o')
  {
    CostsMoveBy(s.orders, o, d, o');
  }

  /** Shifting the costs of order o by `d` moves both costs of o by `d` and
      those of no other order. */
  lemma CostsMoveBy(orders: map<OrderId, Order>, o: OrderId, d: Cents, o': OrderId)
    requires o' in orders
    ensures var r := ShiftCosts(orders, o, d);
            && o' in r
            && r[o'].productsCost == orders[o'].productsCost + (if o' == o then d else 0)
            && r[o'].totalCost == orders[o'].totalCost + (if o' == o then d else 0)
  {
  }

  /** Writing line (o, p) moves the price of order o by `d` and no other. */
  lemma PriceMovesBy(lines: Lines, o: OrderId, p: ProductId, l: Line, d: Cents, o': OrderId)
    requires d == l.totalPrice - (if (o, p) in lines then lines[(o, p)].totalPrice else 0)
    ensures OrderPrice(lines[(o, p) := l], o') == OrderPrice(lines, o') + (if o' == o then d else 0)
  {
    OrderPriceSet(lines, o, p, l, o');
  }

  /** The stock side of `WriteLineBalanced`: the stock moves against the line's quantity. */
  lemma WriteLineKeepsHeld(s: Shop, s': Shop, o: OrderId, p: ProductId, l: Line, d: int, p': ProductId)
    requires p in s.products && p' in s.products
    requires s'.lines == s.lines[(o, p) := l]
    requires d == l.totalQuantity - (if (o, p) in s.lines then s.lines[(o, p)].totalQuantity else 0)
    requires s.products[p].count - d >= 0
    requires s'.products == s.products[p := s.products[p].(count := s.products[p].count - d)]
    ensures p' in s'.products && Held(s', p') == Held(s, p')
  {
    ReservedSet(s.lines, o, p, l, p');
  }

  /** Creating a line moves stock into the line and its price into both
      costs, so no balance changes. */
  lemma CreateBalanced(s: Shop, o: OrderId, p: ProductId, qty: nat, price: Cents)
    requires CustomCreate(s, o, p, qty, price).Ok?
    ensures SameBalances(s, CustomCreate(s, o, p, qty, price).value)
  {
    WriteLineBalanced(s, CustomCreate(s, o, p, qty, price).value, o, p, Line(qty, price));
  }

  /** Updating a line whose stored values are the previous ones keeps every balance. */
  lemma UpdateBalanced(s: Shop, o: OrderId, p: ProductId, qty: nat, price: Cents, previousPrice: Cents, previousQty: nat)
    requires CustomUpdate(s, o, p, qty, price, previousPrice, previousQty).Ok?
    requires (o, p) in s.lines && s.lines[(o, p)] == Line(previousQty, previousPrice)
    ensures SameBalances(s, CustomUpdate(s, o, p, qty, price, previousPrice, previousQty).value)
  {
    WriteLineBalanced(s, CustomUpdate(s, o, p, qty, price, previousPrice, previousQty).value, o, p, Line(qty, price));
  }

  /** Deleting a line with its stored values gives its stock back and takes
      its price off both costs, so every balance is kept. */
  lemma DeleteBalanced(s: Shop, o: OrderId, p: ProductId, qty: nat, price: Cents)
    requires (o, p) in s.lines && s.lines[(o, p)] == Line(qty, price)
    requires o in s.orders
    ensures SameBalances(s, CustomDelete(s, o, p, qty, price))
  {
    var s' := CustomDelete(s, o, p, qty, price);
    forall o' | o' in s.orders
      ensures Drift(s', o') == Drift(s, o') && Surcharge(s', o') == Surcharge(s, o')
    {
      OrderPriceRemove(s.lines, o, p, o');
    }
    forall p' | p' in s.products
      ensures Held(s', p') == Held(s, p')
    {
      ReservedRemove(s.lines, o, p, p');
    }
  }

  /** Deleting a line removes exactly what creating it added. */
  lemma DeleteUndoesCreate(s: Shop, o: OrderId, p: ProductId, qty: nat, price: Cents)
    requires CustomCreate(s, o, p, qty, price).Ok?
    ensures CustomDelete(CustomCreate(s, o, p, qty, price).value, o, p, qty, price) == s
  {
    var s' := CustomCreate(s, o, p, qty, price).value;
    var s'' := CustomDelete(s', o, p, qty, price);
    assert s''.products == s.products;
    assert s''.orders == s.orders;
    assert s''.lines == s.lines;
  }

  /** Resetting the delivery cost keeps the line balance and fixes the
      surcharge to the delivery cost. */
  lemma ResetDeliveryBalanced(s: Shop, o: OrderId, deliveryCost: Cents)
    requires o in s.orders
    ensures var s' := s.(orders := ResetDeliveryRelatedCosts(s.orders, o, deliveryCost));
            && Drift(s', o) == Drift(s, o) && Surcharge(s', o) == deliveryCost
  {
  }

  /** The operations keep referential integrity. */
  lemma OperationsKeepValid(s: Shop, o: OrderId, p: ProductId, qty: nat, price: Cents, previousPrice: Cents, previousQty: nat)
    requires Valid(s)
    ensures CustomCreate(s, o, p, qty, price).Ok? ==> Valid(CustomCreate(s, o, p, qty, price).value)
    ensures CustomUpdate(s, o, p, qty, price, previousPrice, previousQty).Ok? ==>
              Valid(CustomUpdate(s, o, p, qty, price, previousPrice, previousQty).value)
    ensures Valid(CustomDelete(s, o, p, qty, price))
  {
  }
}

=== FILE: order_serializers.dfy ===
/** The order serializers (shop/orders/serializers/order.py): the item rule
    of a new order, the field rules and key renaming of an order
    confirmation, and the status and receiver fields shown for an order.
    A `None` value is a JSON `null`. */
module OrderSerializers {
  import opened Wrappers
  import opened Money
  import opened Text
  import opened FieldValidators
  import opened Products
  import opened Ledger

  // ------------------------------------------------------ OrderedProductSerializer

  /** One item of a new order's request body, as sent. */
  datatype ItemRequest = ItemRequest(id: int, price: Cents, count: int)

  /** The item after validation, in the shape the order code reads. */
  datatype OrderedItem = OrderedItem(productId: ProductId, totalPrice: Cents, totalQuantity: nat)

  /** `DecimalField(max_digits=10, decimal_places=2)`: at most eight digits
      before the decimal point. */
  const PriceLimit: int := 10_000_000_000

  /** The fields of an ordered item. */
  datatype ItemField = IdField | PriceField | CountField

  /** The fields of an item that fail validation: `id` below 1, a `price`
      that is not positive or too long, a `count` below 1. */
  function ItemErrors(item: ItemRequest): (r: set<ItemField>)
    ensures IdField in r <==> item.id < 1
    ensures PriceField in r <==> !(0 < item.price < PriceLimit)
    ensures CountField in r <==> item.count < 1
  {
    (if item.id < 1 then {IdField} else {})
    + (if !(0 < item.price < PriceLimit) then {PriceField} else {})
    + (if item.count < 1 then {CountField} else {})
  }

  /** `OrderedProductSerializer`: validation, then the representation with
      the line price `price * count`. */
  function ValidateOrderedProduct(item: ItemRequest): (r: Result<OrderedItem, set<ItemField>>)
    ensures r.Err? <==> ItemErrors(item) != {}
    ensures r.Err? ==> r.error == ItemErrors(item)
    ensures r.Ok? ==> && r.value.productId == item.id && r.value.totalQuantity == item.count
                      && r.value.totalPrice == item.price * item.count
                      && r.value.productId >= 1 && r.value.totalQuantity >= 1 && r.value.totalPrice > 0
  {
    var errors := ItemErrors(item);
    if errors != {} then Err(errors)
    else Ok(OrderedItem(item.id, item.price * item.count, item.count))
  }

  // --------------------------------------------------- OrderConfirmationSerializer

  function PaymentTypeError(name: string): string
  {
    "Payment: " + name + " is denied! \nAllowed types: …"
  }

  function DeliveryTypeError(name: string): string
  {
    "Delivery type: " + name + " is not supported! \nAllowed types: …"
  }

  /** `validate_phone`: `None` passes; otherwise stripped and checked. */
  function ValidatePhone(phone: Option<string>): (r: Result<Option<string>, string>)
    ensures phone.None? ==> r == Ok(None)
    ensures phone.Some? ==> (r.Ok? <==> ValidatePhoneNumber(Strip(phone.value)).None?)
    ensures r.Ok? && phone.Some? ==> r.value == Some(Strip(phone.value))
  {
    match phone
    case None => Ok(None)
    case Some(p) =>
      var stripped := Strip(p);
      var error := ValidatePhoneNumber(stripped);
      if error.None? then Ok(Some(stripped)) else Err(error.value)
  }

  /** `validate_fullName`: `None` passes; otherwise stripped and checked. */
  function ValidateFullNameField(fullName: Option<string>): (r: Result<Option<string>, string>)
    ensures fullName.None? ==> r == Ok(None)
    ensures fullName.Some? ==> (r.Ok? <==> ValidateFullName(Strip(fullName.value)).None?)
    ensures r.Ok? && fullName.Some? ==> r.value == Some(Strip(fullName.value))
  {
    match fullName
    case None => Ok(None)
    case Some(n) =>
      var stripped := Strip(n);
      var error := ValidateFullName(stripped);
      if error.None? then Ok(Some(stripped)) else Err(error.value)
  }

  /** Python truthiness of an optional string: `None` and `""` are false. */
  predicate Truthy(s: Option<string>)
  {
    s.Some? && s.value != ""
  }

  /** `validate_paymentType` / `validate_deliveryType`: an empty or missing
      name passes, as does an allowed one; the value is kept as given. */
  function ValidateTypeName(name: Option<string>, allowed: set<string>, message: string -> string): (r: Result<Option<string>, string>)
    ensures r.Ok? <==> !Truthy(name) || name.value in allowed
    ensures r.Ok? ==> r.value == name
  {
    if !Truthy(name) || name.value in allowed then Ok(name) else Err(message(name.value))
  }

  /** `validate_city` / `validate_address`: stripped and then checked. */
  function ValidateCityField(city: string): (r: Result<string, string>)
    ensures r.Ok? <==> ValidateCityName(Strip(city)).None?
    ensures r.Ok? ==> r.value == Strip(city)
  {
    var stripped := Strip(city);
    var error := ValidateCityName(stripped);
    if error.None? then Ok(stripped) else Err(error.value)
  }

  function ValidateAddressField(address: string): (r: Result<string, string>)
    ensures r.Ok? <==> ValidateAddress(Strip(address)).None?
    ensures r.Ok? ==> r.value == Strip(address)
  {
    var stripped := Strip(address);
    var error := ValidateAddress(stripped);
    if error.None? then Ok(stripped) else Err(error.value)
  }

  /** The fields of a confirmation body. */
  datatype ConfirmationField =
    | FullNameField | EmailField | PhoneField | PaymentTypeField | CityField | AddressField | DeliveryTypeField

  /** A confirmation request body; `None` for a missing or `null` field. */
  datatype ConfirmationRequest = ConfirmationRequest(
    fullName: Option<string>,
    email: Option<string>,
    phone: Option<string>,
    paymentType: Option<string>,
    city: Option<string>,
    address: Option<string>,
    deliveryType: Option<string>)

  /** `to_representation`: the validated data under the names the order code
      reads. Only the two optional fields can be missing, and they are `None` then. */
  datatype ConfirmationData = ConfirmationData(
    fullname: string,
    email: string,
    phone: string,
    paymentType: Option<string>,
    city: string,
    address: string,
    deliveryType: Option<string>)

  /** A `CharField` trims its input before the field's own validator sees it. */
  function Trimmed(v: Option<string>): (r: Option<string>)
    ensures r.None? <==> v.None?
    ensures r.Some? ==> r.value == Strip(v.value)
  {
    match v
    case None => None
    case Some(s) => Some(Strip(s))
  }

  /** The names of the fields that fail: a required field (all but the two
      type names) that is missing or `null`, or a value its validator refuses. */
  function ConfirmationErrors(req: ConfirmationRequest, allowedPayment: set<string>, allowedDelivery: set<string>): set<ConfirmationField>
  {
    (if req.fullName.None? || ValidateFullNameField(Trimmed(req.fullName)).Err? then {FullNameField} else {})
    + (if req.email.None? then {EmailField} else {})
    + (if req.phone.None? || ValidatePhone(Trimmed(req.phone)).Err? then {PhoneField} else {})
    + (if ValidateTypeName(Trimmed(req.paymentType), allowedPayment, PaymentTypeError).Err? then {PaymentTypeField} else {})
    + (if req.city.None? || ValidateCityField(Strip(req.city.value)).Err? then {CityField} else {})
    + (if req.address.None? || ValidateAddressField(Strip(req.address.value)).Err? then {AddressField} else {})
    + (if ValidateTypeName(Trimmed(req.deliveryType), allowedDelivery, DeliveryTypeError).Err? then {DeliveryTypeField} else {})
  }

  /** `OrderConfirmationSerializer(data=…).is_valid()` followed by `.data`:
      every field is accepted as the trimmed input. */
  function ValidateConfirmation(req: ConfirmationRequest, allowedPayment: set<string>, allowedDelivery: set<string>)
    : (r: Result<ConfirmationData, set<ConfirmationField>>)
    ensures r.Err? <==> ConfirmationErrors(req, allowedPayment, allowedDelivery) != {}
    ensures r.Err? ==> r.error == ConfirmationErrors(req, allowedPayment, allowedDelivery)
    ensures r.Ok? ==> && req.fullName.Some? && req.email.Some? && req.phone.Some? && req.city.Some? && req.address.Some?
                      && r.value.fullname == Strip(req.fullName.value)
                      && r.value.email == Strip(req.email.value)
                      && r.value.phone == Strip(req.phone.value)
                      && r.value.city == Strip(req.city.value)
                      && r.value.address == Strip(req.address.value)
                      && r.value.paymentType == Trimmed(req.paymentType)
                      && r.value.deliveryType == Trimmed(req.deliveryType)
    ensures r.Ok? ==> && ValidateFullName(r.value.fullname).None? && ValidatePhoneNumber(r.value.phone).None?
                      && ValidateCityName(r.value.city).None? && ValidateAddress(r.value.address).None?
  {
    var errors := ConfirmationErrors(req, allowedPayment, allowedDelivery);
    if errors != {} then Err(errors)
    else
      StripIdempotent(req.fullName.value);
      StripIdempotent(req.phone.value);
      StripIdempotent(req.city.value);
      StripIdempotent(req.address.value);
      Ok(ConfirmationData(
        Strip(req.fullName.value),
        Strip(req.email.value),
        Strip(req.phone.value),
        Trimmed(req.paymentType),
        Strip(req.city.value),
        Strip(req.address.value),
        Trimmed(req.deliveryType)))
  }

  /** The type names are trimmed before they are looked up, so a blank one
      counts as not given and a padded one is found. */
  lemma TypeNamesTrimmed(allowed: set<string>)
    requires "online" in allowed
    ensures ValidateTypeName(Trimmed(Some("   ")), allowed, PaymentTypeError) == Ok(Some(""))
    ensures ValidateTypeName(Trimmed(Some(" online")), allowed, PaymentTypeError) == Ok(Some("online"))
  {
    var blank := "   ";
    assert StripStart(blank, 3) == 3;
    assert StripStart(blank, 2) == 3;
    assert StripStart(blank, 1) == 3;
    assert StripStart(blank, 0) == 3;
    var padded := " online";
    assert StripStart(padded, 1) == 1;
    assert StripStart(padded, 0) == 1;
    assert StripEnd(padded, 1, 7) == 7;
    assert Strip(padded) == "online";
  }

  /** A phone with surrounding spaces is accepted and stored stripped. */
  lemma PhoneStrippedBeforeCheck()
    ensures ValidatePhone(Some(" +79876543210 ")) == Ok(Some("+79876543210"))
  {
    StripPadded("+79876543210");
    assert " " + "+79876543210" + " " == " +79876543210 ";
    PhoneExamples();
  }

  // ------------------------------------------------------------ OutOrderSerializer

  /** `get_status`: the status name, followed by the payment comment in
      brackets when there is a non-empty one; `None` without a status. */
  function StatusText(order: Order): (r: Option<string>)
    ensures r.None? <==> order.status.None?
    ensures r.Some? && !Truthy(order.paymentComment) ==> r.value == StatusName(order.status.value)
    ensures r.Some? && Truthy(order.paymentComment) ==>
              r.value == StatusName(order.status.value) + " (" + order.paymentComment.value + ")"
  {
    match order.status
    case None => None
    case Some(status) =>
      if Truthy(order.paymentComment) then Some(StatusName(status) + " (" + order.paymentComment.value + ")")
      else Some(StatusName(status))
  }

  /** The status is always readable back from the status text: it is the
      text itself, or the text up to the bracketed comment. */
  lemma StatusTextStartsWithName(order: Order)
    requires order.status.Some?
    ensures var t := StatusText(order).value;
            var n := StatusName(order.status.value);
            |n| <= |t| && t[..|n|] == n
  {
  }

  /** `a or b or None` over optional strings. */
  function FirstTruthy(a: Option<string>, b: Option<string>): (r: Option<string>)
    ensures r.None? <==> !Truthy(a) && !Truthy(b)
    ensures r.Some? ==> Truthy(r) && (r == a || r == b)
    ensures Truthy(a) ==> r == a
  {
    if Truthy(a) then a else if Truthy(b) then b else None
  }

  /** The receiver shown for an order: the order's own receiver fields, each
      falling back to the buyer's profile and then to `None`. */
  datatype Receiver = Receiver(fullName: Option<string>, email: Option<string>, phone: Option<string>)

  function ShownReceiver(order: Order, profileFullName: string, profileEmail: Option<string>, profilePhone: Option<string>): (r: Receiver)
    ensures Truthy(order.receiverFullname) ==> r.fullName == order.receiverFullname
    ensures !Truthy(order.receiverFullname) && profileFullName != "" ==> r.fullName == Some(profileFullName)
    ensures !Truthy(order.receiverFullname) && profileFullName == "" ==> r.fullName.None?
    ensures Truthy(order.receiverEmail) ==> r.email == order.receiverEmail
    ensures !Truthy(order.receiverEmail) && Truthy(profileEmail) ==> r.email == profileEmail
    ensures !Truthy(order.receiverEmail) && !Truthy(profileEmail) ==> r.email.None?
    ensures Truthy(order.receiverPhone) ==> r.phone == order.receiverPhone
    ensures !Truthy(order.receiverPhone) && Truthy(profilePhone) ==> r.phone == profilePhone
    ensures !Truthy(order.receiverPhone) && !Truthy(profilePhone) ==> r.phone.None?
  {
    Receiver(FirstTruthy(order.receiverFullname, Some(profileFullName)),
             FirstTruthy(order.receiverEmail, profileEmail),
             FirstTruthy(order.receiverPhone, profilePhone))
  }

  /** An order that carries all of its own receiver data shows it, whatever
      the buyer's profile holds. */
  lemma OwnReceiverShown(order: Order, fullName: string, email: Option<string>, phone: Option<string>,
                         fullName': string, email': Option<string>, phone': Option<string>)
    requires Truthy(order.receiverFullname) && Truthy(order.receiverEmail) && Truthy(order.receiverPhone)
    ensures ShownReceiver(order, fullName, email, phone) == ShownReceiver(order, fullName', email', phone')
    ensures ShownReceiver(order, fullName, email, phone)
              == Receiver(order.receiverFullname, order.receiverEmail, order.receiverPhone)
  {
  }
}

=== FILE: ordered_product_form.dfy ===
/** The admin form for one order line (shop/orders/forms/ordered_product.py):
    its stock check when the quantity grows and the price it gives the line
    before the order model's bookkeeping runs. */
module OrderedProductForm {
  import opened Wrappers
  import opened Money
  import opened Text
  import opened Products
  import opened Ledger
  import opened Pricing
  import OrderModel

  /** A `ValidationError` naming the form field it belongs to. */
  datatype FieldError = FieldError(field: string, message: string)

  /** The form as submitted: a line being added, or a stored line that may
      be edited, marked for deletion or left alone. */
  datatype LineForm =
    | NewLine(product: ProductId, quantity: nat)
    | StoredLine(product: ProductId, quantity: nat, stored: Line, delete: bool, changed: bool)
  {
    /** `self.instance.total_quantity or 0`: a new instance holds no units. */
    function PreviousQuantity(): nat
    {
      match this
      case NewLine(_, _) => 0
      case StoredLine(_, _, stored, _, _) => stored.totalQuantity
    }
  }

  /** What `clean` hands on: the line's quantity and price, and for an edited
      line the stored values it replaces. */
  datatype CleanedLine = CleanedLine(totalQuantity: nat, totalPrice: Cents, previous: Option<Line>)

  /** `_validate_product_extra_qnty`: the stock must exceed the extra units,
      strictly. */
  function ValidateExtraQuantity(previousQty: nat, newQty: nat, available: nat): (r: Option<FieldError>)
    ensures r.None? <==> available > newQty - previousQty
    ensures r.Some? ==> r.value.field == "total_quantity"
  {
    if available > newQty - previousQty then None
    else if previousQty > 0 then
      Some(FieldError("total_quantity",
                      "You can add extra " + NatToString(available) + " items to ordered"
                      + NatToString(previousQty) + "! Total " + NatToString(previousQty + available) + "."))
    else Some(FieldError("total_quantity", NatToString(available) + " items are available to purchase!"))
  }

  /** `_validate_product_total_qnty`: nothing is looked up unless the quantity
      grows; then the product must be available and have more units than are added. */
  function ValidateTotalQuantity(products: Catalog, product: ProductId, previousQty: nat, newQty: nat): (r: Option<FieldError>)
    requires product in products
    ensures newQty <= previousQty ==> r.None?
    ensures newQty > previousQty ==>
              (r.None? <==> IsAvailable(products[product]) && products[product].count > newQty - previousQty)
    ensures newQty > previousQty && !IsAvailable(products[product]) ==> r.Some? && r.value.field == "product"
  {
    if newQty <= previousQty then None
    else if !(products[product].isActive && products[product].count > 0) then
      Some(FieldError("product", "'" + products[product].title + "' is not available to purchase or add extra quantity!"))
    else ValidateExtraQuantity(previousQty, newQty, products[product].count)
  }

  /** `OrderedProductInlineForm.clean`: a new line costs its quantity at
      today's price; a deleted or untouched line keeps its stored price; an
      edited line is re-priced from its stored values at today's price. */
  function Clean(products: Catalog, today: Date, form: LineForm): (r: Result<CleanedLine, FieldError>)
    requires form.product in products
    ensures r.Err? <==> ValidateTotalQuantity(products, form.product, form.PreviousQuantity(), form.quantity).Some?
    ensures r.Ok? ==> r.value.totalQuantity == form.quantity
    ensures r.Ok? && form.NewLine? ==>
              r.value.totalPrice == form.quantity * FinalPrice(products[form.product], today) && r.value.previous.None?
    ensures r.Ok? && form.StoredLine? && (form.delete || !form.changed) ==>
              r.value.totalPrice == form.stored.totalPrice && r.value.previous.None?
    ensures r.Ok? && form.StoredLine? && !form.delete && form.changed ==>
              && r.value.previous == Some(form.stored)
              && r.value.totalPrice == RecountTotalPrice(form.stored.totalQuantity, form.stored.totalPrice,
                                                        form.quantity, FinalPrice(products[form.product], today))
  {
    var error := ValidateTotalQuantity(products, form.product, form.PreviousQuantity(), form.quantity);
    if error.Some? then Err(error.value)
    else
      match form
      case NewLine(p, qty) => Ok(CleanedLine(qty, qty * FinalPrice(products[p], today), None))
      case StoredLine(p, qty, stored, delete, changed) =>
        if delete || !changed then Ok(CleanedLine(qty, stored.totalPrice, None))
        else
          var price := RecountTotalPrice(stored.totalQuantity, stored.totalPrice, qty, FinalPrice(products[p], today));
          Ok(CleanedLine(qty, price, Some(stored)))
  }

  /** The form's check is stricter than the model's: taking exactly the
      remaining stock is refused by the form and accepted by `custom_update`. */
  lemma FormStricterThanModel(s: Shop, o: OrderId, p: ProductId, stored: Line, today: Date)
    requires p in s.products && IsAvailable(s.products[p]) && o in s.orders
    ensures var qty := stored.totalQuantity + s.products[p].count;
            && Clean(s.products, today, StoredLine(p, qty, stored, false, true)).Err?
            && OrderModel.CustomUpdate(s, o, p, qty, 0, stored.totalPrice, stored.totalQuantity).Ok?
  {
  }

  /** Whenever the form lets an edit through, the model's bookkeeping can
      apply it: the form's stock check implies the model's. */
  lemma FormAcceptedEditApplies(s: Shop, o: OrderId, today: Date, form: LineForm)
    requires form.StoredLine? && form.product in s.products && o in s.orders
    requires IsAvailable(s.products[form.product])
    requires Clean(s.products, today, form).Ok?
    ensures var c := Clean(s.products, today, form).value;
            OrderModel.CustomUpdate(s, o, form.product, c.totalQuantity, c.totalPrice,
                                    form.stored.totalPrice, form.stored.totalQuantity).Ok?
  {
  }

  /** Whenever the form accepts a new line of at least one unit, creating it
      does not fail for lack of stock. */
  lemma FormAcceptedNewLineApplies(s: Shop, o: OrderId, today: Date, form: LineForm)
    requires form.NewLine? && form.product in s.products && form.quantity >= 1
    requires o in s.orders && (o, form.product) !in s.lines
    requires Clean(s.products, today, form).Ok?
    ensures var c := Clean(s.products, today, form).value;
            OrderModel.CustomCreate(s, o, form.product, c.totalQuantity, c.totalPrice).Ok?
  {
  }
}

=== FILE: pagination.dfy ===
/** Catalog pagination (shop/products/services/common.py): the page a query
    set is cut down to, and the number of the last page. Query sets are
    sequences; slicing one with a negative bound raises, as Django's
    `QuerySet.__getitem__` does. */
module Pagination {
  import opened Wrappers

  datatype PageError =
    | NegativeIndexing   // `ValueError("Negative indexing is not supported.")`
    | ZeroDivision       // `ZeroDivisionError` from a limit of 0

  function Min(a: int, b: int): int
  {
    if a < b then a else b
  }

  function Max(a: int, b: int): int
  {
    if a < b then b else a
  }

  /** `apply_pagination_to_qs`: the slice `[(page - 1) * limit, (page - 1) * limit + limit)`,
      cut short at the end of the items; a bound below zero raises. */
  function Page<T>(items: seq<T>, currentPage: int, limit: int): (r: Result<seq<T>, PageError>)
    ensures r.Err? <==> (currentPage - 1) * limit < 0 || (currentPage - 1) * limit + limit < 0
    ensures r.Ok? ==> |r.value| <= Max(limit, 0)
    ensures r.Ok? ==> var offset := (currentPage - 1) * limit;
                      forall i | 0 <= i < |r.value| :: offset + i < |items| && r.value[i] == items[offset + i]
    ensures r.Ok? && limit >= 0 ==>
              |r.value| == Max(0, Min(|items| - (currentPage - 1) * limit, limit))
  {
    var offset := (currentPage - 1) * limit;
    var lastItem := offset + limit;
    if offset < 0 || lastItem < 0 then Err(NegativeIndexing)
    else
      var lo := Min(offset, |items|);
      var hi := Min(Max(lastItem, offset), |items|);
      Ok(items[lo..hi])
  }

  /** Python's `//`: the quotient rounded down, for any non-zero divisor. */
  function FloorDiv(a: int, b: int): (q: int)
    requires b != 0
    ensures b > 0 ==> q * b <= a < q * b + b
    ensures b < 0 ==> q * b >= a > q * b + b
  {
    if b > 0 then a / b else (-a) / (-b)
  }

  /** `get_pagination_last_page`: the exact quotient when the limit divides
      the total, one more than the quotient rounded down otherwise. */
  function LastPage(total: nat, limit: int): (r: Result<int, PageError>)
    ensures r.Err? <==> limit == 0
    ensures r.Ok? && limit > 0 ==> (r.value - 1) * limit < total <= r.value * limit || (total == 0 && r.value == 0)
  {
    if limit == 0 then Err(ZeroDivision)
    else
      var q := FloorDiv(total, limit);
      if total - q * limit == 0 then Ok(q) else Ok(q + 1)
  }

  /** For a positive limit the last page is the least number of pages that
      hold every item: zero for no items. */
  lemma LastPageIsCeiling(total: nat, limit: int)
    requires limit > 0
    ensures var n := LastPage(total, limit).value;
            && n >= 0 && n * limit >= total
            && (forall m: int | 0 <= m && m * limit >= total :: n <= m)
  {
  }

  /** The items of pages 1 to k, in order. */
  function Pages<T>(items: seq<T>, limit: nat, k: nat): seq<T>
  {
    if k == 0 then [] else Pages(items, limit, k - 1) + Page(items, k, limit).value
  }

  /** Pages 1 to k together are exactly the first k * limit items: the pages
      follow each other without gap or overlap. */
  lemma {:induction false} PagesArePrefix<T>(items: seq<T>, limit: nat, k: nat)
    ensures Pages(items, limit, k) == items[..Min(k * limit, |items|)]
  {
    if k > 0 {
      PagesArePrefix(items, limit, k - 1);
      var lo := Min((k - 1) * limit, |items|);
      var hi := Min(k * limit, |items|);
      assert (k - 1) * limit <= k * limit;
      assert Page(items, k, limit).value == items[lo..hi];
      assert items[..lo] + items[lo..hi] == items[..hi];
    }
  }

  /** Going through pages 1 to the last page lists every item once, in
      order, and the page after the last is empty. */
  lemma LastPageListsAll<T>(items: seq<T>, limit: nat)
    requires limit > 0
    ensures var n := LastPage(|items|, limit).value;
            && n >= 0
            && Pages(items, limit, n) == items
            && Page(items, n + 1, limit) == Ok([])
  {
    var n := LastPage(|items|, limit).value;
    LastPageIsCeiling(|items|, limit);
    PagesArePrefix(items, limit, n);
    assert n * limit >= |items|;
  }
}

=== FILE: payment.dfy ===
/** Paying for an order (shop/orders/services/payment.py and
    shop/orders/serializers/payment.py): the card check, the hand-over of the
    order's total to the payment task, and the write-back of the bank's
    verdict. The two card lengths are imported from a constants module that
    does not define them, so they are parameters here; the clock is the
    current calendar year. */
module Payment {
  import opened Wrappers
  import opened Money
  import opened Text
  import opened FieldValidators
  import opened Ledger

  /** `CARD_NUMBER_LENGTH` and `CARD_CODE_LENGTH`. */
  datatype CardRules = CardRules(numberLength: nat, codeLength: nat)

  /** The request body; `None` is a missing field. */
  datatype CardRequest = CardRequest(
    number: Option<string>, name: Option<string>,
    month: Option<int>, year: Option<int>, code: Option<string>)

  datatype CardField = NumberField | NameField | MonthField | YearField | CodeField

  /** The serializer's data once valid. */
  datatype Card = Card(number: string, name: string, month: int, year: int, code: string)

  /** `current_year_last_digits`: the year modulo 2000. */
  function ShortYear(currentYear: nat): (r: nat)
    ensures r < 2000
  {
    currentYear % 2000
  }

  /** `validate_number`: the trimmed number must be digits only, of the card
      number length. */
  function CheckNumber(number: Option<string>, rules: CardRules): (r: Option<string>)
    ensures r.Some? <==> number.Some? && IsDigits(Strip(number.value)) && |Strip(number.value)| == rules.numberLength
    ensures r.Some? ==> r.value == Strip(number.value)
  {
    match number
    case None => None
    case Some(n) => if IsDigits(Strip(n)) && |Strip(n)| == rules.numberLength then Some(Strip(n)) else None
  }

  /** `validate_code`: as the number, with the code length. */
  function CheckCode(code: Option<string>, rules: CardRules): (r: Option<string>)
    ensures r.Some? <==> code.Some? && IsDigits(Strip(code.value)) && |Strip(code.value)| == rules.codeLength
    ensures r.Some? ==> r.value == Strip(code.value)
  {
    match code
    case None => None
    case Some(c) => if IsDigits(Strip(c)) && |Strip(c)| == rules.codeLength then Some(Strip(c)) else None
  }

  /** `validate_name`: the trimmed name must be a valid full name. */
  function CheckName(name: Option<string>): (r: Option<string>)
    ensures r.Some? <==> name.Some? && ValidateFullName(Strip(name.value)).None?
    ensures r.Some? ==> r.value == Strip(name.value)
  {
    match name
    case None => None
    case Some(n) => if ValidateFullName(Strip(n)).None? then Some(Strip(n)) else None
  }

  /** `validate_month`: 1 to 12. */
  function CheckMonth(month: Option<int>): (r: Option<int>)
    ensures r.Some? <==> month.Some? && 1 <= month.value <= 12
    ensures r.Some? ==> r == month
  {
    if month.Some? && 1 <= month.value <= 12 then month else None
  }

  /** `validate_year`: a year not before the current short year is kept;
      any other is retried modulo 2000 (Python's `%`, never negative for a
      positive divisor) and the remainder is kept if it is late enough. */
  function CheckYear(year: Option<int>, currentYear: nat): (r: Option<int>)
    ensures year.None? ==> r.None?
    ensures year.Some? && year.value >= ShortYear(currentYear) ==> r == year
    ensures year.Some? && year.value < ShortYear(currentYear) ==>
              (r.Some? <==> year.value % 2000 >= ShortYear(currentYear))
    ensures r.Some? ==> r.value >= ShortYear(currentYear)
    ensures r.Some? && year.value < ShortYear(currentYear) ==> r.value == year.value % 2000
  {
    match year
    case None => None
    case Some(y) =>
      if y >= ShortYear(currentYear) then year
      else if y % 2000 >= ShortYear(currentYear) then Some(y % 2000)
      else None
  }

  /** The retry modulo 2000 changes nothing for a non-negative year: such a
      year passes exactly when it is not before the current short year, and
      is kept as given. */
  lemma YearRetryOnlyForNegatives(year: int, currentYear: nat)
    requires year >= 0
    ensures CheckYear(Some(year), currentYear).Some? <==> year >= ShortYear(currentYear)
    ensures CheckYear(Some(year), currentYear).Some? ==> CheckYear(Some(year), currentYear) == Some(year)
  {
  }

  /** A year of -1 is always accepted, as 1999. */
  lemma MinusOneIsLate(currentYear: nat)
    ensures CheckYear(Some(-1), currentYear) == Some(1999)
  {
  }

  /** Whether the check of one field fails. */
  predicate FieldFails(f: CardField, req: CardRequest, rules: CardRules, currentYear: nat)
  {
    match f
    case NumberField => CheckNumber(req.number, rules).None?
    case NameField => CheckName(req.name).None?
    case MonthField => CheckMonth(req.month).None?
    case YearField => CheckYear(req.year, currentYear).None?
    case CodeField => CheckCode(req.code, rules).None?
  }

  /** The fields `PaymentCardSerializer.is_valid` reports, all checked together. */
  function CardErrors(req: CardRequest, rules: CardRules, currentYear: nat): (r: set<CardField>)
    ensures NumberField in r <==> CheckNumber(req.number, rules).None?
    ensures NameField in r <==> CheckName(req.name).None?
    ensures MonthField in r <==> CheckMonth(req.month).None?
    ensures YearField in r <==> CheckYear(req.year, currentYear).None?
    ensures CodeField in r <==> CheckCode(req.code, rules).None?
  {
    set f: CardField | f in {NumberField, NameField, MonthField, YearField, CodeField}
                       && FieldFails(f, req, rules, currentYear)
  }

  /** `PaymentCardSerializer(data=…).is_valid()` followed by `.data`: the
      card as its fields were cleaned, or every failing field. */
  function ValidateCard(req: CardRequest, rules: CardRules, currentYear: nat): (r: Result<Card, set<CardField>>)
    ensures r.Ok? <==> && CheckNumber(req.number, rules).Some? && CheckName(req.name).Some?
                       && CheckMonth(req.month).Some? && CheckYear(req.year, currentYear).Some?
                       && CheckCode(req.code, rules).Some?
    ensures r.Err? ==> r.error == CardErrors(req, rules, currentYear)
    ensures r.Ok? ==> r.value == Card(CheckNumber(req.number, rules).value, CheckName(req.name).value,
                                      CheckMonth(req.month).value, CheckYear(req.year, currentYear).value,
                                      CheckCode(req.code, rules).value)
  {
    var errors := CardErrors(req, rules, currentYear);
    if errors != {} then Err(errors)
    else
      assert NumberField !in errors && NameField !in errors && MonthField !in errors;
      assert YearField !in errors && CodeField !in errors;
      Ok(Card(CheckNumber(req.number, rules).value, CheckName(req.name).value,
              CheckMonth(req.month).value, CheckYear(req.year, currentYear).value,
              CheckCode(req.code, rules).value))
  }

  /** What a valid card passes on once the order's total is added
      (`payment_details` with `charge_price`). */
  datatype PaymentDetails = PaymentDetails(
    number: string, month: int, year: int, code: string, name: string, chargePrice: Cents)

  /** A queued `conduct_order_payment.delay(order_id, payment_details)`. */
  datatype PaymentTask = PaymentTask(orderId: OrderId, details: PaymentDetails)

  datatype Reply = Reply(status: nat, message: string)

  /** `pay_order`: an invalid card answers 400 and a missing order 500,
      both without writing or queueing anything; otherwise the order's
      status becomes "payment in progress", whatever it was, the Celery task is
      queued with the order's total as the charge, and the reply is 200. */
  function PayOrder(s: Shop, o: OrderId, req: CardRequest, rules: CardRules, currentYear: nat)
    : (r: (Shop, Reply, Option<PaymentTask>))
    ensures ValidateCard(req, rules, currentYear).Err? ==> r.0 == s && r.1.status == 400 && r.2.None?
    ensures ValidateCard(req, rules, currentYear).Ok? && o !in s.orders ==>
              r.0 == s && r.1.status == 500 && r.2.None?
    ensures r.1.status == 200 <==> ValidateCard(req, rules, currentYear).Ok? && o in s.orders
    ensures r.1.status == 200 ==>
              var card := ValidateCard(req, rules, currentYear).value;
              && r.0 == s.(orders := s.orders[o := s.orders[o].(status := Some(PaymentInProgress))])
              && r.1.message == "Processing payment"
              && r.2 == Some(PaymentTask(o, PaymentDetails(card.number, card.month, card.year, card.code,
                                                           card.name, s.orders[o].totalCost)))
  {
    match ValidateCard(req, rules, currentYear)
    case Err(_) => (s, Reply(400, "Invalid card details"), None)
    case Ok(card) =>
      if o !in s.orders then (s, Reply(500, "Internal Server Error"), None)
      else
        var order := s.orders[o];
        var details := PaymentDetails(card.number, card.month, card.year, card.code, card.name, order.totalCost);
        (s.(orders := s.orders[o := order.(status := Some(PaymentInProgress))]),
         Reply(200, "Processing payment"),
         Some(PaymentTask(o, details)))
  }

  /** Paying writes the status of one order and nothing else: costs, lines,
      stock and the other orders stay as they were. */
  lemma PayOrderOnlyMarksInProgress(s: Shop, o: OrderId, req: CardRequest, rules: CardRules, currentYear: nat)
    requires Valid(s)
    ensures var (s', _, _) := PayOrder(s, o, req, rules, currentYear);
            && Valid(s')
            && s'.products == s.products && s'.lines == s.lines && s'.orders.Keys == s.orders.Keys
            && (forall o' | o' in s.orders :: s'.orders[o'] == s.orders[o']
                  || (o' == o && s'.orders[o'] == s.orders[o'].(status := Some(PaymentInProgress))))
  {
  }

  /** An order already paid for is sent to the bank again. */
  lemma PaidOrderPayableAgain(s: Shop, o: OrderId, req: CardRequest, rules: CardRules, currentYear: nat)
    requires o in s.orders && s.orders[o].status == Some(Payed)
    requires ValidateCard(req, rules, currentYear).Ok?
    ensures PayOrder(s, o, req, rules, currentYear).1.status == 200
    ensures PayOrder(s, o, req, rules, currentYear).2.Some?
  {
  }

  // ------------------------------------------------------ update_order_payment_details

  /** What the payment task publishes: the order, the status name it reached
      and the `"msg"` of the details, if they have one. */
  datatype PaymentResult = PaymentResult(orderId: OrderId, orderStatus: string, message: Option<string>)

  /** `update_order_payment_details`: "payed" marks the order paid and clears
      the comment; any other status marks the payment rejected and keeps the
      message as the comment. An unknown order is left alone (the update
      matches no row). */
  function ApplyPaymentResult(s: Shop, result: PaymentResult): (r: Shop)
    ensures result.orderId !in s.orders ==> r == s
    ensures result.orderId in s.orders ==>
              && r.orders.Keys == s.orders.Keys
              && r.products == s.products && r.lines == s.lines && r.nextOrderId == s.nextOrderId
              && (forall o' | o' in s.orders && o' != result.orderId :: r.orders[o'] == s.orders[o'])
              && (result.orderStatus == "payed" ==>
                    r.orders[result.orderId] == s.orders[result.orderId].(status := Some(Payed), paymentComment := None))
              && (result.orderStatus != "payed" ==>
                    r.orders[result.orderId] == s.orders[result.orderId].(status := Some(PaymentRejected),
                                                                          paymentComment := result.message))
  {
    if result.orderId !in s.orders then s
    else
      var paid := result.orderStatus == "payed";
      var status := if paid then Payed else PaymentRejected;
      var comment := if paid then None else result.message;
      s.(orders := s.orders[result.orderId := s.orders[result.orderId].(status := Some(status), paymentComment := comment)])
  }

  /** Applying the same result twice leaves the state it left once. */
  lemma ApplyPaymentResultIdempotent(s: Shop, result: PaymentResult)
    ensures ApplyPaymentResult(ApplyPaymentResult(s, result), result) == ApplyPaymentResult(s, result)
  {
    var s' := ApplyPaymentResult(s, result);
    if result.orderId in s.orders {
      assert s'.orders[result.orderId := s'.orders[result.orderId]] == s'.orders;
    }
  }

  /** Once a result is applied, the comment is set exactly when the payment
      was rejected with a message, which is what the order form asks of a
      rejected payment. */
  lemma AppliedResultComment(s: Shop, result: PaymentResult)
    requires result.orderId in s.orders
    ensures var order := ApplyPaymentResult(s, result).orders[result.orderId];
            && (order.status == Some(Payed) <==> result.orderStatus == "payed")
            && (order.paymentComment.Some? <==> result.orderStatus != "payed" && result.message.Some?)
  {
  }
}

=== FILE: payment_task.dfy ===
/** The payment task (shop/orders/tasks.py): one request to the bank and one
    published result, whatever happens in between. The network call,
    encryption and the message channel are abstracted into the outcome of
    the call and the result value. */
module PaymentTask {
  import opened Wrappers
  import opened Money
  import opened Ledger
  import opened Payment
  import Bank

  /** How the call to the bank ended. A reply body that cannot be decrypted
      or read is `None`; a readable one gives the `"msg"` it holds, if any. */
  datatype BankOutcome =
    | Timeout
    | Answered(status: int, message: Option<Option<string>>)
    | OtherError          // encoding, encryption or connection failure before any reply

  const NotResponding := "Bank is not responding!"
  const InternalError := "Internal Server Error"

  /** `conduct_order_payment`: the status is "payed" exactly when the bank
      answered 200, even if its body then fails to decrypt; the details are
      the bank's body, or a fixed message when the call or the decryption
      failed. */
  function ConductOrderPayment(orderId: OrderId, outcome: BankOutcome): (r: PaymentResult)
    ensures r.orderId == orderId
    ensures r.orderStatus == "payed" <==> outcome.Answered? && outcome.status == 200
    ensures r.orderStatus != "payed" ==> r.orderStatus == "payment rejected"
    ensures outcome.Timeout? ==> r.message == Some(NotResponding)
    ensures outcome.OtherError? || (outcome.Answered? && outcome.message.None?) ==> r.message == Some(InternalError)
    ensures outcome.Answered? && outcome.message.Some? ==> r.message == outcome.message.value
  {
    match outcome
    case Timeout => PaymentResult(orderId, "payment rejected", Some(NotResponding))
    case OtherError => PaymentResult(orderId, "payment rejected", Some(InternalError))
    case Answered(status, body) =>
      var orderStatus := if status == 200 then "payed" else "payment rejected";
      match body
      case None => PaymentResult(orderId, orderStatus, Some(InternalError))
      case Some(message) => PaymentResult(orderId, orderStatus, message)
  }

  /** A 200 whose body cannot be read still marks the order paid. */
  lemma PaidDespiteUnreadableReply(s: Shop, o: OrderId)
    requires o in s.orders
    ensures ApplyPaymentResult(s, ConductOrderPayment(o, Answered(200, None))).orders[o].status == Some(Payed)
  {
  }

  /** A bank that does not answer leaves the order rejected, with a comment
      saying so. */
  lemma TimeoutRejects(s: Shop, o: OrderId)
    requires o in s.orders
    ensures var order := ApplyPaymentResult(s, ConductOrderPayment(o, Timeout)).orders[o];
            order.status == Some(PaymentRejected) && order.paymentComment == Some(NotResponding)
  {
  }

  /** The whole payment of an order whose card the shop accepted, with the
      bank reached and its reply read: the order ends up paid, with no
      comment, exactly when the card number ends in 2, 4, 6 or 8, and
      otherwise rejected with one of the bank's four messages as comment. */
  lemma PaymentRoundTrip(s: Shop, o: OrderId, req: CardRequest, rules: CardRules, currentYear: nat, choice: nat)
    requires rules.numberLength == Bank.CardNumberLength
    requires choice < |Bank.PaymentErrors|
    requires o in s.orders && s.orders[o].totalCost >= 0
    requires ValidateCard(req, rules, currentYear).Ok?
    ensures var (s1, reply, task) := PayOrder(s, o, req, rules, currentYear);
            && reply.status == 200 && task.Some?
            && var answer := Bank.ConductUserPayment(Bank.Details(task.value.details), currentYear, choice);
               var s2 := ApplyPaymentResult(s1, ConductOrderPayment(o, Answered(answer.status, Some(Some(answer.message)))));
               var card := ValidateCard(req, rules, currentYear).value;
               && o in s2.orders
               && (s2.orders[o].status == Some(Payed) <==> card.number[|card.number| - 1] in "2468")
               && (s2.orders[o].status == Some(Payed) ==> s2.orders[o].paymentComment.None?)
               && (s2.orders[o].status != Some(Payed) ==>
                     && s2.orders[o].status == Some(PaymentRejected)
                     && s2.orders[o].paymentComment.Some?
                     && s2.orders[o].paymentComment.value in Bank.PaymentErrors)
  {
    var card := ValidateCard(req, rules, currentYear).value;
    var (s1, reply, task) := PayOrder(s, o, req, rules, currentYear);
    Bank.ShopCardMeetsSchema(req, rules, currentYear, s.orders[o].totalCost);
    Bank.ApprovedByLastDigit(card.number, choice);
  }
}

=== FILE: pricing.dfy ===
/** Prices computed from other prices: the delivery cost of an order
    (shop/orders/services/common.py), the new total of an order line whose
    quantity changes (shop/orders/services/ordered_product.py) and the unit
    price shown for a stored line (shop/orders/forms/ordered_product.py:34-40).
    Amounts are cents; `round(x, 2)` on a `Decimal` rounds half to even. */
module Pricing {
  import opened Wrappers
  import opened Money
  import opened Ledger

  datatype PricingError =
    | NoneComparison   // `TypeError`: a `Decimal` compared with `None`
    | DivisionByZero   // `Decimal` division by a zero quantity

  /** `DeliveryService.count_cost`: free from the threshold on (inclusive),
      the delivery type's price below it. A missing threshold is compared
      with the order price all the same, which raises. */
  function DeliveryCost(orderPrice: Cents, deliveryType: DeliveryType): (r: Result<Cents, PricingError>)
    ensures r.Err? <==> deliveryType.freeDeliveryOrderPrice.None?
    ensures r.Err? ==> r.error == NoneComparison
    ensures r.Ok? ==> r.value == 0 || r.value == deliveryType.price
    ensures r.Ok? && orderPrice >= deliveryType.freeDeliveryOrderPrice.value ==> r.value == 0
    ensures r.Ok? && orderPrice < deliveryType.freeDeliveryOrderPrice.value ==> r.value == deliveryType.price
  {
    match deliveryType.freeDeliveryOrderPrice
    case None => Err(NoneComparison)
    case Some(threshold) => if orderPrice >= threshold then Ok(0) else Ok(deliveryType.price)
  }

  /** With a non-negative delivery price, a dearer order never pays more for delivery. */
  lemma DeliveryCostAntitone(a: Cents, b: Cents, deliveryType: DeliveryType)
    requires deliveryType.freeDeliveryOrderPrice.Some? && deliveryType.price >= 0
    requires a <= b
    ensures DeliveryCost(b, deliveryType).value <= DeliveryCost(a, deliveryType).value
  {
  }

  /** `OrderedProductHandler.recount_total_price`: an unchanged quantity keeps
      the total; a smaller one scales the total down proportionally, rounded
      half to even to the cent; a larger one adds the extra units at the
      current price. */
  function RecountTotalPrice(previousQty: nat, previousTotal: Cents, newQty: nat, currentPrice: Cents): (r: Cents)
    ensures newQty == previousQty ==> r == previousTotal
    ensures newQty < previousQty ==> IsHalfEvenRounding(previousTotal * newQty, previousQty, r)
    ensures newQty > previousQty ==> r - previousTotal == (newQty - previousQty) * currentPrice
  {
    if newQty < previousQty then RoundHalfEven(previousTotal * newQty, previousQty)
    else if newQty > previousQty then previousTotal + (newQty - previousQty) * currentPrice
    else previousTotal
  }

  /** 10 units for 100.00 reduced to 4 cost 40.00; 4 units for 40.00 raised
      to 6 at 12.00 each cost 64.00. */
  lemma RecountExamples()
    ensures RecountTotalPrice(10, 10000, 4, 9999) == 4000
    ensures RecountTotalPrice(4, 4000, 6, 1200) == 6400
  {
    RoundExact(4000, 10);
  }

  /** A line whose total is a whole number of cents per unit keeps that unit
      price when its quantity is reduced. */
  lemma RecountKeepsUnitPrice(previousQty: nat, unit: Cents, newQty: nat, currentPrice: Cents)
    requires newQty < previousQty
    ensures RecountTotalPrice(previousQty, unit * previousQty, newQty, currentPrice) == unit * newQty
  {
    assert unit * previousQty * newQty == (unit * newQty) * previousQty;
    RoundExact(unit * newQty, previousQty);
  }

  /** Reducing a line to zero units makes it free. */
  lemma RecountToZero(previousQty: nat, previousTotal: Cents, currentPrice: Cents)
    requires previousQty > 0
    ensures RecountTotalPrice(previousQty, previousTotal, 0, currentPrice) == 0
  {
    RoundExact(0, previousQty);
  }

  /** A reduction never costs more than before nor less than nothing. */
  lemma RecountDecreaseBounded(previousQty: nat, previousTotal: Cents, newQty: nat, currentPrice: Cents)
    requires newQty < previousQty
    requires previousTotal >= 0
    ensures 0 <= RecountTotalPrice(previousQty, previousTotal, newQty, currentPrice) <= previousTotal
  {
    MulStep(newQty, previousQty, previousTotal);
    assert previousTotal * newQty <= previousTotal * previousQty;
    RoundAtMost(previousTotal * newQty, previousQty, previousTotal);
    assert 0 * previousQty <= previousTotal * newQty;
    RoundAtLeast(previousTotal * newQty, previousQty, 0);
  }

  /** An increase at a non-negative price never costs less than before. */
  lemma RecountIncreaseBounded(previousQty: nat, previousTotal: Cents, newQty: nat, currentPrice: Cents)
    requires newQty > previousQty
    requires currentPrice >= 0
    ensures RecountTotalPrice(previousQty, previousTotal, newQty, currentPrice) >= previousTotal
  {
  }

  /** A line that had no units takes the increase branch, so nothing is
      divided by zero. */
  lemma RecountFromNothing(previousTotal: Cents, newQty: nat, currentPrice: Cents)
    requires newQty > 0
    ensures RecountTotalPrice(0, previousTotal, newQty, currentPrice) == previousTotal + newQty * currentPrice
  {
  }

  /** The purchased unit price shown for a stored line: its total over its
      quantity, rounded half to even to the cent; a zero quantity raises. */
  function PurchasedPrice(totalPrice: Cents, totalQuantity: nat): (r: Result<Cents, PricingError>)
    ensures r.Err? <==> totalQuantity == 0
    ensures r.Err? ==> r.error == DivisionByZero
    ensures r.Ok? ==> IsHalfEvenRounding(totalPrice, totalQuantity, r.value)
  {
    if totalQuantity == 0 then Err(DivisionByZero) else Ok(RoundHalfEven(totalPrice, totalQuantity))
  }

  /** A line priced as quantity times unit price shows that unit price again. */
  lemma PurchasedPriceRoundTrip(unit: Cents, qty: nat)
    requires qty > 0
    ensures PurchasedPrice(unit * qty, qty) == Ok(unit)
  {
    RoundExact(unit, qty);
  }
}

=== FILE: product_forms.dfy ===
/** The admin forms of products and reviews (shop/products/forms/product.py):
    the price, sorting index and rate checks, and the stock check of the
    whole product form against the amount received and the amount sold. */
module ProductForms {
  import opened Wrappers
  import opened Forms
  import opened Money
  import opened Products
  import opened Ledger
  import opened ProductValidators

  const CountOverReceived := "Remains amount 'count' can not be more that received amount."
  const CountAndSoldOverReceived := "Summ of 'count'(remains) and 'sold' products can not be more then received amount!."

  /** `ProductForm.clean_price`: the price is kept unless it is negative. */
  function CleanPrice(price: Cents): (r: Cleaned<Cents>)
    ensures r != Crash
    ensures r == Value(price) <==> price >= 0
    ensures r.Invalid? ==> r.message == PriceError
  {
    match ValidatePrice(price)
    case None => Value(price)
    case Some(message) => Invalid(message)
  }

  /** `ProductForm.clean_sorting_index`: an empty or zero index is cleared;
      any other one is kept when it lies in 0..10. */
  function CleanSortingIndex(index: Option<int>): (r: Cleaned<Option<int>>)
    ensures r != Crash
    ensures index.None? || index == Some(0) ==> r == Value(None)
    ensures index.Some? && index.value != 0 ==> (r == Value(index) <==> 0 < index.value <= 10)
    ensures r.Invalid? ==> r.message == SortingIndexError
  {
    if index.None? || index.value == 0 then Value(None)
    else
      match ValidateSortingIndex(index.value)
      case None => Value(index)
      case Some(message) => Invalid(message)
  }

  /** `ProductReviewForm.clean_rate`: the rate is kept when it lies in 0..5. */
  function CleanRate(rate: int): (r: Cleaned<int>)
    ensures r != Crash
    ensures r == Value(rate) <==> 0 <= rate <= 5
    ensures r.Invalid? ==> r.message == ReviewRateError
  {
    match ValidateReviewRate(rate)
    case None => Value(rate)
    case Some(message) => Invalid(message)
  }

  /** `ProductForm.clean`: the remaining count may not exceed the amount
      received, nor the amount received less the units sold. The check runs
      for new and stored products alike; the units sold are `None` for a
      product no order line holds, and subtracting that raises. */
  function Clean(count: nat, receivedAmount: nat, sold: Option<int>): (r: Cleaned<()>)
    ensures r == Invalid(CountOverReceived) <==> count > receivedAmount
    ensures r == Crash <==> count <= receivedAmount && sold.None?
    ensures r == Invalid(CountAndSoldOverReceived) <==>
              count <= receivedAmount && sold.Some? && count > receivedAmount - sold.value
    ensures r.Value? <==> sold.Some? && count + sold.value <= receivedAmount && count <= receivedAmount
  {
    if count > receivedAmount then Invalid(CountOverReceived)
    else if sold.None? then Crash
    else if count > receivedAmount - sold.value then Invalid(CountAndSoldOverReceived)
    else Value(())
  }

  /** Stock the form lets through is accounted for: what remains and what
      the order lines hold together stay within the amount received. */
  lemma AcceptedStockAccounted(p: Product, lines: Lines, id: ProductId)
    requires Clean(p.count, p.receivedAmount, SoldAmount(lines, id)) == Value(())
    ensures p.count + Reserved(lines, id) <= p.receivedAmount
  {
  }

  /** A product that no order line holds cannot be saved through the form
      unless its count already exceeds the amount received. */
  lemma UnsoldProductCrashes(p: Product, lines: Lines, id: ProductId)
    requires forall o :: (o, id) !in lines
    requires p.count <= p.receivedAmount
    ensures Clean(p.count, p.receivedAmount, SoldAmount(lines, id)) == Crash
  {
  }
}

=== FILE: product_validators.dfy ===
/** The product and category checks of shop/products/validators.py, with the
    bounds of shop/products/services: each returns `None` when the value is
    fine and an error message otherwise. The nesting checks read the category
    tree; an unknown category has no level (`None`), and arithmetic or an
    ordering comparison on it raises. */
module ProductValidators {
  import opened Wrappers
  import opened Money
  import opened Categories

  const MaxNestingLevel: nat := 1
  const MinReviewRate := 0
  const MaxReviewRate := 5
  const MinSortingIndex := 0
  const MaxSortingIndex := 10

  const PriceError := "Product price should bigger then 0"
  const ReviewRateError := "Review rate should be between 0 and 5"
  const SortingIndexError := "Sorting index should be between 0 and 10"
  const ParentMaxNestingError := "Parent category has max nesting level = 1"
  const ParentExceededNestingError := "Parent category has exceeded max nesting level: 1"
  const SubcategoriesNestingError := "Subcategories will exceed max nesting level: 1"

  /** `validate_product_price`: a zero price is fine, a negative one is not. */
  function ValidatePrice(price: Cents): (r: Option<string>)
    ensures r.Some? <==> price < 0
    ensures r.Some? ==> r.value == PriceError
  {
    if price < 0 then Some(PriceError) else None
  }

  /** `validate_product_review_rate`: the rate must lie in 0..5, both ends included. */
  function ValidateReviewRate(rate: int): (r: Option<string>)
    ensures r.None? <==> 0 <= rate <= 5
    ensures r.Some? ==> r.value == ReviewRateError
  {
    if MaxReviewRate < rate || rate < MinReviewRate then Some(ReviewRateError) else None
  }

  /** `validate_product_sorting_index`: the index must lie in 0..10, both ends included. */
  function ValidateSortingIndex(index: int): (r: Option<string>)
    ensures r.None? <==> 0 <= index <= 10
    ensures r.Some? ==> r.value == SortingIndexError
  {
    if MaxSortingIndex < index || index < MinSortingIndex then Some(SortingIndexError) else None
  }

  /** The outcome of a nesting check: no error, an error message, or the
      `TypeError` of comparing or adding a missing level. */
  datatype Check = Passed | Failed(message: string) | TypeError

  /** `check_parent_nesting_level`: a parent at the maximum level, or deeper,
      cannot take a child. A missing level is first compared for equality,
      which is false, and then ordered, which raises. */
  function CheckParentNestingLevel(level: Option<nat>): (r: Check)
    ensures r == TypeError <==> level.None?
    ensures r == Failed(ParentMaxNestingError) <==> level == Some(MaxNestingLevel)
    ensures r == Failed(ParentExceededNestingError) <==> level.Some? && level.value > MaxNestingLevel
    ensures r == Passed <==> level.Some? && level.value < MaxNestingLevel
  {
    match level
    case None => TypeError
    case Some(n) =>
      if n == MaxNestingLevel then Failed(ParentMaxNestingError)
      else if n > MaxNestingLevel then Failed(ParentExceededNestingError)
      else Passed
  }

  /** `validate_parent_category_nesting`: the check applied to the parent's
      nesting level. With a maximum of 1 only a parent without active
      ancestors can take a child. */
  function ValidateParentCategoryNesting(t: Tree, parent: CategoryId): (r: Check)
    ensures r == CheckParentNestingLevel(NestingLevel(t, parent))
    ensures r == TypeError <==> parent !in t
    ensures r == Passed <==> NestingLevel(t, parent) == Some(0)
  {
    CheckParentNestingLevel(NestingLevel(t, parent))
  }

  /** `validate_new_parent_category`: a parent-level error is reported first;
      otherwise the category's own subtree, hung one level below the parent,
      must stay within the maximum. */
  function ValidateNewParentCategory(t: Tree, id: CategoryId, parent: CategoryId): (r: Check)
    ensures CheckParentNestingLevel(NestingLevel(t, parent)) != Passed ==>
              r == CheckParentNestingLevel(NestingLevel(t, parent))
    ensures CheckParentNestingLevel(NestingLevel(t, parent)) == Passed ==>
              (r == TypeError <==> id !in t)
    ensures r == Passed <==>
              && NestingLevel(t, parent).Some? && SubtreeLevel(t, id).Some?
              && NestingLevel(t, parent).value + 1 + SubtreeLevel(t, id).value <= MaxNestingLevel
    ensures r.Failed? && NestingLevel(t, parent) == Some(0) ==> r.message == SubcategoriesNestingError
  {
    var parentCheck := CheckParentNestingLevel(NestingLevel(t, parent));
    if parentCheck != Passed then parentCheck
    else
      match SubtreeLevel(t, id)
      case None => TypeError
      case Some(depth) =>
        if NestingLevel(t, parent).value + 1 + depth > MaxNestingLevel then Failed(SubcategoriesNestingError)
        else Passed
  }

  /** With a maximum of 1 a category may move only under a parent without
      active ancestors, and only when it has no active subcategories. */
  lemma NewParentOnlyForLeafUnderTop(t: Tree, id: CategoryId, parent: CategoryId)
    ensures ValidateNewParentCategory(t, id, parent) == Passed <==>
              NestingLevel(t, parent) == Some(0) && SubtreeLevel(t, id) == Some(0)
  {
  }

  /** The move the check lets through leaves the moved category at most one
      level deep: its new parent has no active ancestor, even when the old
      tree made the category an ancestor of that parent. */
  lemma AcceptedMoveKeepsNesting(t: Tree, id: CategoryId, parent: CategoryId)
    requires id in t && parent != id
    requires ValidateNewParentCategory(t, id, parent) == Passed
    ensures var t' := t[id := t[id].(parent := Some(parent))];
            NestingLevel(t', id).Some? && NestingLevel(t', id).value <= MaxNestingLevel
  {
    var t' := t[id := t[id].(parent := Some(parent))];
    assert !ActiveAncestor(t, parent, 1);
    assert Ancestor(t', id, 2) == Ancestor(t', parent, 1);
    assert !ActiveAncestor(t', id, 2);
  }

  /** Nothing stops a top-level category without subcategories from being
      made its own parent. */
  lemma SelfParentAccepted(t: Tree, id: CategoryId)
    requires id in t
    requires NestingLevel(t, id) == Some(0) && SubtreeLevel(t, id) == Some(0)
    ensures ValidateNewParentCategory(t, id, id) == Passed
  {
  }
}

=== FILE: products.dfy ===
/** Products and the rules that read them: the price a buyer pays today
    (shop/products/models/product.py:71-87) and the availability and sales
    listings (shop/products/models/product.py:128-181). */
module Products {
  import opened Wrappers
  import opened Money

  type ProductId = nat

  /** A calendar day; only the order of days matters. */
  type Date = int

  datatype Product = Product(
    title: string,
    price: Cents,
    salesPrice: Option<Cents>,
    salesFrom: Option<Date>,
    salesTo: Option<Date>,
    receivedAmount: nat,
    count: nat,
    isActive: bool,
    isSales: bool,
    freeDelivery: bool)

  type Catalog = map<ProductId, Product>

  /** `today` lies in the sale window; a missing bound leaves that side open
      and both bounds count as inside. */
  predicate InSalesWindow(p: Product, today: Date)
  {
    && (p.salesFrom.None? || p.salesFrom.value <= today)
    && (p.salesTo.None? || today <= p.salesTo.value)
  }

  /** Python truthiness of `sales_price`: `None` and `0` are both false. */
  predicate HasSalesPrice(p: Product)
  {
    p.salesPrice.Some? && p.salesPrice.value != 0
  }

  /** `count_final_price`: the sale price when the sale is on, the base price otherwise. */
  function FinalPrice(p: Product, today: Date): (r: Cents)
    ensures r == p.price || (HasSalesPrice(p) && r == p.salesPrice.value)
  {
    if p.isSales && HasSalesPrice(p) && InSalesWindow(p, today) then p.salesPrice.value else p.price
  }

  /** The sale price is charged exactly when the flag is set, a non-zero sale
      price is stored and today is in the window (unless the two prices coincide). */
  lemma FinalPriceIsSalePrice(p: Product, today: Date)
    requires p.price != p.salesPrice.GetOr(p.price)
    ensures FinalPrice(p, today) != p.price <==>
              p.isSales && HasSalesPrice(p) && InSalesWindow(p, today)
  {
  }

  /** Without the sale flag the base price applies on every day. */
  lemma NoSaleFlagBasePrice(p: Product, today: Date)
    requires !p.isSales
    ensures FinalPrice(p, today) == p.price
  {
  }

  /** A stored sale price of zero counts as no sale price. */
  lemma ZeroSalePriceIgnored(p: Product, today: Date)
    requires p.salesPrice == Some(0)
    ensures FinalPrice(p, today) == p.price
  {
  }

  /** Both ends of the sale window are inside it. */
  lemma SalesWindowInclusive(p: Product)
    requires p.isSales && HasSalesPrice(p)
    requires p.salesFrom.Some? && p.salesTo.Some? && p.salesFrom.value <= p.salesTo.value
    ensures FinalPrice(p, p.salesFrom.value) == p.salesPrice.value
    ensures FinalPrice(p, p.salesTo.value) == p.salesPrice.value
    ensures FinalPrice(p, p.salesFrom.value - 1) == p.price
    ensures FinalPrice(p, p.salesTo.value + 1) == p.price
  {
  }

  // -------------------------------------------------------------- availability

  /** `is_active=True, count__gt=0` */
  predicate IsAvailable(p: Product)
  {
    p.isActive && p.count > 0
  }

  /** `is_active=False | count__lte=0` */
  predicate IsUnavailable(p: Product)
  {
    !p.isActive || p.count <= 0
  }

  /** `select_available_products` / `filter_available` restricted to `ids`. */
  function AvailableIds(products: Catalog, ids: set<ProductId>): (r: set<ProductId>)
    ensures forall id :: id in r <==> id in ids && id in products && products[id].isActive && products[id].count > 0
  {
    set id | id in ids && id in products && IsAvailable(products[id])
  }

  /** `get_unavailable_products`. */
  function UnavailableIds(products: Catalog, ids: set<ProductId>): (r: set<ProductId>)
    ensures forall id :: id in r <==> id in ids && id in products && (!products[id].isActive || products[id].count <= 0)
  {
    set id | id in ids && id in products && IsUnavailable(products[id])
  }

  /** The two queries split the known requested ids between them. */
  lemma AvailabilityPartition(products: Catalog, ids: set<ProductId>)
    ensures AvailableIds(products, ids) !! UnavailableIds(products, ids)
    ensures AvailableIds(products, ids) + UnavailableIds(products, ids) == ids * products.Keys
  {
  }

  /** `get_sales_products`: active, in stock, flagged and in the window. */
  predicate InSalesListing(p: Product, today: Date)
  {
    p.isActive && p.count >= 1 && p.isSales && InSalesWindow(p, today)
  }

  /** The sales listing does not look at the sale price: a flagged product
      without one is listed while still selling at its base price. */
  lemma SalesListingIgnoresSalePrice(today: Date)
    ensures var p := Product("Lamp", 1000, None, None, None, 5, 5, true, true, false);
            InSalesListing(p, today) && FinalPrice(p, today) == p.price
  {
  }

  /** Every listed product with a non-zero sale price sells at that price today. */
  lemma ListedSalePrice(p: Product, today: Date)
    requires InSalesListing(p, today) && HasSalesPrice(p)
    ensures FinalPrice(p, today) == p.salesPrice.value
    ensures IsAvailable(p)
  {
  }
}

=== FILE: sums.dfy ===
/** Sums over finite maps keyed by naturals (database ids). The SQL `SUM`
    aggregates of the source are sums over such maps; the order in which rows
    are added is irrelevant, which `TotalRemove` makes precise. */
module Sums {

  lemma LeastExists(s: set<nat>)
    requires s != {}
    ensures exists m :: m in s && forall x | x in s :: m <= x
  {
    var y :| y in s;
    LeastBelow(s, y);
  }

  /** Below any element of a set of naturals there is a least one: descend
      while a smaller element exists. */
  lemma {:induction false} LeastBelow(s: set<nat>, y: nat)
    requires y in s
    ensures exists m :: m in s && m <= y && forall x | x in s :: m <= x
    decreases y
  {
    if z :| z in s && z < y {
      LeastBelow(s, z);
    } else {
      assert forall x | x in s :: y <= x;
    }
  }

  /** The least element of a non-empty set of ids. */
  function Least(s: set<nat>): (m: nat)
    requires s != {}
    ensures m in s
    ensures forall x | x in s :: m <= x
  {
    LeastExists(s);
    var m :| m in s && forall x | x in s :: m <= x;
    m
  }

  /** `Least` is the one least element. */
  lemma LeastUnique(s: set<nat>, x: nat)
    requires x in s
    requires forall y | y in s :: x <= y
    ensures Least(s) == x
  {
  }

  /** The sum of the values of `m`, added in ascending key order. */
  function Total(m: map<nat, int>): int
    decreases |m|
  {
    if m == map[] then 0
    else
      var k := Least(m.Keys);
      assert (m - {k}).Keys == m.Keys - {k};
      m[k] + Total(m - {k})
  }

  /** Any entry can be taken out of a total first. */
  lemma {:induction false} TotalRemove(m: map<nat, int>, k: nat)
    requires k in m
    ensures Total(m) == m[k] + Total(m - {k})
    decreases |m|
  {
    var j := Least(m.Keys);
    assert (m - {j}).Keys == m.Keys - {j};
    if j != k {
      assert k in m - {j};
      TotalRemove(m - {j}, k);
      assert m - {j} - {k} == m - {k} - {j};
      assert (m - {k}).Keys == m.Keys - {k};
      LeastUnique((m - {k}).Keys, j);
    }
  }

  /** Setting one entry changes the total by the difference of the entries. */
  lemma TotalUpdate(m: map<nat, int>, k: nat, v: int)
    ensures Total(m[k := v]) == Total(m - {k}) + v
    ensures k in m ==> Total(m[k := v]) == Total(m) - m[k] + v
  {
    TotalRemove(m[k := v], k);
    assert m[k := v] - {k} == m - {k};
    if k in m {
      TotalRemove(m, k);
    }
  }

  lemma TotalEmpty(m: map<nat, int>)
    requires m == map[]
    ensures Total(m) == 0
  {
  }

  /** A total of non-negative entries is non-negative. */
  lemma {:induction false} TotalNonNegative(m: map<nat, int>)
    requires forall k | k in m :: m[k] >= 0
    ensures Total(m) >= 0
    decreases |m|
  {
    if m != map[] {
      var k := Least(m.Keys);
      assert (m - {k}).Keys == m.Keys - {k};
      TotalNonNegative(m - {k});
    }
  }
}

=== FILE: text.dfy ===
/** Strings as the source's validators see them: character classes of the
    regular expressions, `str.isspace`, `str.isdigit`, `str.strip`, and the
    decimal `str(int)` / `int(str)` conversions. Digits are ASCII digits. */
module Text {

  predicate IsAsciiDigit(c: char)
  {
    '0' <= c <= '9'
  }

  /** `a-zA-Z` */
  predicate IsLatinLetter(c: char)
  {
    'a' <= c <= 'z' || 'A' <= c <= 'Z'
  }

  /** `А-Яа-я`: the code points U+0410 to U+044F (so neither `Ё` nor `ё`). */
  predicate IsCyrillicLetter(c: char)
  {
    '\U{0410}' <= c <= '\U{042F}' || '\U{0430}' <= c <= '\U{044F}'
  }

  /** The characters for which Python's `str.isspace` holds. */
  predicate IsWhitespace(c: char)
  {
    || '\t' <= c <= '\r'
    || '\U{001C}' <= c <= '\U{001F}'
    || c == ' '
    || c == '\U{0085}'
    || c == '\U{00A0}'
    || c == '\U{1680}'
    || '\U{2000}' <= c <= '\U{200A}'
    || c == '\U{2028}'
    || c == '\U{2029}'
    || c == '\U{202F}'
    || c == '\U{205F}'
    || c == '\U{3000}'
  }

  /** `str.isspace()`: false on the empty string. */
  predicate IsSpace(s: string)
  {
    |s| > 0 && forall i | 0 <= i < |s| :: IsWhitespace(s[i])
  }

  /** `str.isdigit()`: false on the empty string. */
  predicate IsDigits(s: string)
  {
    |s| > 0 && AllDigits(s)
  }

  predicate AllDigits(s: string)
  {
    forall i | 0 <= i < |s| :: IsAsciiDigit(s[i])
  }

  predicate AllIn(s: string, cls: char -> bool)
  {
    forall i | 0 <= i < |s| :: cls(s[i])
  }

  /** `re.match("^[cls]{minLen,}$", s)`. Without the MULTILINE flag Python's
      `$` also matches just before a final newline, so one trailing "\n" is
      accepted after the run of class characters. */
  predicate FullMatch(s: string, cls: char -> bool, minLen: nat)
  {
    || (|s| >= minLen && AllIn(s, cls))
    || (|s| >= minLen + 1 && s[|s| - 1] == '\n' && AllIn(s[..|s| - 1], cls))
  }

  // ---------------------------------------------------------------- str.strip

  /** Index of the first character that is not whitespace (or `|s|`). */
  function StripStart(s: string, i: nat): (k: nat)
    requires i <= |s|
    requires forall m | 0 <= m < i :: IsWhitespace(s[m])
    ensures i <= k <= |s|
    ensures forall m | 0 <= m < k :: IsWhitespace(s[m])
    ensures k == |s| || !IsWhitespace(s[k])
    decreases |s| - i
  {
    if i < |s| && IsWhitespace(s[i]) then StripStart(s, i + 1) else i
  }

  /** One past the last character at or after `lo` that is not whitespace (or `lo`). */
  function StripEnd(s: string, lo: nat, j: nat): (k: nat)
    requires lo <= j <= |s|
    requires forall m | j <= m < |s| :: IsWhitespace(s[m])
    ensures lo <= k <= j
    ensures forall m | k <= m < |s| :: IsWhitespace(s[m])
    ensures k == lo || !IsWhitespace(s[k - 1])
    decreases j
  {
    if lo < j && IsWhitespace(s[j - 1]) then StripEnd(s, lo, j - 1) else j
  }

  /** `str.strip()`: the slice of `s` left after removing whitespace at both ends. */
  function Strip(s: string): (r: string)
    ensures exists i, j | 0 <= i <= j <= |s| :: && r == s[i..j]
                                                && (forall m | 0 <= m < i :: IsWhitespace(s[m]))
                                                && (forall m | j <= m < |s| :: IsWhitespace(s[m]))
    ensures |r| > 0 ==> !IsWhitespace(r[0]) && !IsWhitespace(r[|r| - 1])
  {
    var i := StripStart(s, 0);
    var j := StripEnd(s, i, |s|);
    assert j > i ==> !IsWhitespace(s[i]);
    s[i..j]
  }

  /** A string without whitespace at either end is its own strip. */
  lemma {:induction false} StripTrimmed(s: string)
    requires |s| > 0 ==> !IsWhitespace(s[0]) && !IsWhitespace(s[|s| - 1])
    ensures Strip(s) == s
  {
    var i := StripStart(s, 0);
    assert i == 0;
    var j := StripEnd(s, i, |s|);
    assert j == |s|;
  }

  lemma StripIdempotent(s: string)
    ensures Strip(Strip(s)) == Strip(s)
  {
    StripTrimmed(Strip(s));
  }

  /** One space on each side of a trimmed, non-empty string is stripped off
      again. */
  lemma StripPadded(t: string)
    requires |t| > 0 && !IsWhitespace(t[0]) && !IsWhitespace(t[|t| - 1])
    ensures Strip(" " + t + " ") == t
  {
    var s := " " + t + " ";
    assert s[1] == t[0] && s[|s| - 2] == t[|t| - 1];
    assert StripStart(s, 1) == 1;
    assert StripEnd(s, 1, |s| - 1) == |s| - 1;
    assert s[1..|s| - 1] == t;
  }

  /** Stripping a whitespace-only string leaves nothing. */
  lemma StripSpace(s: string)
    requires IsSpace(s)
    ensures Strip(s) == ""
  {
  }

  // ----------------------------------------------------------- str(int), int(str)

  function DigitChar(d: nat): (c: char)
    requires d < 10
    ensures IsAsciiDigit(c)
  {
    ('0' as int + d) as char
  }

  function DigitValue(c: char): (d: nat)
    requires IsAsciiDigit(c)
    ensures d < 10
  {
    c as int - '0' as int
  }

  /** `str(n)` for a natural number. */
  function NatToString(n: nat): (s: string)
    ensures IsDigits(s)
    decreases n
  {
    if n < 10 then [DigitChar(n)] else NatToString(n / 10) + [DigitChar(n % 10)]
  }

  /** `int(s)` for a string of digits. */
  function ParseNat(s: string): nat
    requires AllDigits(s)
    decreases |s|
  {
    if |s| == 0 then 0 else 10 * ParseNat(s[..|s| - 1]) + DigitValue(s[|s| - 1])
  }

  lemma {:induction false} ParseNatToString(n: nat)
    ensures ParseNat(NatToString(n)) == n
    decreases n
  {
    var s := NatToString(n);
    if n >= 10 {
      ParseNatToString(n / 10);
      assert s[..|s| - 1] == NatToString(n / 10);
    }
  }

  /** The last digit of a number is its remainder modulo ten. */
  lemma LastDigit(s: string)
    requires IsDigits(s)
    ensures ParseNat(s) % 10 == DigitValue(s[|s| - 1])
  {
    var p := ParseNat(s[..|s| - 1]);
    var d := DigitValue(s[|s| - 1]);
    assert ParseNat(s) == 10 * p + d;
    assert (10 * p + d) % 10 == d;
  }

  /** `str(i)` for any integer. */
  function IntToString(i: int): (s: string)
    ensures |s| > 0
  {
    if i < 0 then "-" + NatToString(-i) else NatToString(i)
  }

  /** The strings `str` produces for integers: an optional minus sign and digits. */
  predicate IsIntLiteral(s: string)
  {
    if |s| > 0 && s[0] == '-' then IsDigits(s[1..]) else IsDigits(s)
  }

  /** `int(s)` for an integer literal. */
  function ParseInt(s: string): int
    requires IsIntLiteral(s)
  {
    if |s| > 0 && s[0] == '-' then 0 - ParseNat(s[1..]) as int else ParseNat(s)
  }

  /** `int(str(i)) == i`. */
  lemma IntToStringRoundTrip(i: int)
    ensures IsIntLiteral(IntToString(i))
    ensures ParseInt(IntToString(i)) == i
  {
    var s := IntToString(i);
    if i < 0 {
      assert s[1..] == NatToString(-i);
      ParseNatToString(-i);
    } else {
      ParseNatToString(i);
    }
  }

  /** Distinct integers have distinct decimal strings. */
  lemma IntToStringInjective(i: int, j: int)
    requires IntToString(i) == IntToString(j)
    ensures i == j
  {
    IntToStringRoundTrip(i);
    IntToStringRoundTrip(j);
  }
}

=== FILE: wrappers.dfy ===
/** Optional values and results with an error value, used for the source's
    `None` returns and for its exceptions. */
module Wrappers {

  /** `None` stands for Python's `None`. */
  datatype Option<+T> = None | Some(value: T) {

    function GetOr(default: T): T
    {
      match this
      case Some(v) => v
      case None => default
    }
  }

  /** The outcome of an operation that may raise: `Err` carries what was raised. */
  datatype Result<+T, +E> = Ok(value: T) | Err(error: E) {

    predicate IsFailure()
    {
      Err?
    }

    function PropagateFailure<U>(): Result<U, E>
      requires Err?
    {
      Err(error)
    }

    function Extract(): T
      requires Ok?
    {
      value
    }
  }
}
